=== FILE: README.md ===
# matchv2 core, modelled in Dafny

This project models the rules at the heart of matchv2, a talent/company matching web
application. Talents register GitHub projects, companies post jobs, and a matcher and a
scraper answer match and scrape requests. Everything is stated as pure functions over
immutable data. Wherever the application does I/O, the result of that I/O is an input.

- **The client transport** (`apiFetch` and its four wrappers in lib/apiClient.ts).
  - It builds the URL, with `URLSearchParams` serialisation and a decoder proved to invert it.
  - It merges the request headers.
  - It sends a body only when that body is truthy.
  - It folds any HTTP response into `{data, error?, status}`.
- **The resource-cache hooks**: jobs, projects, auth session, scraping, match and match history.
  - Each operation is a `Step`: the request it issues, the state while in flight, the state
    once settled, and how its promise completes.
  - The fetch outcome is an input: an HTTP response, or a rejection.
- **The server-side match route** (app/api/match/route.ts): it dispatches on the body's shape
  and maps statuses.
- **The Flask backend** (backend/app.py).
  - Authentication covers `token_required`, `register` and `login`.
  - The protected routes are modelled over tables held as sequences of rows.
  - Token decoding, password checks, the matcher, the scraper and the clock are oracles.
- **The demo-mode auth provider** (components/auth-provider.tsx). It stores its user as
  `JSON.stringify` text, and a reader for that text is proved to invert it.
- **The match-result classifiers** (components/match-result.tsx): score bands, factor badges,
  and one card per match.

JavaScript values are modelled by `Json.Value`. JavaScript truthiness (`Truthy`) and Python
truthiness (`PyTruthy`) are separate predicates. They differ exactly on empty arrays and
empty objects.

A non-2xx response can carry an empty `error`. `apiFetch` computes it as
`data?.message || data?.error || res.statusText`, which is `""` when the body has neither
field and the reason text is empty, as it always is over HTTP/2
(`ApiClient.FailureErrorFalsy`). As a result, `deleteProject` can report success for a
failed call (`UseProjects.SilentFailedDelete`).

## Model

| member | source | states |
|---|---|---|
| Json.TruthinessDisagreement | lib/apiClient.ts:40 | JavaScript and Python truthiness agree on every value except empty arrays and empty objects, which only JavaScript treats as true |
| Json.Get | lib/apiClient.ts:55 | optional chaining `v?.key` gives the field of an object that has it, and undefined in every other case |
| Json.Or | lib/apiClient.ts:55 | JavaScript's logical or gives its first operand when that is truthy and its second otherwise |
| Json.Coalesce | hooks/useMatch.tsx:22 | `a ?? b` is `a` unless it is null or undefined, then `b` |
| Text.Split | backend/app.py:66 | a split has at least one piece and no piece contains the separator |
| Text.IndexOf | components/auth-provider.tsx:101 | the position of the first occurrence, or the length when there is none |
| Text.JoinSplit | lib/apiClient.ts:33 | joining the pieces of a split with the same separator restores the text |
| Text.SplitJoin | lib/apiClient.ts:33 | splitting a join of separator-free pieces gives the pieces back |
| Text.SplitAround | backend/app.py:216 | a split of `a + sep + b` is the split of `a` followed by the split of `b` |
| Text.FirstPartBeforeSeparator | components/auth-provider.tsx:101 | the first piece of a split is the text before the first separator |
| Text.Contains | components/match-result.tsx:80 | `includes` holds exactly when the text occurs at some position |
| FormUrlEncoding.Encode | lib/apiClient.ts:33 | every character of the encoded text is a safe form character |
| FormUrlEncoding.Pair | lib/apiClient.ts:33 | a parameter is written as encoded name, `=`, encoded value, with no `&`, `?` or `#` inside |
| FormUrlEncoding.Pairs | lib/apiClient.ts:33 | one field per parameter, none of which contains `&` |
| FormUrlEncoding.DecodePairsOfPairs | lib/apiClient.ts:33 | decoding the fields of a serialised list gives back every parameter in order |
| FormUrlEncoding.DecodeEncode | lib/apiClient.ts:33 | decoding the percent-encoded UTF-8 form of any string gives the string back |
| FormUrlEncoding.DecodeScalarOfEncoding | lib/apiClient.ts:33 | the `%XY` triples of one encoded character decode back to that character, and span exactly its encoding |
| FormUrlEncoding.DecodeSerialize | lib/apiClient.ts:33 | decoding a serialised parameter list gives back the same names and values in the same order |
| ApiClient.WithQuery | lib/apiClient.ts:32-35 | without parameters the endpoint is unchanged; with them the endpoint is a prefix, followed by `&` if it already had a `?` anywhere, else `?`, then the serialised query |
| ApiClient.QueryAppended | lib/apiClient.ts:32-35 | appending parameters keeps the path and the query fields already there, and adds exactly one field per parameter, each decoding back to that parameter |
| ApiClient.RequestHeaders | lib/apiClient.ts:37-41 | Content-Type defaults to application/json and a caller value overrides it; a truthy token sets `Authorization: Bearer <token>` over the caller's header; a falsy token leaves Authorization as the caller gave it; all other keys come from the caller |
| ApiClient.BuildRequest | lib/apiClient.ts:43-47 | the method defaults to GET; a body is sent if and only if it is truthy, and then it is the given value |
| ApiClient.Normalise | lib/apiClient.ts:49-57 | status is passed through; data is the parsed body or null; a 2xx answer has no error; otherwise the error is a truthy `message`, else a truthy `error`, else the reason text |
| ApiClient.UnparsableBodyIsNotAnError | lib/apiClient.ts:49-52 | a 2xx response whose body does not parse gives `data = null` and no error |
| ApiClient.FailureErrorFalsy | lib/apiClient.ts:55 | a failed response's error is falsy exactly when the body has no truthy `message` or `error` and the reason text is empty |
| ApiClient.GetOptions | lib/apiClient.ts:63-68 | the method becomes GET and every other option is kept |
| ApiClient.PostOptions | lib/apiClient.ts:73-79 | the method becomes POST, the body is the positional argument, and every other option is kept |
| ApiClient.PutOptions | lib/apiClient.ts:84-90 | the method becomes PUT, the body is the positional argument, and every other option is kept |
| ApiClient.DeleteOptions | lib/apiClient.ts:95-100 | the method becomes DELETE and every other option is kept |
| ApiClient.WrappersFixMethod | lib/apiClient.ts:63-100 | each wrapper's request uses its own method whatever the options say; POST and PUT send the positional body when it is truthy |
| Hooks.Begin | hooks/useJobs.tsx:27-28 | before a call, loading is true, the error is null and the list is kept |
| Hooks.Settle | hooks/useJobs.tsx:32-33 | after a call, loading is false, and the error is the reported one when truthy, else it stays as it was |
| Hooks.CaughtMessage | hooks/useScraping.tsx:59 | a thrown `Error` contributes its message; anything else gives the fallback text |
| ListCache.Refreshed | hooks/useJobs.tsx:34 | an array payload replaces the list in server order; otherwise the list is kept |
| ListCache.AppendIfPresent | hooks/useJobs.tsx:58 | a truthy element is appended after the unchanged prefix; a falsy one adds nothing |
| ListCache.ReplaceById | hooks/useJobs.tsx:72-74 | the length is kept; each element with the id becomes the new element and every other element stays in place |
| ListCache.RemoveById | hooks/useJobs.tsx:87 | an element is kept if and only if it was there and does not have the id |
| ListCache.RemoveByIdConcat | hooks/useJobs.tsx:87 | removal distributes over concatenation, so the relative order of what remains is kept |
| ListCache.RemoveAbsent | hooks/useProjects.tsx:71 | removing an id no element has leaves the list unchanged |
| ListCache.RemoveIdempotent | hooks/useProjects.tsx:71 | removing the same id twice is the same as removing it once |
| ListCache.RemoveAfterAppend | hooks/useJobs.tsx:58-87 | appending an element with an id and then removing that id is the same as only removing it |
| ListCache.ReplaceAbsent | hooks/useJobs.tsx:72-74 | updating an id no element has leaves the list unchanged |
| ListCache.ReplaceTouchesOnlyId | hooks/useProjects.tsx:54-58 | after removing the id, the updated list equals the original list with the same removal, so nothing else was touched |
| UseJobs.SettleFetch | hooks/useJobs.tsx:32-34 | applied to whatever state holds when the answer arrives: a rejection changes nothing; an answer ends loading, sets the error only when a truthy one is reported and keeps the current one otherwise, and makes an array `data.jobs` the list even when an error is reported, keeping the list otherwise |
| UseJobs.FetchJobs | hooks/useJobs.tsx:26-35 | sends a GET to /api/jobs with the token; loading and error bookkeeping; the list is replaced by an array `data.jobs` whether or not an error was reported, and kept otherwise; a rejected fetch leaves the hook loading |
| UseJobs.LastSettledFetchWins | hooks/useJobs.tsx:26-35 | of two overlapping fetches, the response that settles last decides the list, and loading ends false |
| UseJobs.GetJob | hooks/useJobs.tsx:37-46 | never changes the list and returns `data?.job` |
| UseJobs.AddJob | hooks/useJobs.tsx:48-60 | POSTs the input; a truthy `data.job` becomes the last element after the unchanged prefix; otherwise nothing is added; returns `data?.job` |
| UseJobs.UpdateJob | hooks/useJobs.tsx:62-76 | PUTs the input; loading ends false and the error is the reported one when truthy, else null; the length is kept; elements with the id become `data.job` when it is truthy, and all other elements are kept |
| UseJobs.DeleteJob | hooks/useJobs.tsx:78-88 | DELETE; once answered, loading ends false, the error is the reported one when truthy, else null, and the list is the old one with the id filtered out, order kept, whether or not an error was reported |
| UseJobs.AddThenDelete | hooks/useJobs.tsx:48-88 | adding a job the server returns with some id and then deleting that id leaves the cache as the original minus that id |
| UseProjects.FetchProjects | hooks/useProjects.tsx:21-28 | the list becomes an array `data.projects`, else is kept; loading ends false; the error is the reported one when truthy, else null |
| UseProjects.Report | hooks/useProjects.tsx:41 | `success` holds exactly when no truthy error was reported; `project` is `data?.project` |
| UseProjects.AddProject | hooks/useProjects.tsx:30-42 | a truthy `data.project` is appended at the end; loading ends false; the error is the reported one when truthy, else null; the result is `{success: !apiError, project}` |
| UseProjects.SuccessWithoutProject | hooks/useProjects.tsx:40-41 | a 2xx answer with no `project` reports success and leaves the list unchanged |
| UseProjects.UpdateProject | hooks/useProjects.tsx:44-60 | issues PATCH, which is outside the `ApiMethod` union; loading ends false; the error is the reported one when truthy, else null; the length is kept; elements with the id are replaced in place by a truthy `data.project` |
| UseProjects.DeleteProject | hooks/useProjects.tsx:62-73 | the id is filtered out unconditionally, the rest kept in order; `success` is `!apiError`; loading ends false; the error is the reported one when truthy, else null |
| UseProjects.AddUpdateDelete | hooks/useProjects.tsx:30-73 | adding a project the server returns with some id, optionally updating it, then deleting that id leaves the cache as the original minus that id |
| UseProjects.UpdatedItems | hooks/useProjects.tsx:54-58 | an answered update with a project carrying the id leaves exactly the `map` replacement of the list |
| UseProjects.SilentFailedDelete | hooks/useProjects.tsx:65-72 | a 500 with no reason text and no body reports success and no error |
| UseAuth.Initial | hooks/useAuth.tsx:5-10 | the initial token is the stored `token`, or null when there is no window or nothing is stored |
| UseAuth.Authenticate | hooks/useAuth.tsx:12-32 | a reported error sets the error, returns false, and keeps token, user and storage; with no error and a truthy `data.token`, storage, the token state and the user are set and the result is true; otherwise the error is "Invalid server response" |
| UseAuth.Login | hooks/useAuth.tsx:12-18 | POSTs `{email, password}` to /api/auth/login without an Authorization header |
| UseAuth.Register | hooks/useAuth.tsx:34-40 | POSTs `{username, email, password, role}` to /api/auth/register |
| UseAuth.GetMe | hooks/useAuth.tsx:56-67 | a falsy token is a no-op with no request; otherwise an error keeps the user and success sets `user := data` |
| UseAuth.Logout | hooks/useAuth.tsx:69-73 | removes only the stored token and sets user and token to null |
| UseAuth.LoginSurvivesReload | hooks/useAuth.tsx:6-8 | after a successful login, a fresh hook reads back the same token |
| UseScraping.Scrape | hooks/useScraping.tsx:35-62 | results and error are cleared and loading set before the call; a reported error sets the error, leaves results null and returns null; with no error the error stays null, the data is returned, and it becomes the results only when truthy; a rejection sets the caught message or "An unknown error occurred" and returns null; loading ends false on every path |
| UseScraping.ScrapeUrl | hooks/useScraping.tsx:35-43 | POSTs `{url}` to /api/scrape/url |
| UseScraping.ScrapeBatch | hooks/useScraping.tsx:64-72 | POSTs `{keywords}` to /api/scrape/batch |
| UseScraping.SaveJobs | hooks/useScraping.tsx:93-117 | POSTs `{jobs}`; the results slot is never read or written; the error handling and return value are as for a scrape |
| UseScraping.NoStaleResults | hooks/useScraping.tsx:36-56 | after a scrape, the results are never those of an earlier scrape |
| UseMatch.Strings | hooks/useMatch.tsx:16 | a string list becomes an array of the same length whose element `i` is the `i`-th string |
| UseMatch.Match | hooks/useMatch.tsx:8-24 | POSTs to /api/match; afterwards `error = apiError ?? null`, and data is returned unchanged whether or not there was an error |
| UseMatch.MatchProjectToJobs | hooks/useMatch.tsx:8-24 | the body is exactly `{githubUrl, jobDescriptions}` |
| UseMatch.MatchJobToProjects | hooks/useMatch.tsx:26-42 | the body is exactly `{jobDescription, githubUrls}` |
| UseMatch.EmptyErrorKept | hooks/useMatch.tsx:22 | an empty-string error is stored as `""`, not as null |
| UseMatchHistory.FetchMatches | hooks/useMatchHistory.tsx:18-39 | a falsy token changes nothing; an error keeps the list; an array `data.matches` replaces it when there is no error; a rejection sets the message or "Failed to fetch match history"; loading ends false |
| UseMatchHistory.ErrorNeverReplaces | hooks/useMatchHistory.tsx:29-32 | a reported error never replaces the list |
| MatchRoute.MatcherEndpoint | app/api/match/route.ts:4-11 | a nullish body throws; `githubUrl` and `jobDescriptions` both truthy give project-to-jobs, which is checked first; `jobDescription` and `githubUrls` give job-to-projects; anything else is "Invalid request parameters" |
| MatchRoute.Post | app/api/match/route.ts:13-41 | an unparsable or nullish body gives 500; an unmatched shape gives 400 and forwards nothing; the forward URL is the base (default http://localhost:5000) plus /api/match/ plus the endpoint; Authorization is forwarded only when present; every body of a recognised shape is forwarded; the backend status and body pass through; a failure gives 500 "Internal server error" |
| MatchRoute.HookShapesRoute | app/api/match/route.ts:5-8 | the hook's two request shapes reach the intended backend route |
| MatchRoute.HookRequestPassesThrough | app/api/match/route.ts:24-36 | the hook's project-to-jobs body is forwarded unchanged to the backend's project-to-jobs route, and the backend's JSON answer comes back with its status |
| MatchRoute.ForwardedTo | app/api/match/route.ts:24-36 | any body routed to an endpoint is forwarded unchanged to a url ending in that backend route, and a JSON answer comes back with the backend's status |
| MatchRoute.BothShapesPreferProject | app/api/match/route.ts:5-6 | a body with both shapes goes to project-to-jobs |
| FlaskDb.RowsJson | backend/app.py:197-199 | one JSON object per row, in order |
| FlaskDb.NextId | backend/app.py:227 | the rowid of an insert is at least 1 and larger than every id already in the table |
| FlaskDb.NextRowId | backend/app.py:227 | the id a new project, job or saved scraped job receives is at least 1 and larger than the id of every row already in its table |
| FlaskDb.NextUserId | backend/app.py:127 | the id a registered user receives is at least 1 and larger than the id of every existing user |
| FlaskDb.PyGet | backend/app.py:101 | `.get` fails on a non-dict and gives None for a missing key |
| FlaskDb.Required | backend/app.py:101-102 | validation passes if and only if the body is a non-empty dict whose listed fields are all truthy; it crashes if and only if the body is truthy but not a dict |
| FlaskAuth.BearerToken | backend/app.py:62-71 | the token is the second space-separated word; a missing or empty header, a missing second word, or an empty one give "Token is missing!" |
| FlaskAuth.SchemeIgnored | backend/app.py:66 | the scheme word is never checked, and words after the token do not matter |
| FlaskAuth.FindUser | backend/app.py:79-83 | finds the user whose id is the decoded subject, or reports that no user has it |
| FlaskAuth.TokenRequired | backend/app.py:59-91 | a missing token is 401 "Token is missing!"; a decoded value that is a string starting with "Token" is 401 with that text; any other value no user has as id is 401 "User not found!"; a known id authenticates that user, and only such a user is authenticated |
| FlaskAuth.InvalidTokenReportsUserNotFound | backend/app.py:55-83 | for every header that yields a token, an invalid token is answered with "User not found!", where the corrected decorator answers "Invalid token. Please log in again." |
| FlaskAuth.InvalidBearerAbc | backend/app.py:62-83 | the header `Bearer abc` with an invalid token is answered "User not found!" |
| FlaskAuth.TokenRequiredIntended | backend/app.py:74-83 | both decode failures are reported with their own message, and authentication succeeds exactly for a known subject |
| FlaskAuth.IntendedAgreesExceptInvalid | backend/app.py:74-83 | the corrected decorator differs from the original only on invalid tokens |
| FlaskAuth.FindByEmail | backend/app.py:113 | finds a user with that email, or reports that none has it |
| FlaskAuth.Register | backend/app.py:97-141 | checks in order: missing fields 400, invalid role 400, existing email 409; otherwise inserts the user with a fresh id and the hashed password and answers 201 echoing id, username, email, role and the token; no failure changes the table |
| FlaskAuth.Login | backend/app.py:143-174 | missing email or password gives 400; an unknown email and a wrong password give the same 401; otherwise 200 with the token and the user |
| FlaskAuth.FindByEmailAppend | backend/app.py:113-154 | after a user whose email nobody had is appended, looking up that email finds the new user |
| FlaskAuth.RegisterThenLogin | backend/app.py:119-158 | a freshly registered user can log in with a password the stored hash accepts |
| FlaskRoutes.Owned | backend/app.py:194 | selects exactly the rows owned by the user |
| FlaskRoutes.OwnedConcat | backend/app.py:194 | the selection keeps rowid order and multiplicity: it distributes over concatenation |
| FlaskRoutes.FindRow | backend/app.py:243 | finds a row matching both the id and the owner, or reports that none matches |
| FlaskRoutes.DeleteRows | backend/app.py:249 | a row survives if and only if it was there and has a different id; the table never grows and unique rowids stay unique |
| FlaskRoutes.DeleteRowsConcat | backend/app.py:249 | the surviving rows keep their table order and multiplicity: the delete distributes over concatenation |
| FlaskRoutes.DeleteAbsent | backend/app.py:315 | deleting an id no row has changes nothing |
| FlaskRoutes.RepoName | backend/app.py:216-218 | total on non-empty URLs and never contains `/` |
| FlaskRoutes.RepoNameOfPath | backend/app.py:216-218 | the name is the last path segment, with or without a trailing slash |
| FlaskRoutes.JoinRow | backend/app.py:375 | a project joins exactly when a user has its `user_id`, and then it is the project's columns plus that user's `username` |
| FlaskRoutes.WithOwners | backend/app.py:375-379 | every joined project is in the result and every element of the result is a joined project; projects without an owner are dropped; it is empty exactly when no project has an owner |
| FlaskRoutes.WithOwnersConcat | backend/app.py:375 | the join keeps table order: it distributes over concatenation |
| FlaskRoutes.AddProject | backend/app.py:201-234 | a missing url gives 400; a non-string url crashes; otherwise one row is appended with a fresh id, the caller as owner, the given url and the derived name, and 201 echoes it; users and jobs are untouched |
| FlaskRoutes.DeleteProject | backend/app.py:236-253 | a project not matching both id and owner gives 404 and no change; otherwise the table becomes the in-order delete of that id, only rows with that id leave, and unique rowids stay unique |
| FlaskRoutes.AddJob | backend/app.py:270-300 | title and description are required; company falls back to the username only when the key is absent; requirements default to the empty list; one row is appended with a fresh id and 201 echoes it |
| FlaskRoutes.DeleteJob | backend/app.py:302-319 | a job not matching both id and owner gives 404 and no change; otherwise the table becomes the in-order delete of that id, only rows with that id leave, and unique rowids stay unique |
| FlaskRoutes.MatchProjectToJobs | backend/app.py:322-352 | "Missing project ID!" 400, then "Project not found!" 404 for a project not owned by the caller, then "No jobs found!" 404; otherwise the matcher's answer on the project and all jobs |
| FlaskRoutes.MatchJobToProjects | backend/app.py:354-384 | "Missing job ID!" 400, then "Job not found!" 404, then "No projects found!" 404 when the join is empty; otherwise the matcher's answer |
| FlaskRoutes.Scrape | backend/app.py:387-421 | the single required field is passed to the scraper, whose answer comes back with 200; otherwise 400 with the route's message |
| FlaskRoutes.Classify | backend/app.py:438-443 | an entry is inserted exactly when it is a dict with `status == "success"` and the title, company, description and url keys; a dict with another status is skipped; anything else raises |
| FlaskRoutes.ScrapedRow | backend/app.py:440-443 | the inserted row carries the given id and owner and stores the entry's url as `source_url` |
| FlaskRoutes.ScrapedRowColumns | backend/app.py:440-443 | the row has exactly the inserted columns: title, company and description copied, the url as `source_url`, no requirements and the insertion time |
| FlaskRoutes.Successes | backend/app.py:439 | keeps exactly the entries that are inserted |
| FlaskRoutes.SuccessesConcat | backend/app.py:438-439 | the kept entries keep their order and multiplicity: the selection distributes over concatenation |
| FlaskRoutes.SaveAll | backend/app.py:438-445 | the loop fails if and only if some entry raises; otherwise it appends one row per successful entry after the unchanged table, all owned by the caller |
| FlaskRoutes.SavedRowsMatch | backend/app.py:438-443 | the `k`-th new row is the row built from the `k`-th successful entry: only successes are inserted, in order, once each |
| FlaskRoutes.SavedIdsFresh | backend/app.py:440-443 | every inserted row gets an id larger than all ids before it |
| FlaskRoutes.SaveAllStep | backend/app.py:438-443 | one iteration: a raising entry aborts the loop, a skipped entry leaves the table, an inserted entry appends one row with the next id |
| FlaskRoutes.SaveScrapedJobs | backend/app.py:423-448 | missing jobs gives 400; a non-list or a raising entry is an uncaught error with nothing saved; otherwise 200 "Jobs saved successfully!", even when nothing was inserted |
| FlaskRoutes.SavedKeepsRows | backend/app.py:423-448 | saving scraped jobs leaves `projects` alone and keeps every existing job row |
| FlaskRoutes.SaveScrapedLoop | backend/app.py:438-445 | the statement-by-statement loop computes the same table as the recursive definition |
| FlaskRoutes.Serve | backend/app.py:176-199 | authentication failures are answered with nothing changed; a wrong role gives 403 "Unauthorized!" before any body validation; the users table is never changed |
| FlaskRoutes.RolesSeparateTables | backend/app.py:236-319 | talents never change jobs, companies never change projects, and no caller changes another user's rows |
| FlaskRoutes.DispatchSeparates | backend/app.py:236-319 | once authenticated, a talent's request leaves `jobs` unchanged, a company's leaves `projects` unchanged, and no request removes another user's rows |
| FlaskRoutes.OwnRowOnly | backend/app.py:243-249 | with unique ids, a delete removes no row of another owner |
| JsonText.LowerHex | components/auth-provider.tsx:109 | each hex digit reads back as its value |
| JsonText.EscapeChar | components/auth-provider.tsx:109 | a character is written as itself exactly when it is not a control character, a quote or a backslash |
| JsonText.ReadQuoted | components/auth-provider.tsx:80 | reading an escaped string back gives the string and the rest of the text |
| JsonText.ReadNatText | components/auth-provider.tsx:80 | reading `String(n)` back gives n and the rest of the text |
| JsonText.ReadMembersText | components/auth-provider.tsx:80 | reading the members' text of a flat object, followed by `}`, gives the members back in order |
| JsonText.ParseStringify | components/auth-provider.tsx:80-109 | parsing the `JSON.stringify` text of a flat object gives the same object back |
| AuthProvider.DemoName | components/auth-provider.tsx:101 | the demo username is the email text before the first `@` |
| AuthProvider.DemoRole | components/auth-provider.tsx:103 | the role is company exactly when the email contains "company" anywhere, else talent |
| AuthProvider.DemoFields | components/auth-provider.tsx:99-104 | the demo user has id 1 and the given username, email and role |
| AuthProvider.SignIn | components/auth-provider.tsx:106-123 | sets the user, stores its JSON text under `demoUser`, sends nothing, and ends loading |
| AuthProvider.Login | components/auth-provider.tsx:94-125 | the user is derived from the email alone, with id 1, the username before the first `@` and the role from "company"; `demoUser` is persisted |
| AuthProvider.PasswordIgnored | components/auth-provider.tsx:94-106 | the password plays no part in a demo login |
| AuthProvider.Register | components/auth-provider.tsx:127-158 | username, email and role are copied verbatim with id 1; storage gains exactly the `JSON.stringify` text of that user under `demoUser` and keeps every other key; demo mode is unchanged |
| AuthProvider.DemoRegisterRestoredOffline | components/auth-provider.tsx:72-85 | a demo registration survives a reload while the backend is unreachable, provided a token is stored |
| AuthProvider.Offline | components/auth-provider.tsx:72-85 | enters demo mode; with no or an empty `demoUser`, user and storage stay; a stored `demoUser` that parses becomes the user; a parse failure keeps the user and removes only the token |
| AuthProvider.CheckAuth | components/auth-provider.tsx:41-92 | no token gives no request and ends loading; no API URL gives demo mode with no request; an ok answer sets the user to the body; a non-ok answer removes the token; a network failure or an unparsable ok body goes offline; loading ends false on every path |
| AuthProvider.Logout | components/auth-provider.tsx:160-163 | removes both `token` and `demoUser`, keeps every other key, and sets the user to null |
| AuthProvider.DemoLoginRestoredOffline | components/auth-provider.tsx:72-81 | with a token stored and the backend unreachable, a reload restores the demo user that login stored |
| AuthProvider.SignInRestoredOffline | components/auth-provider.tsx:72-81 | whatever user a sign-in stored is read back by a reload with a token stored and the backend unreachable |
| AuthProvider.DemoSessionNeedsToken | components/auth-provider.tsx:45-49 | without a stored token, the stored demo user is never read back on reload |
| MatchResult.ScoreBand | components/match-result.tsx:27-32 | green at 80 and above, yellow from 60 up to 80, red below 60; the three bands partition all scores |
| MatchResult.BandMonotone | components/match-result.tsx:27-32 | a higher score never falls into a lower band |
| MatchResult.FactorPolarity | components/match-result.tsx:80-83 | `-` exactly when "Missing" or "Limited" occurs case-sensitively, else `+` |
| MatchResult.MinusSurvivesContext | app/dashboard/matches/page.tsx:154-157 | text added around a weakness never turns it into a strength |
| MatchResult.CardOf | components/match-result.tsx:26-83 | title and description by direction, the score with its band, and each factor with its badge, in order |
| MatchResult.Cards | components/match-result.tsx:25 | one card per match, in input order |

## Left out

- `fetch`, `localStorage`, React state scheduling, toasts and the Next.js router are not modelled as such. Each hook operation is one atomic transition from a given outcome, and storage is a map.
- Overlapping calls on one hook are covered only by `UseJobs.LastSettledFetchWins`. The source has no sequencing, so there is nothing else to verify.
- The `useEffect` in hooks/useMatchHistory.tsx that calls `fetchMatches` when the token changes is scheduling and is left out.
- JWT encoding and decoding, expiry and HS256 are not modelled: decoding is an input (`Decoded`), and the issued token is a parameter.
- `generate_password_hash` and `check_password_hash` are not modelled: the stored hash and the check are parameters.
- The SQL layer (SQLite) is not modelled.
  - Tables are sequences of rows in rowid order.
  - A fresh rowid is one past the largest in use.
  - SQLite type affinity is left out: an id sent as a string never matches.
  - Binding errors for list or dict values are left out.
  - Python's `True == 1` is left out.
- backend/schema.sql is not part of this model. Columns an insert does not set are absent from the modelled row.
- FlaskRoutes.AddProject: the `languages` and `requirements` columns hold the value given to `json.dumps`, not its text.
- FlaskRoutes.AddJob: as for `AddProject`, the stored `requirements` is the value, not its JSON text.
- FlaskRoutes.ScrapedRow: `requirements` is stored as the empty array value, where the source stores the text `json.dumps([])`.
- Every Flask handler takes the request body as an already parsed `Value`. Flask's own abort of `request.json` (400 for a body that is not JSON, 415 without the JSON content type), which happens before any check in the handler, is left out.
- FlaskAuth.TokenRequired: the `except Exception` branch (backend/app.py:88-89) is left out. It answers 401 with the exception's text for a database failure during the user lookup, and also for a validly signed token without a `sub` claim, where `payload['sub']` (backend/app.py:53) raises a KeyError that `decode_token` does not catch, giving the message `'sub'`.
- The matcher and scraper in backend/crew_ai_matcher.py and backend/crew_ai_scraper.py are parameters, because they are LLM agent orchestration that returns mock data. Exceptions they raise are left out.
- `datetime.now()` is a parameter.
- ListCache.Refreshed: a truthy payload that is not an array is treated as "no list", while the source would store it as the list.
- UseJobs.SettleFetch: goes through ListCache.Refreshed, so a truthy non-array `data.jobs` keeps the list, where hooks/useJobs.tsx:34 stores it.
- UseJobs.FetchJobs: the same gap, through UseJobs.SettleFetch.
- UseProjects.FetchProjects: goes through ListCache.Refreshed, so a truthy non-array `data.projects` keeps the list, where hooks/useProjects.tsx:27 stores it.
- UseMatchHistory.FetchMatches: goes through ListCache.Refreshed, so a truthy non-array `data.matches` keeps the list, where hooks/useMatchHistory.tsx:31-32 stores it.
- Json.ToText: numbers are integers. Fractions, NaN and the floating-point formatting of `String(n)` are left out.
- MatchResult.ScoreBand: scores are reals, so a NaN score, which the source colours red, is not represented.
- JsonText.Parse: reads only flat objects of string and non-negative integer members without whitespace. It stands in for `JSON.parse` only through the `AuthProvider.Faithful` assumption, which the real `JSON.parse` does not meet on integer members above 2^53, since it rounds them to the nearest double.
- JsonText.Unescape: `\u` escapes naming a surrogate are rejected; lone surrogates cannot occur in Dafny strings.
- HTTP header names are compared case-sensitively.
- `URLSearchParams` takes record entries in property order. JavaScript's ordering of integer-like keys is left out.
- Property access on `null` elements inside cached lists is left out.
- The provider's `isDemoMode`-dependent toast texts are left out.
- Storage quota errors are left out.
- The pages, dashboards, landing components and the two `*-matcher.tsx` components are rendering only.
- The login and register pages' own fetch plumbing is left out.
- Frontend and backend are kept as separate models, since the hooks call routes the backend does not define.

## Findings

| source | as written | input that shows it | evidently intended | confidence | as-written member | corrected member |
|---|---|---|---|---|---|---|
| backend/app.py:55-83 | only a decode message starting with "Token" is reported, but the invalid-token message starts with "Invalid" | a well-formed header whose token fails signature verification | 401 "Invalid token. Please log in again." | high, not executed | FlaskAuth.InvalidTokenReportsUserNotFound | FlaskAuth.TokenRequiredIntended |

=== FILE: ApiClient.dfy ===
/** `apiFetch` and its four method wrappers (lib/apiClient.ts): how a
    request is built from an endpoint and options, and how whatever HTTP
    response comes back is folded into `{data, error?, status}`. The network
    itself is not modelled: the response is an input. */
module ApiClient {
  import opened Wrappers
  import opened Json
  import Text
  import Form = FormUrlEncoding

  /** HTTP methods the client issues. `PATCH` is used by the projects hook
      although the declared `ApiMethod` union does not include it. */
  datatype Method = GET | POST | PUT | DELETE | PATCH

  /** Membership in the `ApiMethod` type union. */
  predicate InApiMethodUnion(m: Method) {
    m != PATCH
  }

  /** `ApiOptions`. An absent `headers` or `params` record behaves exactly
      like an empty one and is written as such; `body` and `token` are any
      value, `Undefined` when absent. `params` lists the record's entries in
      property order. */
  datatype Options = Options(   // `verb` is the `method` option
    verb: Option<Method>,
    body: Value,
    headers: map<string, string>,
    token: Value,
    params: seq<(string, string)>)

  const NoOptions := Options(None, Undefined, map[], Undefined, [])

  /** What `fetch` is asked to send. `body` is the value handed to
      `JSON.stringify`, `None` when no body is sent. */
  datatype Request = Request(url: string, verb: Method, headers: map<string, string>, body: Option<Value>)

  /** The endpoint with the query string appended: after `&` if the
      endpoint already has a `?` anywhere, else after `?`. */
  function WithQuery(endpoint: string, params: seq<(string, string)>): (url: string)
    ensures |params| == 0 ==> url == endpoint
    ensures |params| > 0 ==> Text.StartsWith(url, endpoint) && |url| > |endpoint|
    ensures |params| > 0 ==> url[|endpoint|] == (if '?' in endpoint then '&' else '?')
    ensures |params| > 0 ==> url[|endpoint| + 1..] == Form.Serialize(params)
  {
    if |params| > 0 then
      var url := endpoint + [if '?' in endpoint then '&' else '?'] + Form.Serialize(params);
      assert url[..|endpoint|] == endpoint;
      url
    else endpoint
  }

  /** The text before the first `?`. */
  function PathPart(url: string): string {
    url[..Text.IndexOf(url, '?')]
  }

  /** The text after the first `?`, empty when there is none. */
  function QueryPart(url: string): string {
    var i := Text.IndexOf(url, '?');
    if i == |url| then "" else url[i + 1..]
  }

  /** The `&`-separated fields of the query string already in the URL. */
  function QueryFields(url: string): seq<string> {
    if '?' in url then Text.Split(QueryPart(url), '&') else []
  }

  /** Adding parameters never changes the path, keeps any query fields the
      endpoint already had, and appends exactly one field per parameter,
      each of which reads back as that parameter. */
  lemma QueryAppended(endpoint: string, params: seq<(string, string)>)
    requires |params| > 0
    ensures PathPart(WithQuery(endpoint, params)) == PathPart(endpoint)
    ensures QueryFields(WithQuery(endpoint, params)) == QueryFields(endpoint) + Form.Pairs(params)
    ensures Form.DecodePairs(Form.Pairs(params)) == Some(params)
  {
    var q := Form.Serialize(params);
    Text.SplitJoin(Form.Pairs(params), '&');
    Form.DecodePairsOfPairs(params);
    var url := WithQuery(endpoint, params);
    assert url == endpoint + [if '?' in endpoint then '&' else '?'] + q;
    QueryTextAppended(endpoint, q);
  }

  /** The same, for any query text appended the way `apiFetch` does it. */
  lemma QueryTextAppended(endpoint: string, q: string)
    ensures var url := endpoint + [if '?' in endpoint then '&' else '?'] + q;
      && PathPart(url) == PathPart(endpoint)
      && QueryFields(url) == QueryFields(endpoint) + Text.Split(q, '&')
  {
    if '?' in endpoint {
      QueryJoined(endpoint, q);
    } else {
      QueryStarted(endpoint, q);
    }
  }

  /** An endpoint that has a query already: `q` joins it after `&`. */
  lemma QueryJoined(endpoint: string, q: string)
    requires '?' in endpoint
    ensures var url := endpoint + ['&'] + q;
      && PathPart(url) == PathPart(endpoint)
      && QueryFields(url) == QueryFields(endpoint) + Text.Split(q, '&')
  {
    var url := endpoint + ['&'] + q;
    var i := Text.IndexOf(endpoint, '?');
    var tail := endpoint[i + 1..];
    Bracketed(endpoint, '&', q);
    IndexOfExtended(endpoint, ['&'] + q, '?');
    SlicesAround(endpoint, ['&'] + q, i);
    Bracketed(tail, '&', q);
    UrlParts(endpoint, i);
    UrlParts(url, i);
    Text.SplitAround(tail, q, '&');
  }

  /** An endpoint without a query: `q` starts one after `?`. */
  lemma QueryStarted(endpoint: string, q: string)
    requires '?' !in endpoint
    ensures var url := endpoint + ['?'] + q;
      && PathPart(url) == PathPart(endpoint)
      && QueryFields(url) == QueryFields(endpoint) + Text.Split(q, '&')
  {
    var url := endpoint + ['?'] + q;
    Bracketed(endpoint, '?', q);
    IndexOfExtended(endpoint, ['?'] + q, '?');
    UrlParts(url, |endpoint|);
    NoQuery(endpoint);
  }

  /** The pieces of `a + [c] + b`. */
  lemma Bracketed(a: string, c: char, b: string)
    ensures a + [c] + b == a + ([c] + b)
    ensures (a + [c] + b)[..|a|] == a && (a + [c] + b)[|a| + 1..] == b
  {
  }

  /** A URL without `?` is all path and has no query fields. */
  lemma NoQuery(url: string)
    requires '?' !in url
    ensures PathPart(url) == url && QueryFields(url) == []
  {
  }

  /** Path and query fields of a URL whose first `?` is at `i`. */
  lemma UrlParts(url: string, i: int)
    requires i == Text.IndexOf(url, '?') && i < |url|
    ensures PathPart(url) == url[..i]
    ensures QueryFields(url) == Text.Split(url[i + 1..], '&')
  {
    QueryAt(url, i);
  }

  lemma QueryAt(url: string, i: int)
    requires i == Text.IndexOf(url, '?') && i < |url|
    ensures '?' in url && QueryPart(url) == url[i + 1..]
  {
    assert url[i] == '?';
  }

  /** The text before and after position `i` of `a`, once `b` is appended. */
  lemma SlicesAround(a: string, b: string, i: int)
    requires 0 <= i < |a|
    ensures (a + b)[..i] == a[..i] && (a + b)[i + 1..] == a[i + 1..] + b
  {
  }

  /** Appending text after a string does not move its first `c`, and when
      the string has none, the first `c` of the appended text is found. */
  lemma IndexOfExtended(a: string, b: string, c: char)
    ensures c in a ==> Text.IndexOf(a + b, c) == Text.IndexOf(a, c)
    ensures c !in a && |b| > 0 && b[0] == c ==> Text.IndexOf(a + b, c) == |a|
  {
    var i := Text.IndexOf(a, c);
    var ab := a + b;
    assert forall j :: 0 <= j < |a| ==> ab[j] == a[j];
    if c !in a && |b| > 0 && b[0] == c {
      assert ab[|a|] == c;
    }
  }

  /** `{"Content-Type": "application/json", ...headers, ...(token ?
      {Authorization: `Bearer ${token}`} : {})}`. */
  function RequestHeaders(headers: map<string, string>, token: Value): (h: map<string, string>)
    ensures "Content-Type" in h
    ensures h["Content-Type"] == (if "Content-Type" in headers then headers["Content-Type"] else "application/json")
    ensures Truthy(token) ==> "Authorization" in h && h["Authorization"] == "Bearer " + ToText(token)
    ensures !Truthy(token) ==> ("Authorization" in h <==> "Authorization" in headers)
    ensures forall k :: k != "Content-Type" && k != "Authorization" ==> (k in h <==> k in headers)
    ensures forall k :: k in headers && k != "Authorization" ==> h[k] == headers[k]
    ensures !Truthy(token) && "Authorization" in headers ==> h["Authorization"] == headers["Authorization"]
  {
    var base := map["Content-Type" := "application/json"] + headers;
    if Truthy(token) then base["Authorization" := "Bearer " + ToText(token)] else base
  }

  /** The request `apiFetch(endpoint, options)` sends. The method defaults
      to GET and the body is sent only when truthy. */
  function BuildRequest(endpoint: string, opts: Options): (r: Request)
    ensures r.url == WithQuery(endpoint, opts.params)
    ensures r.verb == opts.verb.GetOr(GET)
    ensures r.headers == RequestHeaders(opts.headers, opts.token)
    ensures r.body.Some? <==> Truthy(opts.body)
    ensures r.body.Some? ==> r.body.value == opts.body
  {
    Request(WithQuery(endpoint, opts.params), opts.verb.GetOr(GET),
            RequestHeaders(opts.headers, opts.token),
            if Truthy(opts.body) then Some(opts.body) else None)
  }

  /** A completed HTTP exchange: status, reason text (empty over HTTP/2),
      and the body parsed as JSON, `None` when it does not parse. */
  datatype Response = Response(status: int, statusText: string, payload: Option<Value>) {
    /** `Response.ok`. */
    predicate Ok() { 200 <= status <= 299 }
  }

  /** What awaiting `fetch` gives: a response, or a rejection (a network
      failure, with the value thrown). */
  datatype Outcome = Answered(response: Response) | Failed(thrown: Thrown)

  /** A thrown value: an `Error` carries a message. */
  datatype Thrown = ErrorObject(message: string) | OtherThrown

  /** `ApiResponse`: `error` is `Undefined` when the field is absent. */
  datatype ApiResponse = ApiResponse(data: Value, error: Value, status: int)

  /** `data?.message || data?.error || res.statusText`. */
  function ErrorMessage(data: Value, statusText: string): Value {
    Or(Get(data, "message"), Or(Get(data, "error"), Str(statusText)))
  }

  /** Folds a response into `{data, error?, status}`. */
  function Normalise(res: Response): (r: ApiResponse)
    ensures r.status == res.status
    ensures r.data == (if res.payload.Some? then res.payload.value else Null)
    ensures res.Ok() ==> r.error == Undefined
    ensures !res.Ok() && Truthy(Get(r.data, "message")) ==> r.error == Get(r.data, "message")
    ensures (!res.Ok() && !Truthy(Get(r.data, "message")) && Truthy(Get(r.data, "error")))
              ==> r.error == Get(r.data, "error")
    ensures (!res.Ok() && !Truthy(Get(r.data, "message")) && !Truthy(Get(r.data, "error")))
              ==> r.error == Str(res.statusText)
  {
    var data := res.payload.GetOr(Null);
    if res.Ok() then ApiResponse(data, Undefined, res.status)
    else ApiResponse(data, ErrorMessage(data, res.statusText), res.status)
  }

  /** An unparsable body is not an error in itself: a successful response
      with such a body normalises to `data = null` and no error. */
  lemma UnparsableBodyIsNotAnError(status: int, statusText: string)
    requires 200 <= status <= 299
    ensures Normalise(Response(status, statusText, None)) == ApiResponse(Null, Undefined, status)
  {
  }

  /** The error a failed response reports is falsy exactly when the body
      gives no truthy `message` or `error` and the reason text is empty:
      a non-2xx response does not always carry a usable error. */
  lemma FailureErrorFalsy(res: Response)
    requires !res.Ok()
    ensures !Truthy(Normalise(res).error) <==>
      (!Truthy(Get(Normalise(res).data, "message")) && !Truthy(Get(Normalise(res).data, "error"))
       && res.statusText == "")
  {
  }

  /** `apiGet`: `{...options, method: "GET"}`. */
  function GetOptions(opts: Options): (o: Options)
    ensures o.verb == Some(GET)
    ensures o.(verb := opts.verb) == opts
  {
    opts.(verb := Some(GET))
  }

  /** `apiPost`: `{...options, body, method: "POST"}`. */
  function PostOptions(body: Value, opts: Options): (o: Options)
    ensures o.verb == Some(POST) && o.body == body
    ensures o.(verb := opts.verb, body := opts.body) == opts
  {
    opts.(body := body, verb := Some(POST))
  }

  /** `apiPut`: `{...options, body, method: "PUT"}`. */
  function PutOptions(body: Value, opts: Options): (o: Options)
    ensures o.verb == Some(PUT) && o.body == body
    ensures o.(verb := opts.verb, body := opts.body) == opts
  {
    opts.(body := body, verb := Some(PUT))
  }

  /** `apiDelete`: `{...options, method: "DELETE"}`. */
  function DeleteOptions(opts: Options): (o: Options)
    ensures o.verb == Some(DELETE)
    ensures o.(verb := opts.verb) == opts
  {
    opts.(verb := Some(DELETE))
  }

  /** Each wrapper's request uses its own method whatever `options.method`
      says, and POST/PUT send the positional body whatever `options.body`
      says. */
  lemma WrappersFixMethod(endpoint: string, body: Value, opts: Options)
    ensures BuildRequest(endpoint, GetOptions(opts)).verb == GET
    ensures BuildRequest(endpoint, DeleteOptions(opts)).verb == DELETE
    ensures BuildRequest(endpoint, PostOptions(body, opts)).verb == POST
    ensures BuildRequest(endpoint, PutOptions(body, opts)).verb == PUT
    ensures BuildRequest(endpoint, PostOptions(body, opts)).body
            == BuildRequest(endpoint, PutOptions(body, opts)).body
            == (if Truthy(body) then Some(body) else None)
    ensures BuildRequest(endpoint, GetOptions(opts)).body == BuildRequest(endpoint, opts).body
  {
  }
}

=== FILE: AuthProvider.dfy ===
/** The demo-mode session provider (components/auth-provider.tsx): a user
    derived locally from what was typed, persisted as JSON text in local
    storage, and a startup check that probes `/api/auth/me` once. */
module AuthProvider {
  import opened Wrappers
  import opened Json
  import Text
  import JsonText
  import opened ApiClient
  import opened Hooks

  type Storage = map<string, string>

  datatype State = State(user: Value, loading: bool, demo: bool, storage: Storage)

  /** The provider as first rendered: no user, loading, not in demo mode. */
  function Initial(storage: Storage): State {
    State(Null, true, false, storage)
  }

  /** The object literal `{ id: 1, username, email, role }`. */
  function DemoEntries(username: string, email: string, role: string): (e: seq<(string, Value)>)
    ensures JsonText.Flat(e)
  {
    [("id", Num(1)), ("username", Str(username)), ("email", Str(email)), ("role", Str(role))]
  }

  /** The members of the demo user, read back by key. */
  lemma DemoFields(username: string, email: string, role: string)
    ensures var u := Object(DemoEntries(username, email, role));
            Get(u, "id") == Num(1) && Get(u, "username") == Str(username)
            && Get(u, "email") == Str(email) && Get(u, "role") == Str(role)
  {
    var e := DemoEntries(username, email, role);
    assert e[..3][..2][..1][..0] == [];
    assert Fields(e[..3][..2][..1]) == map["id" := Num(1)];
    assert Fields(e[..3][..2]) == map["id" := Num(1), "username" := Str(username)];
    assert Fields(e[..3]) == map["id" := Num(1), "username" := Str(username), "email" := Str(email)];
    assert Fields(e) == map["id" := Num(1), "username" := Str(username), "email" := Str(email), "role" := Str(role)];
  }

  /** The demo user `login` derives from an email alone. */
  function DemoName(email: string): (name: string)
    ensures name == email[..Text.IndexOf(email, '@')]
    ensures '@' !in name
  {
    Text.FirstPartBeforeSeparator(email, '@');
    Text.Split(email, '@')[0]
  }

  function DemoRole(email: string): (role: string)
    ensures role == "company" <==> exists i :: Text.OccursAt(email, "company", i)
    ensures role == "company" || role == "talent"
  {
    if Text.Contains(email, "company") then "company" else "talent"
  }

  /** Stores the user and its JSON text under `demoUser`; nothing is sent. */
  function SignIn(s: State, entries: seq<(string, Value)>): (t: Step<State, Unit>)
    requires JsonText.Flat(entries)
    ensures t.request.None? && t.result == Resolved(Unit)
    ensures t.during == s.(loading := true)
    ensures t.after == s.(user := Object(entries), loading := false,
                          storage := s.storage["demoUser" := JsonText.Stringify(entries)])
  {
    var during := s.(loading := true);
    Step(None, during, during.(user := Object(entries), storage := s.storage["demoUser" := JsonText.Stringify(entries)],
                               loading := false), Resolved(Unit))
  }

  /** Demo `login(email, password)`. */
  function Login(s: State, email: string, password: string): (t: Step<State, Unit>)
    ensures t.request.None?
    ensures !t.after.loading
    ensures var u := t.after.user;
            && Get(u, "id") == Num(1) && Get(u, "email") == Str(email)
            && Get(u, "username") == Str(email[..Text.IndexOf(email, '@')])
            && (Get(u, "role") == Str("company") <==> exists i :: Text.OccursAt(email, "company", i))
            && (Get(u, "role") == Str("company") || Get(u, "role") == Str("talent"))
    ensures t.after.storage == s.storage["demoUser" := JsonText.Stringify(DemoEntries(DemoName(email), email, DemoRole(email)))]
  {
    DemoFields(DemoName(email), email, DemoRole(email));
    SignIn(s, DemoEntries(DemoName(email), email, DemoRole(email)))
  }

  /** The password plays no part in a demo login. */
  lemma PasswordIgnored(s: State, email: string, p1: string, p2: string)
    ensures Login(s, email, p1) == Login(s, email, p2)
  {
  }

  /** Demo `register(username, email, password, role)`: the fields are
      copied as given. */
  function Register(s: State, username: string, email: string, password: string, role: string): (t: Step<State, Unit>)
    ensures t.request.None?
    ensures !t.after.loading
    ensures var u := t.after.user;
            Get(u, "id") == Num(1) && Get(u, "username") == Str(username)
            && Get(u, "email") == Str(email) && Get(u, "role") == Str(role)
    ensures t.after.storage == s.storage["demoUser" := JsonText.Stringify(DemoEntries(username, email, role))]
    ensures t.after.demo == s.demo
  {
    DemoFields(username, email, role);
    SignIn(s, DemoEntries(username, email, role))
  }

  /** The local-storage read in the catch branch: in demo mode, the stored
      demo user comes back through `JSON.parse`, whose failure escapes to
      the outer handler, which removes the token. */
  function Offline(s: State, parse: string -> Option<Value>): (a: State)
    ensures a.demo && a.loading == s.loading
    ensures "demoUser" !in s.storage || s.storage["demoUser"] == "" ==>
              a.user == s.user && a.storage == s.storage
    ensures "demoUser" in s.storage && s.storage["demoUser"] != "" && parse(s.storage["demoUser"]).None? ==>
              a.user == s.user && a.storage == s.storage - {"token"} && "token" !in a.storage
    ensures "demoUser" in s.storage && s.storage["demoUser"] != "" && parse(s.storage["demoUser"]).Some? ==>
              a.user == parse(s.storage["demoUser"]).value && a.storage == s.storage
  {
    var d := s.(demo := true);
    if "demoUser" !in s.storage || s.storage["demoUser"] == "" then d
    else match parse(s.storage["demoUser"])
      case None => d.(storage := d.storage - {"token"})
      case Some(v) => d.(user := v)
  }

  /** The stored token as `getItem` gives it, `""` standing for null. */
  function StoredToken(storage: Storage): string {
    if "token" in storage then storage["token"] else ""
  }

  /** `checkAuth`, run once at startup. `apiUrl` is
      `NEXT_PUBLIC_API_URL`, `probe` what the `/api/auth/me` fetch gave and
      `parse` is `JSON.parse` (`None` when it throws). */
  function CheckAuth(s: State, apiUrl: Option<string>, probe: Outcome, parse: string -> Option<Value>): (t: Step<State, Unit>)
    ensures !t.after.loading && t.during == s && t.result == Resolved(Unit)
    ensures StoredToken(s.storage) == "" ==> t == Step(None, s, s.(loading := false), Resolved(Unit))
    ensures StoredToken(s.storage) != "" && (apiUrl.None? || apiUrl.value == "") ==>
              t.request.None? && t.after == s.(demo := true, loading := false)
    ensures t.request.Some? <==> StoredToken(s.storage) != "" && apiUrl.Some? && apiUrl.value != ""
    ensures t.request.Some? ==>
              t.request.value == Request(apiUrl.value + "/api/auth/me", GET,
                                         map["Authorization" := "Bearer " + StoredToken(s.storage)], None)
    ensures t.request.Some? && probe.Answered? && probe.response.Ok() && probe.response.payload.Some? ==>
              t.after == s.(user := probe.response.payload.value, loading := false)
    ensures t.request.Some? && probe.Answered? && !probe.response.Ok() ==>
              t.after == s.(storage := s.storage - {"token"}, loading := false)
    ensures t.request.Some? && (probe.Failed? || (probe.response.Ok() && probe.response.payload.None?)) ==>
              t.after == Offline(s, parse).(loading := false)
  {
    var token := StoredToken(s.storage);
    if token == "" then Step(None, s, s.(loading := false), Resolved(Unit))
    else if apiUrl.None? || apiUrl.value == "" then Step(None, s, s.(demo := true, loading := false), Resolved(Unit))
    else
      var req := Request(apiUrl.value + "/api/auth/me", GET, map["Authorization" := "Bearer " + token], None);
      var after :=
        match probe
        case Failed(_) => Offline(s, parse)
        case Answered(res) =>
          if !res.Ok() then s.(storage := s.storage - {"token"})
          else if res.payload.None? then Offline(s, parse)
          else s.(user := res.payload.value);
      Step(Some(req), s, after.(loading := false), Resolved(Unit))
  }

  /** `logout()`: both stored keys go, and the user. */
  function Logout(s: State): (a: State)
    ensures "token" !in a.storage && "demoUser" !in a.storage
    ensures forall k :: k in s.storage && k != "token" && k != "demoUser" ==> k in a.storage && a.storage[k] == s.storage[k]
    ensures forall k :: k in a.storage ==> k in s.storage
    ensures a.user == Null && a.loading == s.loading && a.demo == s.demo
  {
    s.(storage := s.storage - {"token", "demoUser"}, user := Null)
  }

  /** `JSON.parse` agrees with the flat-object reader wherever that reader
      succeeds. */
  ghost predicate Faithful(parse: string -> Option<Value>) {
    forall t :: JsonText.Parse(t).Some? ==> parse(t) == JsonText.Parse(t)
  }

  /** A demo login survives a reload while the backend is unreachable,
      provided a token is stored. */
  lemma DemoLoginRestoredOffline(s: State, email: string, password: string, apiUrl: Option<string>,
                                 thrown: Thrown, parse: string -> Option<Value>)
    requires StoredToken(s.storage) != ""
    requires Faithful(parse)
    ensures var saved := Login(s, email, password).after;
            CheckAuth(Initial(saved.storage), apiUrl, Failed(thrown), parse).after.user
              == (if apiUrl.Some? && apiUrl.value != "" then saved.user else Null)
  {
    var entries := DemoEntries(DemoName(email), email, DemoRole(email));
    assert Login(s, email, password) == SignIn(s, entries);
    SignInRestoredOffline(s, entries, apiUrl, thrown, parse);
  }

  /** A demo registration survives a reload while the backend is
      unreachable, provided a token is stored. */
  lemma DemoRegisterRestoredOffline(s: State, username: string, email: string, password: string, role: string,
                                    apiUrl: Option<string>, thrown: Thrown, parse: string -> Option<Value>)
    requires StoredToken(s.storage) != ""
    requires Faithful(parse)
    ensures var saved := Register(s, username, email, password, role).after;
            CheckAuth(Initial(saved.storage), apiUrl, Failed(thrown), parse).after.user
              == (if apiUrl.Some? && apiUrl.value != "" then saved.user else Null)
  {
    var entries := DemoEntries(username, email, role);
    assert Register(s, username, email, password, role) == SignIn(s, entries);
    SignInRestoredOffline(s, entries, apiUrl, thrown, parse);
  }

  /** Any signed-in user, read back after a reload with the backend unreachable. */
  lemma SignInRestoredOffline(s: State, entries: seq<(string, Value)>, apiUrl: Option<string>,
                              thrown: Thrown, parse: string -> Option<Value>)
    requires JsonText.Flat(entries)
    requires StoredToken(s.storage) != ""
    requires Faithful(parse)
    ensures var saved := SignIn(s, entries).after;
            CheckAuth(Initial(saved.storage), apiUrl, Failed(thrown), parse).after.user
              == (if apiUrl.Some? && apiUrl.value != "" then saved.user else Null)
  {
    var text := JsonText.Stringify(entries);
    var saved := SignIn(s, entries).after;
    JsonText.ParseStringify(entries);
    assert text != "";
    assert StoredToken(saved.storage) == StoredToken(s.storage);
    StoredRestored(Initial(saved.storage), text, Object(entries), apiUrl, thrown, parse);
  }

  /** The startup check, offline, puts back whatever JSON text is stored
      under `demoUser` when the reader accepts it. */
  lemma StoredRestored(st: State, text: string, v: Value, apiUrl: Option<string>,
                       thrown: Thrown, parse: string -> Option<Value>)
    requires "demoUser" in st.storage && st.storage["demoUser"] == text && text != ""
    requires StoredToken(st.storage) != ""
    requires Faithful(parse) && JsonText.Parse(text) == Some(v)
    ensures CheckAuth(st, apiUrl, Failed(thrown), parse).after.user
              == (if apiUrl.Some? && apiUrl.value != "" then v else st.user)
  {
    if apiUrl.Some? && apiUrl.value != "" {
      assert parse(text) == Some(v);
      assert Offline(st, parse).user == v;
    }
  }

  /** Without a stored token the stored demo user is never read back: a
      demo session does not survive a reload on its own. */
  lemma DemoSessionNeedsToken(s: State, email: string, password: string, apiUrl: Option<string>,
                              probe: Outcome, parse: string -> Option<Value>)
    requires "token" !in s.storage
    ensures var saved := Login(s, email, password).after;
            && "demoUser" in saved.storage
            && CheckAuth(Initial(saved.storage), apiUrl, probe, parse).after.user == Null
  {
  }
}

=== FILE: FlaskAuth.dfy ===
/** Authentication in the backend (backend/app.py): the `token_required`
    decorator and the `register` and `login` handlers. Token signing and
    verification and password hashing are oracles given as inputs. */
module FlaskAuth {
  import opened Wrappers
  import opened Json
  import Text
  import opened FlaskDb

  const TokenMissing := Message(401, "Token is missing!")

  /** `auth_header.split(" ")[1]`, guarded as the decorator guards it:
      `None` is "Token is missing!" — no header, an empty header, no second
      space-separated word, or an empty one. The scheme is never checked. */
  function BearerToken(header: Option<string>): (t: Option<string>)
    ensures t.Some? ==> t.value != "" && header.Some?
    ensures t.Some? ==> |Text.Split(header.value, ' ')| >= 2 && t.value == Text.Split(header.value, ' ')[1]
    ensures header.Some? && |Text.Split(header.value, ' ')| >= 2 && Text.Split(header.value, ' ')[1] != "" ==> t.Some?
  {
    if header.None? || header.value == "" then None
    else
      var parts := Text.Split(header.value, ' ');
      if |parts| < 2 || parts[1] == "" then None else Some(parts[1])
  }

  /** The scheme word is ignored: any first word, and any words after the
      token, give the same token. */
  lemma SchemeIgnored(scheme: string, token: string, rest: string)
    requires ' ' !in scheme && ' ' !in token && token != ""
    requires rest == "" || rest[0] == ' '
    ensures BearerToken(Some(scheme + " " + token + rest)) == Some(token)
  {
    assert scheme + " " + token + rest == scheme + [' '] + (token + rest);
    Text.SplitAround(scheme, token + rest, ' ');
    Text.SplitFree(scheme, ' ');
    if rest == "" {
      assert token + rest == token;
      Text.SplitFree(token, ' ');
    } else {
      assert token + rest == token + [' '] + rest[1..];
      Text.SplitAround(token, rest[1..], ' ');
      Text.SplitFree(token, ' ');
    }
  }

  /** What the token oracle says about a token: the `sub` claim, or one of
      the two failures PyJWT reports. */
  datatype Decoded = Subject(sub: Value) | Expired | Invalid

  /** `decode_token`: the subject, or the message string it returns. */
  function DecodeToken(d: Decoded): Value {
    match d
    case Subject(sub) => sub
    case Expired => Str("Token expired. Please log in again.")
    case Invalid => Str("Invalid token. Please log in again.")
  }

  /** The `users` row whose id is `sub`, if any. */
  function FindUser(users: seq<User>, sub: Value): (u: Option<User>)
    ensures u.Some? ==> u.value in users && sub == Num(u.value.id)
    ensures u.None? ==> forall i :: 0 <= i < |users| ==> sub != Num(users[i].id)
    decreases |users|
  {
    if |users| == 0 then None
    else if sub == Num(users[0].id) then Some(users[0])
    else FindUser(users[1..], sub)
  }

  datatype Auth = Authenticated(user: User) | Refused(reply: Reply)

  /** `isinstance(user_id, str) and user_id.startswith('Token')`. */
  predicate ReportedAsToken(id: Value) {
    id.Str? && Text.StartsWith(id.s, "Token")
  }

  /** `token_required` as written: only a decode message starting with
      "Token" is reported; anything else is looked up as a user id. */
  function TokenRequired(header: Option<string>, decoded: Decoded, users: seq<User>): (a: Auth)
    ensures BearerToken(header).None? ==> a == Refused(TokenMissing)
    ensures a.Authenticated? ==> a.user in users && decoded.Subject? && decoded.sub == Num(a.user.id)
    ensures BearerToken(header).Some? && decoded.Expired? ==>
              a == Refused(Message(401, "Token expired. Please log in again."))
    ensures (BearerToken(header).Some? && decoded.Subject? && FindUser(users, decoded.sub).Some?
              && !(decoded.sub.Str? && Text.StartsWith(decoded.sub.s, "Token")))
              ==> a == Authenticated(FindUser(users, decoded.sub).value)
    ensures BearerToken(header).Some? && ReportedAsToken(DecodeToken(decoded)) ==>
              a == Refused(Message(401, DecodeToken(decoded).s))
    ensures BearerToken(header).Some? && !ReportedAsToken(DecodeToken(decoded))
            && FindUser(users, DecodeToken(decoded)).None? ==>
              a == Refused(Message(401, "User not found!"))
  {
    if BearerToken(header).None? then Refused(TokenMissing)
    else
      var id := DecodeToken(decoded);
      if ReportedAsToken(id) then Refused(Message(401, id.s))
      else match FindUser(users, id)
        case None => Refused(Message(401, "User not found!"))
        case Some(u) => Authenticated(u)
  }

  /** The discrepancy: an invalid token is not reported as such but as an
      unknown user, because its message starts with "Invalid". */
  lemma InvalidTokenReportsUserNotFound(header: Option<string>, users: seq<User>)
    requires BearerToken(header).Some?
    ensures TokenRequired(header, Invalid, users) == Refused(Message(401, "User not found!"))
    ensures TokenRequiredIntended(header, Invalid, users) == Refused(Message(401, "Invalid token. Please log in again."))
  {
    var msg := DecodeToken(Invalid).s;
    assert !ReportedAsToken(DecodeToken(Invalid)) by { assert msg[0] == 'I'; assert msg[..5][0] == 'I'; }
    assert FindUser(users, Str(msg)).None?;
  }

  /** For instance, with the header `Bearer abc`. */
  lemma InvalidBearerAbc(users: seq<User>)
    ensures TokenRequired(Some("Bearer abc"), Invalid, users) == Refused(Message(401, "User not found!"))
  {
    SchemeIgnored("Bearer", "abc", "");
    InvalidTokenReportsUserNotFound(Some("Bearer abc"), users);
  }

  /** `token_required` as evidently intended: both decode failures are
      reported with their own message. */
  function TokenRequiredIntended(header: Option<string>, decoded: Decoded, users: seq<User>): (a: Auth)
    ensures BearerToken(header).None? ==> a == Refused(TokenMissing)
    ensures BearerToken(header).Some? && !decoded.Subject? ==> a == Refused(Message(401, DecodeToken(decoded).s))
    ensures a.Authenticated? <==> (BearerToken(header).Some? && decoded.Subject? && FindUser(users, decoded.sub).Some?
              && !(decoded.sub.Str? && Text.StartsWith(decoded.sub.s, "Token")))
  {
    if BearerToken(header).None? then Refused(TokenMissing)
    else if !decoded.Subject? then Refused(Message(401, DecodeToken(decoded).s))
    else
      var id := decoded.sub;
      if id.Str? && Text.StartsWith(id.s, "Token") then Refused(Message(401, id.s))
      else match FindUser(users, id)
        case None => Refused(Message(401, "User not found!"))
        case Some(u) => Authenticated(u)
  }

  /** The two agree on every token the oracle accepts or reports expired. */
  lemma IntendedAgreesExceptInvalid(header: Option<string>, decoded: Decoded, users: seq<User>)
    requires !decoded.Invalid?
    ensures TokenRequiredIntended(header, decoded, users) == TokenRequired(header, decoded, users)
  {
  }

  /** The first user with that email, if any. */
  function FindByEmail(users: seq<User>, email: Value): (u: Option<User>)
    ensures u.Some? ==> u.value in users && u.value.email == email
    ensures u.None? ==> forall i :: 0 <= i < |users| ==> users[i].email != email
    decreases |users|
  {
    if |users| == 0 then None
    else if users[0].email == email then Some(users[0])
    else FindByEmail(users[1..], email)
  }

  function UserJson(u: User): Value {
    Obj(map["id" := Num(u.id), "username" := u.username, "email" := u.email, "role" := u.role])
  }

  /** `register()`, checks in order: a missing or falsy field (400), a role
      other than talent/company (400), a taken email (409); otherwise the
      user is inserted with the hashed password and 201 echoes it with the
      token. `hashed` and `token` are the oracles' outputs. */
  function Register(db: Db, data: Value, hashed: string, token: string): (h: Handled)
    ensures h.reply.Json? && h.reply.status != 201 ==> h.db == db
    ensures Required(data, ["username", "email", "password", "role"]) == Missing ==>
              h == Handled(Message(400, "Missing required fields!"), db)
    ensures Required(data, ["username", "email", "password", "role"]) == Crash ==> h == Handled(Uncaught, db)
    ensures Required(data, ["username", "email", "password", "role"]) == Pass ==>
      var role := data.fields["role"];
      var email := data.fields["email"];
      && (role != Str("talent") && role != Str("company") ==> h == Handled(Message(400, "Invalid role!"), db))
      && ((role == Str("talent") || role == Str("company")) && FindByEmail(db.users, email).Some? ==>
            h == Handled(Message(409, "User already exists!"), db))
      && ((role == Str("talent") || role == Str("company")) && FindByEmail(db.users, email).None? ==>
            var u := User(NextUserId(db.users), data.fields["username"], email, hashed, role);
            && h.db == db.(users := db.users + [u])
            && h.reply == Json(201, Obj(map["message" := Str("User registered successfully!"),
                                            "token" := Str(token), "user" := UserJson(u)])))
  {
    match Required(data, ["username", "email", "password", "role"])
    case Missing => Handled(Message(400, "Missing required fields!"), db)
    case Crash => Handled(Uncaught, db)
    case Pass =>
      var role := data.fields["role"];
      if role != Str("talent") && role != Str("company") then Handled(Message(400, "Invalid role!"), db)
      else if FindByEmail(db.users, data.fields["email"]).Some? then Handled(Message(409, "User already exists!"), db)
      else
        var u := User(NextUserId(db.users), data.fields["username"], data.fields["email"], hashed, role);
        Handled(Json(201, Obj(map["message" := Str("User registered successfully!"),
                                  "token" := Str(token), "user" := UserJson(u)])), db.(users := db.users + [u]))
  }

  const BadCredentials := Message(401, "Invalid email or password!")

  /** `login()`: missing email or password is 400; an unknown email and a
      wrong password give the same 401; otherwise 200 with the token and
      the user. `verify(hash, password)` is `check_password_hash`. */
  function Login(users: seq<User>, data: Value, verify: (string, Value) -> bool, token: string): (r: Reply)
    ensures Required(data, ["email", "password"]) == Missing ==> r == Message(400, "Missing email or password!")
    ensures Required(data, ["email", "password"]) == Crash ==> r == Uncaught
    ensures Required(data, ["email", "password"]) == Pass ==>
      var u := FindByEmail(users, data.fields["email"]);
      && (u.None? ==> r == BadCredentials)
      && (u.Some? && !verify(u.value.password, data.fields["password"]) ==> r == BadCredentials)
      && (u.Some? && verify(u.value.password, data.fields["password"]) ==>
            r == Json(200, Obj(map["message" := Str("Login successful!"), "token" := Str(token),
                                   "user" := UserJson(u.value)])))
  {
    match Required(data, ["email", "password"])
    case Missing => Message(400, "Missing email or password!")
    case Crash => Uncaught
    case Pass =>
      match FindByEmail(users, data.fields["email"])
      case None => BadCredentials
      case Some(u) =>
        if !verify(u.password, data.fields["password"]) then BadCredentials
        else Json(200, Obj(map["message" := Str("Login successful!"), "token" := Str(token), "user" := UserJson(u)]))
  }

  /** A registered user can log in with the password whose hash was stored. */
  lemma RegisterThenLogin(db: Db, data: Value, hashed: string, token: string, verify: (string, Value) -> bool)
    requires Register(db, data, hashed, token).reply.Json? && Register(db, data, hashed, token).reply.status == 201
    requires verify(hashed, data.fields["password"])
    ensures Login(Register(db, data, hashed, token).db.users, Obj(map["email" := data.fields["email"],
                  "password" := data.fields["password"]]), verify, token).Json?
    ensures Login(Register(db, data, hashed, token).db.users, Obj(map["email" := data.fields["email"],
                  "password" := data.fields["password"]]), verify, token).status == 200
  {
    var u := Registered(db, data, hashed, token);
    FindByEmailAppend(db.users, u, data.fields["email"]);
    LoginFound(db.users + [u], u, data.fields["email"], data.fields["password"], verify, token);
  }

  /** What a 201 from `register` added: one user, with the given email and
      the stored hash, who was not there before. */
  lemma Registered(db: Db, data: Value, hashed: string, token: string) returns (u: User)
    requires Register(db, data, hashed, token).reply.Json? && Register(db, data, hashed, token).reply.status == 201
    ensures "email" in data.fields && "password" in data.fields
    ensures PyTruthy(data.fields["email"]) && PyTruthy(data.fields["password"])
    ensures u.email == data.fields["email"] && u.password == hashed
    ensures FindByEmail(db.users, data.fields["email"]).None?
    ensures Register(db, data, hashed, token).db.users == db.users + [u]
  {
    var keys := ["username", "email", "password", "role"];
    assert Required(data, keys) == Pass;
    assert "email" in keys && "password" in keys;
    u := User(NextUserId(db.users), data.fields["username"], data.fields["email"], hashed, data.fields["role"]);
  }

  /** A login whose email finds a user and whose password that user's hash
      accepts succeeds. */
  lemma LoginFound(users: seq<User>, u: User, email: Value, password: Value, verify: (string, Value) -> bool,
                   token: string)
    requires PyTruthy(email) && PyTruthy(password)
    requires FindByEmail(users, email) == Some(u) && verify(u.password, password)
    ensures Login(users, Obj(map["email" := email, "password" := password]), verify, token).Json?
    ensures Login(users, Obj(map["email" := email, "password" := password]), verify, token).status == 200
  {
    var login := Obj(map["email" := email, "password" := password]);
    assert "email" in login.fields;
    assert PyTruthy(login);
    assert AllTruthy(login.fields, ["email", "password"]);
  }

  lemma {:induction false} FindByEmailAppend(users: seq<User>, u: User, email: Value)
    requires FindByEmail(users, email).None? && u.email == email
    ensures FindByEmail(users + [u], email) == Some(u)
    decreases |users|
  {
    if |users| > 0 {
      assert (users + [u])[1..] == users[1..] + [u];
      FindByEmailAppend(users[1..], u, email);
    }
  }
}

=== FILE: FlaskDb.dfy ===
/** The backend's (backend/app.py) view of the world: its SQLite tables as
    sequences of rows in rowid order, its JSON replies, and the Python
    field-access rules its request validation relies on. */
module FlaskDb {
  import opened Wrappers
  import opened Json

  /** A reply: a JSON body with a status, or an exception the handler does
      not catch (Flask's own 500 page; nothing was committed). */
  datatype Reply = Json(status: int, body: Value) | Uncaught

  /** `jsonify({'message': text}), status`. */
  function Message(status: int, text: string): Reply {
    Json(status, Obj(map["message" := Str(text)]))
  }

  /** A `users` row; `password` is the stored hash. */
  datatype User = User(id: int, username: Value, email: Value, password: string, role: Value)

  /** A `projects` or `jobs` row: its rowid, owner and other columns. */
  datatype Row = Row(id: int, userId: int, fields: map<string, Value>)

  datatype Db = Db(users: seq<User>, projects: seq<Row>, jobs: seq<Row>)

  /** A handler's reply and the database after it. */
  datatype Handled = Handled(reply: Reply, db: Db)

  /** `dict(row)`. */
  function RowJson(r: Row): Value {
    Obj(r.fields["id" := Num(r.id)]["user_id" := Num(r.userId)])
  }

  function RowsJson(rows: seq<Row>): (v: Value)
    ensures v.Arr? && |v.items| == |rows|
    ensures forall i :: 0 <= i < |rows| ==> v.items[i] == RowJson(rows[i])
  {
    Arr(seq(|rows|, i requires 0 <= i < |rows| => RowJson(rows[i])))
  }

  /** The rowid SQLite gives the next insert: one past the largest in use. */
  function NextId(ids: seq<int>): (n: int)
    ensures n >= 1
    ensures forall i :: 0 <= i < |ids| ==> ids[i] < n
    decreases |ids|
  {
    if |ids| == 0 then 1
    else
      var m := NextId(ids[..|ids| - 1]);
      assert forall i :: 0 <= i < |ids| - 1 ==> ids[i] == ids[..|ids| - 1][i];
      if ids[|ids| - 1] + 1 > m then ids[|ids| - 1] + 1 else m
  }

  /** The id column of a table, whatever its row type. */
  function Ids<T>(xs: seq<T>, id: T -> int): (ids: seq<int>)
    ensures |ids| == |xs|
    ensures forall i :: 0 <= i < |xs| ==> ids[i] == id(xs[i])
  {
    seq(|xs|, i requires 0 <= i < |xs| => id(xs[i]))
  }

  /** The next rowid of a `projects` or `jobs` table. */
  function NextRowId(t: seq<Row>): (n: int)
    ensures n >= 1
    ensures forall i :: 0 <= i < |t| ==> t[i].id < n
  {
    NextId(Ids(t, (r: Row) => r.id))
  }

  /** The next id of the `users` table: the same allocation as
      `NextRowId`, over the user row type. */
  function NextUserId(users: seq<User>): (n: int)
    ensures n >= 1
    ensures forall i :: 0 <= i < |users| ==> users[i].id < n
  {
    NextId(Ids(users, (u: User) => u.id))
  }

  /** `data.get(key)` on the parsed request body: `None` is the
      AttributeError raised when the body is not a dict; a missing key is
      `None` in Python, here `Null`. */
  function PyGet(data: Value, key: string): (r: Option<Value>)
    ensures r.Some? <==> data.Obj?
    ensures r.Some? && key in data.fields ==> r.value == data.fields[key]
    ensures r.Some? && key !in data.fields ==> r.value == Null
  {
    if data.Obj? then Some(if key in data.fields then data.fields[key] else Null) else None
  }

  /** The outcome of `if not data or not data.get(k1) or ...`. */
  datatype Check = Pass | Missing | Crash

  predicate AllTruthy(fields: map<string, Value>, keys: seq<string>) {
    forall k :: k in keys ==> k in fields && PyTruthy(fields[k])
  }

  /** Required-field validation: a falsy body or a falsy field is missing;
      a truthy body that is not a dict crashes on `.get`. */
  function Required(data: Value, keys: seq<string>): (c: Check)
    requires |keys| > 0
    ensures c == Pass <==> data.Obj? && PyTruthy(data) && AllTruthy(data.fields, keys)
    ensures c == Crash <==> PyTruthy(data) && !data.Obj?
  {
    if !PyTruthy(data) then Missing
    else if !data.Obj? then Crash
    else if AllTruthy(data.fields, keys) then Pass
    else Missing
  }

  /** `current_user['role'] != role` gives 403 before anything else. */
  predicate HasRole(user: User, role: string) {
    user.role == Str(role)
  }

  const Forbidden := Message(403, "Unauthorized!")
}

=== FILE: FlaskRoutes.dfy ===
/** The backend's protected routes (backend/app.py): each runs behind
    `token_required`, checks the caller's role, validates the body and then
    reads or changes the `projects` and `jobs` tables. The matcher, the
    scraper and the clock are inputs. */
module FlaskRoutes {
  import opened Wrappers
  import opened Json
  import Text
  import opened FlaskDb
  import opened FlaskAuth

  /** What the handlers take from outside the database: the time stamp
      `datetime.now().isoformat()` and the matcher's and scraper's answers. */
  datatype Services = Services(
    now: string,
    projectToJobs: (Value, seq<Value>) -> Value,
    jobToProjects: (Value, seq<Value>) -> Value,
    scrapeUrl: Value -> Value,
    scrapeBatch: Value -> Value)

  /** `SELECT * FROM t WHERE user_id = ?`, in rowid order. */
  function Owned(t: seq<Row>, userId: int): (o: seq<Row>)
    ensures |o| <= |t|
    ensures forall r :: r in o <==> r in t && r.userId == userId
    decreases |t|
  {
    if |t| == 0 then []
    else if t[0].userId == userId then [t[0]] + Owned(t[1..], userId)
    else Owned(t[1..], userId)
  }

  /** The selection keeps rowid order: it distributes over concatenation. */
  lemma {:induction false} OwnedConcat(a: seq<Row>, b: seq<Row>, userId: int)
    ensures Owned(a + b, userId) == Owned(a, userId) + Owned(b, userId)
    decreases |a|
  {
    if |a| == 0 {
      assert a + b == b;
    } else {
      assert (a + b)[0] == a[0];
      assert (a + b)[1..] == a[1..] + b;
      OwnedConcat(a[1..], b, userId);
    }
  }

  /** `SELECT * FROM t WHERE id = ? AND user_id = ?`: the first match. */
  function FindRow(t: seq<Row>, id: Value, userId: int): (r: Option<Row>)
    ensures r.Some? ==> r.value in t && id == Num(r.value.id) && r.value.userId == userId
    ensures r.None? ==> forall i :: 0 <= i < |t| ==> !(id == Num(t[i].id) && t[i].userId == userId)
    decreases |t|
  {
    if |t| == 0 then None
    else if id == Num(t[0].id) && t[0].userId == userId then Some(t[0])
    else FindRow(t[1..], id, userId)
  }

  /** `DELETE FROM t WHERE id = ?`. */
  function DeleteRows(t: seq<Row>, id: int): (d: seq<Row>)
    ensures forall r :: r in d <==> r in t && r.id != id
    ensures |d| <= |t|
    ensures UniqueIds(t) ==> UniqueIds(d)
    decreases |t|
  {
    if |t| == 0 then []
    else if t[0].id == id then DeleteRows(t[1..], id)
    else [t[0]] + DeleteRows(t[1..], id)
  }

  /** The surviving rows keep their order: the delete distributes over
      concatenation. */
  lemma {:induction false} DeleteRowsConcat(a: seq<Row>, b: seq<Row>, id: int)
    ensures DeleteRows(a + b, id) == DeleteRows(a, id) + DeleteRows(b, id)
    decreases |a|
  {
    if |a| == 0 {
      assert a + b == b;
    } else {
      assert (a + b)[0] == a[0];
      assert (a + b)[1..] == a[1..] + b;
      DeleteRowsConcat(a[1..], b, id);
    }
  }

  /** Deleting an id no row has changes nothing. */
  lemma {:induction false} DeleteAbsent(t: seq<Row>, id: int)
    requires forall i :: 0 <= i < |t| ==> t[i].id != id
    ensures DeleteRows(t, id) == t
    decreases |t|
  {
    if |t| > 0 {
      DeleteAbsent(t[1..], id);
    }
  }

  /** `url.split('/')[-1]`, or `[-2]` when the last segment is empty. A
      non-empty url always has the second segment the fallback reads. */
  function RepoName(url: string): (name: string)
    requires url != ""
    ensures '/' !in name
  {
    var parts := Text.Split(url, '/');
    var last := parts[|parts| - 1];
    if last != "" then last
    else
      Text.JoinSplit(url, '/');
      assert |parts| >= 2;
      parts[|parts| - 2]
  }

  /** The name is the last path segment, with or without a trailing slash. */
  lemma RepoNameOfPath(owner: string, repo: string)
    requires repo != "" && '/' !in repo
    ensures RepoName(owner + "/" + repo) == repo
    ensures RepoName(owner + "/" + repo + "/") == repo
  {
    assert owner + "/" + repo == owner + ['/'] + repo;
    Text.SplitAround(owner, repo, '/');
    Text.SplitFree(repo, '/');
    assert owner + "/" + repo + "/" == owner + ['/'] + (repo + ['/'] + "");
    Text.SplitAround(repo, "", '/');
    Text.SplitAround(owner, repo + ['/'] + "", '/');
  }

  /** One project joined with its owner: `dict(project)` with the owner's
      `username` added, or nothing when no user has the project's `user_id`. */
  function JoinRow(p: Row, users: seq<User>): (r: Option<Value>)
    ensures r.Some? <==> FindUser(users, Num(p.userId)).Some?
    ensures r.Some? ==> r.value == Obj(RowJson(p).fields["username" := FindUser(users, Num(p.userId)).value.username])
  {
    match FindUser(users, Num(p.userId))
    case None => None
    case Some(u) => Some(Obj(RowJson(p).fields["username" := u.username]))
  }

  /** The projects of `SELECT p.*, u.username FROM projects p JOIN users u`:
      those whose owner exists, each with the owner's username, in table
      order. */
  function WithOwners(projects: seq<Row>, users: seq<User>): (v: seq<Value>)
    ensures |v| <= |projects|
    ensures forall p :: p in projects && JoinRow(p, users).Some? ==> JoinRow(p, users).value in v
    ensures forall x :: x in v ==> exists p :: p in projects && JoinRow(p, users) == Some(x)
    ensures (forall i :: 0 <= i < |projects| ==> FindUser(users, Num(projects[i].userId)).Some?) ==> |v| == |projects|
    ensures |v| == 0 <==> forall i :: 0 <= i < |projects| ==> FindUser(users, Num(projects[i].userId)).None?
  {
    JoinSize(projects, users);
    JoinKeeps(projects, users);
    JoinOnly(projects, users);
    Join(projects, users)
  }

  /** The first project's contribution to the join: its joined row, if any. */
  function Joined(p: Row, users: seq<User>): seq<Value> {
    match JoinRow(p, users)
    case None => []
    case Some(x) => [x]
  }

  /** The join, row by row. */
  function Join(projects: seq<Row>, users: seq<User>): seq<Value>
    decreases |projects|
  {
    if |projects| == 0 then [] else Joined(projects[0], users) + Join(projects[1..], users)
  }

  lemma {:induction false} JoinSize(projects: seq<Row>, users: seq<User>)
    ensures |Join(projects, users)| <= |projects|
    ensures (forall i :: 0 <= i < |projects| ==> FindUser(users, Num(projects[i].userId)).Some?) ==>
              |Join(projects, users)| == |projects|
    ensures |Join(projects, users)| == 0 <==>
              forall i :: 0 <= i < |projects| ==> FindUser(users, Num(projects[i].userId)).None?
    decreases |projects|
  {
    if |projects| > 0 {
      JoinSize(projects[1..], users);
      assert forall i :: 1 <= i < |projects| ==> projects[i] == projects[1..][i - 1];
    }
  }

  lemma {:induction false} JoinKeeps(projects: seq<Row>, users: seq<User>)
    ensures forall p :: p in projects && JoinRow(p, users).Some? ==> JoinRow(p, users).value in Join(projects, users)
    decreases |projects|
  {
    if |projects| > 0 {
      JoinKeeps(projects[1..], users);
      assert forall p :: p in projects ==> p == projects[0] || p in projects[1..];
    }
  }

  lemma {:induction false} JoinOnly(projects: seq<Row>, users: seq<User>)
    ensures forall x :: x in Join(projects, users) ==> exists p :: p in projects && JoinRow(p, users) == Some(x)
    decreases |projects|
  {
    if |projects| > 0 {
      JoinOnly(projects[1..], users);
      forall x | x in Join(projects, users)
        ensures exists p :: p in projects && JoinRow(p, users) == Some(x)
      {
        if x in Joined(projects[0], users) {
          assert JoinRow(projects[0], users) == Some(x);
        } else {
          var p :| p in projects[1..] && JoinRow(p, users) == Some(x);
          assert p in projects;
        }
      }
    }
  }

  lemma {:induction false} JoinConcat(a: seq<Row>, b: seq<Row>, users: seq<User>)
    ensures Join(a + b, users) == Join(a, users) + Join(b, users)
    decreases |a|
  {
    if |a| == 0 {
      assert a + b == b;
    } else {
      assert (a + b)[0] == a[0];
      assert (a + b)[1..] == a[1..] + b;
      JoinConcat(a[1..], b, users);
    }
  }

  /** The join keeps the table's order: it distributes over concatenation. */
  lemma {:induction false} WithOwnersConcat(a: seq<Row>, b: seq<Row>, users: seq<User>)
    ensures WithOwners(a + b, users) == WithOwners(a, users) + WithOwners(b, users)
  {
    JoinConcat(a, b, users);
  }

  /** The JSON-text columns (`languages`, `requirements`) hold the value
      `json.dumps` was given. */
  const Languages := Arr([Str("JavaScript"), Str("TypeScript")])

  /** `add_project`: a missing url is 400, a url that is not a string
      crashes on `.split`; otherwise a row with the derived name is inserted
      and echoed with 201. */
  function AddProject(db: Db, user: User, body: Value, now: string): (h: Handled)
    ensures h.db.users == db.users && h.db.jobs == db.jobs
    ensures Required(body, ["url"]) == Missing ==> h == Handled(Message(400, "Missing project URL!"), db)
    ensures h.reply.Uncaught? <==> Required(body, ["url"]) == Crash || (Required(body, ["url"]) == Pass && !body.fields["url"].Str?)
    ensures h.reply.Uncaught? ==> h.db == db
    ensures h.reply.Json? && h.reply.status == 201 ==>
              && |h.db.projects| == |db.projects| + 1
              && h.db.projects[..|db.projects|] == db.projects
              && var p := h.db.projects[|db.projects|];
                 && p.userId == user.id
                 && (forall i :: 0 <= i < |db.projects| ==> db.projects[i].id < p.id)
                 && "url" in p.fields && p.fields["url"] == body.fields["url"]
                 && "name" in p.fields && p.fields["name"] == Str(RepoName(body.fields["url"].s))
                 && h.reply.body == Obj(map["message" := Str("Project added successfully!"), "project" := RowJson(p)])
    ensures h.reply.Json? ==> h.reply.status in {201, 400}
  {
    match Required(body, ["url"])
    case Missing => Handled(Message(400, "Missing project URL!"), db)
    case Crash => Handled(Uncaught, db)
    case Pass =>
      var url := body.fields["url"];
      if !url.Str? then Handled(Uncaught, db)
      else
        assert url.s != "";
        var p := Row(NextRowId(db.projects), user.id,
                     map["name" := Str(RepoName(url.s)), "url" := url,
                         "description" := Str("Repository description"),
                         "languages" := Languages, "last_analyzed" := Str(now)]);
        Handled(Json(201, Obj(map["message" := Str("Project added successfully!"), "project" := RowJson(p)])),
                db.(projects := db.projects + [p]))
  }

  /** `delete_project`: only the caller's own project can be deleted; any
      other id is 404 and changes nothing. */
  function DeleteProject(db: Db, user: User, id: int): (h: Handled)
    ensures h.db.users == db.users && h.db.jobs == db.jobs
    ensures FindRow(db.projects, Num(id), user.id).None? ==> h == Handled(Message(404, "Project not found!"), db)
    ensures FindRow(db.projects, Num(id), user.id).Some? ==>
              h.reply == Message(200, "Project deleted successfully!")
              && h.db.projects == DeleteRows(db.projects, id)
              && (forall r :: r in h.db.projects <==> r in db.projects && r.id != id)
              && (UniqueIds(db.projects) ==> UniqueIds(h.db.projects))
  {
    if FindRow(db.projects, Num(id), user.id).None? then Handled(Message(404, "Project not found!"), db)
    else Handled(Message(200, "Project deleted successfully!"), db.(projects := DeleteRows(db.projects, id)))
  }

  /** `add_job`: title and description are required; `company` falls back
      to the caller's username only when the key is absent, `requirements`
      to the empty list. */
  function AddJob(db: Db, user: User, body: Value, now: string): (h: Handled)
    ensures h.db.users == db.users && h.db.projects == db.projects
    ensures Required(body, ["title", "description"]) == Missing ==> h == Handled(Message(400, "Missing required fields!"), db)
    ensures Required(body, ["title", "description"]) == Crash ==> h == Handled(Uncaught, db)
    ensures Required(body, ["title", "description"]) == Pass ==>
              && |h.db.jobs| == |db.jobs| + 1
              && h.db.jobs[..|db.jobs|] == db.jobs
              && var j := h.db.jobs[|db.jobs|];
                 && j.userId == user.id
                 && (forall i :: 0 <= i < |db.jobs| ==> db.jobs[i].id < j.id)
                 && "title" in j.fields && j.fields["title"] == body.fields["title"]
                 && "description" in j.fields && j.fields["description"] == body.fields["description"]
                 && "company" in j.fields && j.fields["company"] == (if "company" in body.fields then body.fields["company"] else user.username)
                 && "requirements" in j.fields && j.fields["requirements"] == (if "requirements" in body.fields then body.fields["requirements"] else Arr([]))
                 && h.reply == Json(201, Obj(map["message" := Str("Job added successfully!"), "job" := RowJson(j)]))
  {
    match Required(body, ["title", "description"])
    case Missing => Handled(Message(400, "Missing required fields!"), db)
    case Crash => Handled(Uncaught, db)
    case Pass =>
      var j := JobRow(body.fields, NextRowId(db.jobs), user, now);
      Handled(Json(201, Obj(map["message" := Str("Job added successfully!"), "job" := RowJson(j)])),
              db.(jobs := db.jobs + [j]))
  }

  /** The row `add_job` inserts. */
  function JobRow(f: map<string, Value>, id: int, user: User, now: string): (j: Row)
    requires "title" in f && "description" in f
    ensures j.id == id && j.userId == user.id
    ensures "title" in j.fields && j.fields["title"] == f["title"]
    ensures "description" in j.fields && j.fields["description"] == f["description"]
    ensures "company" in j.fields && j.fields["company"] == (if "company" in f then f["company"] else user.username)
    ensures "requirements" in j.fields && j.fields["requirements"] == (if "requirements" in f then f["requirements"] else Arr([]))
  {
    Row(id, user.id,
        map["title" := f["title"],
            "company" := (if "company" in f then f["company"] else user.username),
            "description" := f["description"],
            "requirements" := (if "requirements" in f then f["requirements"] else Arr([])),
            "created_at" := Str(now)])
  }

  /** `delete_job`: as `delete_project`, on the caller's own jobs. */
  function DeleteJob(db: Db, user: User, id: int): (h: Handled)
    ensures h.db.users == db.users && h.db.projects == db.projects
    ensures FindRow(db.jobs, Num(id), user.id).None? ==> h == Handled(Message(404, "Job not found!"), db)
    ensures FindRow(db.jobs, Num(id), user.id).Some? ==>
              h.reply == Message(200, "Job deleted successfully!")
              && h.db.jobs == DeleteRows(db.jobs, id)
              && (forall r :: r in h.db.jobs <==> r in db.jobs && r.id != id)
              && (UniqueIds(db.jobs) ==> UniqueIds(h.db.jobs))
  {
    if FindRow(db.jobs, Num(id), user.id).None? then Handled(Message(404, "Job not found!"), db)
    else Handled(Message(200, "Job deleted successfully!"), db.(jobs := DeleteRows(db.jobs, id)))
  }

  /** `match_project_to_jobs`: the caller's project against every job of
      every company. */
  function MatchProjectToJobs(db: Db, user: User, body: Value, svc: Services): (r: Reply)
    ensures Required(body, ["project_id"]) == Missing ==> r == Message(400, "Missing project ID!")
    ensures Required(body, ["project_id"]) == Crash ==> r == Uncaught
    ensures Required(body, ["project_id"]) == Pass ==>
      var p := FindRow(db.projects, body.fields["project_id"], user.id);
      && (p.None? ==> r == Message(404, "Project not found!"))
      && (p.Some? && |db.jobs| == 0 ==> r == Message(404, "No jobs found!"))
      && (p.Some? && |db.jobs| > 0 ==> r == Json(200, svc.projectToJobs(RowJson(p.value), RowsJson(db.jobs).items)))
  {
    match Required(body, ["project_id"])
    case Missing => Message(400, "Missing project ID!")
    case Crash => Uncaught
    case Pass =>
      match FindRow(db.projects, body.fields["project_id"], user.id)
      case None => Message(404, "Project not found!")
      case Some(p) =>
        if |db.jobs| == 0 then Message(404, "No jobs found!")
        else Json(200, svc.projectToJobs(RowJson(p), RowsJson(db.jobs).items))
  }

  /** `match_job_to_projects`: the caller's job against every project whose
      owner exists. */
  function MatchJobToProjects(db: Db, user: User, body: Value, svc: Services): (r: Reply)
    ensures Required(body, ["job_id"]) == Missing ==> r == Message(400, "Missing job ID!")
    ensures Required(body, ["job_id"]) == Crash ==> r == Uncaught
    ensures Required(body, ["job_id"]) == Pass ==>
      var j := FindRow(db.jobs, body.fields["job_id"], user.id);
      var ps := WithOwners(db.projects, db.users);
      && (j.None? ==> r == Message(404, "Job not found!"))
      && (j.Some? && |ps| == 0 ==> r == Message(404, "No projects found!"))
      && (j.Some? && |ps| > 0 ==> r == Json(200, svc.jobToProjects(RowJson(j.value), ps)))
  {
    match Required(body, ["job_id"])
    case Missing => Message(400, "Missing job ID!")
    case Crash => Uncaught
    case Pass =>
      match FindRow(db.jobs, body.fields["job_id"], user.id)
      case None => Message(404, "Job not found!")
      case Some(j) =>
        var ps := WithOwners(db.projects, db.users);
        if |ps| == 0 then Message(404, "No projects found!")
        else Json(200, svc.jobToProjects(RowJson(j), ps))
  }

  /** `scrape_url` and `scrape_batch`: the one required field is handed to
      the scraper and its answer returned. */
  function Scrape(body: Value, key: string, missing: string, scraper: Value -> Value): (r: Reply)
    ensures Required(body, [key]) == Missing ==> r == Message(400, missing)
    ensures Required(body, [key]) == Crash ==> r == Uncaught
    ensures Required(body, [key]) == Pass ==> r == Json(200, scraper(body.fields[key]))
  {
    match Required(body, [key])
    case Missing => Message(400, missing)
    case Crash => Uncaught
    case Pass => Json(200, scraper(body.fields[key]))
  }

  /** What `save_scraped_jobs` does with one list entry. */
  datatype Entry = Skip | Insert | Fail

  /** `job.get('status') == 'success'` and, when it is, the `job[...]`
      reads: a non-dict entry or a successful one missing a column raises. */
  function Classify(job: Value): (e: Entry)
    ensures e == Insert <==> job.Obj? && PyGet(job, "status") == Some(Str("success")) && Columns(job)
    ensures e == Skip <==> job.Obj? && PyGet(job, "status") != Some(Str("success"))
  {
    if !job.Obj? then Fail
    else if "status" !in job.fields || job.fields["status"] != Str("success") then Skip
    else if Columns(job) then Insert
    else Fail
  }

  predicate Columns(job: Value)
    requires job.Obj?
  {
    "title" in job.fields && "company" in job.fields && "description" in job.fields && "url" in job.fields
  }

  /** The row inserted for a successful entry. */
  function ScrapedRow(job: Value, id: int, userId: int, now: string): (r: Row)
    requires job.Obj? && Columns(job)
    ensures r.id == id && r.userId == userId && "source_url" in r.fields && r.fields["source_url"] == job.fields["url"]
  {
    Row(id, userId, map["title" := job.fields["title"], "company" := job.fields["company"],
                        "description" := job.fields["description"], "requirements" := Arr([]),
                        "source_url" := job.fields["url"], "created_at" := Str(now)])
  }

  /** The columns of an inserted scraped job: title, company and
      description copied, the url as `source_url`, no requirements and the
      insertion time, and nothing else. */
  lemma ScrapedRowColumns(job: Value, id: int, userId: int, now: string)
    requires job.Obj? && Columns(job)
    ensures var r := ScrapedRow(job, id, userId, now);
            && r.fields.Keys == {"title", "company", "description", "requirements", "source_url", "created_at"}
            && r.fields["title"] == job.fields["title"] && r.fields["company"] == job.fields["company"]
            && r.fields["description"] == job.fields["description"] && r.fields["source_url"] == job.fields["url"]
            && r.fields["requirements"] == Arr([]) && r.fields["created_at"] == Str(now)
  {
  }

  /** The successful entries, in order. */
  function Successes(jobs: seq<Value>): (s: seq<Value>)
    ensures forall v :: v in s <==> v in jobs && Classify(v) == Insert
    decreases |jobs|
  {
    if |jobs| == 0 then []
    else if Classify(jobs[0]) == Insert then [jobs[0]] + Successes(jobs[1..])
    else Successes(jobs[1..])
  }

  /** The successful entries keep their order and multiplicity. */
  lemma {:induction false} SuccessesConcat(a: seq<Value>, b: seq<Value>)
    ensures Successes(a + b) == Successes(a) + Successes(b)
    decreases |a|
  {
    if |a| == 0 {
      assert a + b == b;
    } else {
      assert (a + b)[0] == a[0];
      assert (a + b)[1..] == a[1..] + b;
      SuccessesConcat(a[1..], b);
    }
  }

  /** The `jobs` table after the loop over `jobs`, or `None` when an entry
      raises (the open transaction is then never committed). */
  function SaveAll(jobs: seq<Value>, table: seq<Row>, userId: int, now: string): (r: Option<seq<Row>>)
    ensures r.None? <==> exists i :: 0 <= i < |jobs| && Classify(jobs[i]) == Fail
    ensures r.Some? ==> |r.value| == |table| + |Successes(jobs)| && r.value[..|table|] == table
    ensures r.Some? ==> forall k :: |table| <= k < |r.value| ==> r.value[k].userId == userId
    decreases |jobs|
  {
    if |jobs| == 0 then Some(table)
    else
      assert forall i :: 1 <= i < |jobs| ==> jobs[i] == jobs[1..][i - 1];
      match Classify(jobs[0])
      case Fail => None
      case Skip => SaveAll(jobs[1..], table, userId, now)
      case Insert =>
        var r := SaveAll(jobs[1..], table + [ScrapedRow(jobs[0], NextRowId(table), userId, now)], userId, now);
        assert r.Some? ==> r.value[..|table|] == r.value[..|table| + 1][..|table|];
        r
  }

  /** The `k`-th new row is the row built from the `k`-th successful entry:
      only successes are inserted, in order, each once. */
  lemma {:induction false} SavedRowsMatch(jobs: seq<Value>, table: seq<Row>, userId: int, now: string, saved: seq<Row>)
    requires SaveAll(jobs, table, userId, now) == Some(saved)
    ensures RowsFrom(saved, |table|, Successes(jobs), userId, now)
    decreases |jobs|, 1
  {
    if |jobs| > 0 && Classify(jobs[0]) == Insert {
      SavedRowsInsert(jobs, table, userId, now, saved);
    } else if |jobs| > 0 && Classify(jobs[0]) == Skip {
      SaveAllSkip(jobs, table, userId, now);
      SavedRowsMatch(jobs[1..], table, userId, now, saved);
    }
  }

  /** The step of SavedRowsMatch for an inserted entry. */
  lemma {:induction false} SavedRowsInsert(jobs: seq<Value>, table: seq<Row>, userId: int, now: string, saved: seq<Row>)
    requires |jobs| > 0 && Classify(jobs[0]) == Insert
    requires SaveAll(jobs, table, userId, now) == Some(saved)
    ensures RowsFrom(saved, |table|, Successes(jobs), userId, now)
    decreases |jobs|, 0
  {
    var row := ScrapedRow(jobs[0], NextRowId(table), userId, now);
    var table' := table + [row];
    SaveAllInsert(jobs, table, userId, now);
    SavedRowsMatch(jobs[1..], table', userId, now, saved);
    RowAfterTable(saved, table, row, table');
    assert SavedFrom(row, jobs[0], userId, now);
    ShiftSaved(Successes(jobs), jobs[0], Successes(jobs[1..]), saved, |table|, |table'|, userId, now);
  }

  /** From position `start` on, `t` holds one row built from each entry of
      `s`, in order. */
  predicate RowsFrom(t: seq<Row>, start: nat, s: seq<Value>, userId: int, now: string) {
    |t| >= start + |s| && forall k :: 0 <= k < |s| ==> SavedFrom(t[start + k], s[k], userId, now)
  }

  /** `r` is the row built from the successful entry `job`, whatever its id. */
  predicate SavedFrom(r: Row, job: Value, userId: int, now: string) {
    Classify(job) == Insert && r == ScrapedRow(job, r.id, userId, now)
  }

  /** One inserting iteration: the entry's row goes after the table. */
  lemma SaveAllInsert(jobs: seq<Value>, table: seq<Row>, userId: int, now: string)
    requires |jobs| > 0 && Classify(jobs[0]) == Insert
    ensures SaveAll(jobs, table, userId, now)
              == SaveAll(jobs[1..], table + [ScrapedRow(jobs[0], NextRowId(table), userId, now)], userId, now)
    ensures Successes(jobs) == [jobs[0]] + Successes(jobs[1..])
  {
  }

  /** One skipping iteration leaves the table as it is. */
  lemma SaveAllSkip(jobs: seq<Value>, table: seq<Row>, userId: int, now: string)
    requires |jobs| > 0 && Classify(jobs[0]) == Skip
    ensures SaveAll(jobs, table, userId, now) == SaveAll(jobs[1..], table, userId, now)
    ensures Successes(jobs) == Successes(jobs[1..])
  {
  }

  /** A table that starts with `table + [row]` has `row` right after `table`. */
  lemma RowAfterTable(t: seq<Row>, table: seq<Row>, row: Row, table': seq<Row>)
    requires table' == table + [row]
    requires |t| >= |table'| && t[..|table'|] == table'
    ensures |t| > |table| && t[|table|] == row
  {
    assert t[|table|] == t[..|table'|][|table|];
  }

  /** Rows built from `rest` after position `start + 1`, and one built from
      `head` at `start`, are rows built from `[head] + rest` from `start`. */
  lemma ShiftSaved(s: seq<Value>, head: Value, rest: seq<Value>, t: seq<Row>, start: nat, next: nat,
                   userId: int, now: string)
    requires s == [head] + rest && next == start + 1
    requires |t| > start && SavedFrom(t[start], head, userId, now)
    requires RowsFrom(t, next, rest, userId, now)
    ensures RowsFrom(t, start, s, userId, now)
  {
    forall k | 0 <= k < |s|
      ensures SavedFrom(t[start + k], s[k], userId, now)
    {
      if k > 0 {
        assert s[k] == rest[k - 1];
        assert t[start + k] == t[start + 1 + (k - 1)];
      }
    }
  }

  /** Every inserted row gets an id larger than any before it. */
  lemma {:induction false} SavedIdsFresh(jobs: seq<Value>, table: seq<Row>, userId: int, now: string)
    requires SaveAll(jobs, table, userId, now).Some?
    ensures var t := SaveAll(jobs, table, userId, now).value;
            forall k, i :: |table| <= k < |t| && 0 <= i < k ==> t[i].id < t[k].id
    decreases |jobs|
  {
    if |jobs| > 0 && Classify(jobs[0]) == Insert {
      var row := ScrapedRow(jobs[0], NextRowId(table), userId, now);
      var table' := table + [row];
      SavedIdsFresh(jobs[1..], table', userId, now);
      var t := SaveAll(jobs, table, userId, now).value;
      assert t == SaveAll(jobs[1..], table', userId, now).value;
      assert t[..|table'|] == table';
      forall k, i | |table| <= k < |t| && 0 <= i < k
        ensures t[i].id < t[k].id
      {
        if k == |table| {
          assert t[k] == row && t[i] == table[i];
        }
      }
    } else if |jobs| > 0 && Classify(jobs[0]) == Skip {
      SavedIdsFresh(jobs[1..], table, userId, now);
    }
  }

  /** `save_scraped_jobs`: 200 "Jobs saved successfully!" whether or not
      anything was inserted; a `jobs` value that is not a list, or any
      entry that raises, is an uncaught error with nothing saved. */
  function SaveScrapedJobs(db: Db, user: User, body: Value, now: string): (h: Handled)
    ensures h.db.users == db.users && h.db.projects == db.projects
    ensures Required(body, ["jobs"]) == Missing ==> h == Handled(Message(400, "Missing jobs!"), db)
    ensures h.reply.Uncaught? ==> h.db == db
    ensures Required(body, ["jobs"]) == Pass && body.fields["jobs"].Arr? ==>
              var saved := SaveAll(body.fields["jobs"].items, db.jobs, user.id, now);
              && (saved.None? ==> h == Handled(Uncaught, db))
              && (saved.Some? ==> h == Handled(Message(200, "Jobs saved successfully!"), db.(jobs := saved.value)))
    ensures Required(body, ["jobs"]) == Pass && !body.fields["jobs"].Arr? ==> h == Handled(Uncaught, db)
  {
    match Required(body, ["jobs"])
    case Missing => Handled(Message(400, "Missing jobs!"), db)
    case Crash => Handled(Uncaught, db)
    case Pass =>
      var jobs := body.fields["jobs"];
      if !jobs.Arr? then Handled(Uncaught, db)
      else match SaveAll(jobs.items, db.jobs, user.id, now)
        case None => Handled(Uncaught, db)
        case Some(t) => Handled(Message(200, "Jobs saved successfully!"), db.(jobs := t))
  }

  /** The same loop, statement by statement, as the handler runs it. */
  method SaveScrapedLoop(jobs: seq<Value>, table: seq<Row>, userId: int, now: string) returns (r: Option<seq<Row>>)
    ensures r == SaveAll(jobs, table, userId, now)
  {
    var t := table;
    var i := 0;
    while i < |jobs|
      invariant 0 <= i <= |jobs|
      invariant SaveAll(jobs, table, userId, now) == SaveAll(jobs[i..], t, userId, now)
      decreases |jobs| - i
    {
      SaveAllStep(jobs, i, t, userId, now);
      match Classify(jobs[i]) {
        case Fail => return None;
        case Skip =>
        case Insert => t := t + [ScrapedRow(jobs[i], NextRowId(t), userId, now)];
      }
      i := i + 1;
    }
    assert jobs[i..] == [];
    return Some(t);
  }

  lemma SaveAllStep(jobs: seq<Value>, i: int, t: seq<Row>, userId: int, now: string)
    requires 0 <= i < |jobs|
    ensures jobs[i..][1..] == jobs[i + 1..]
    ensures Classify(jobs[i]) == Fail ==> SaveAll(jobs[i..], t, userId, now) == None
    ensures Classify(jobs[i]) == Skip ==> SaveAll(jobs[i..], t, userId, now) == SaveAll(jobs[i + 1..], t, userId, now)
    ensures Classify(jobs[i]) == Insert ==>
              SaveAll(jobs[i..], t, userId, now)
                == SaveAll(jobs[i + 1..], t + [ScrapedRow(jobs[i], NextRowId(t), userId, now)], userId, now)
  {
    assert jobs[i..][0] == jobs[i];
    assert jobs[i..][1..] == jobs[i + 1..];
  }

  /** The protected endpoints. */
  datatype Endpoint =
    | Me
    | ListProjects | NewProject(body: Value) | RemoveProject(projectId: int)
    | ListJobs | NewJob(body: Value) | RemoveJob(jobId: int)
    | ProjectToJobs(body: Value) | JobToProjects(body: Value)
    | ScrapeOne(body: Value) | ScrapeMany(body: Value) | SaveScraped(body: Value)

  /** The role each endpoint demands; `/api/auth/me` demands none. */
  function RoleFor(e: Endpoint): Option<string> {
    match e
    case Me => None
    case ListProjects | NewProject(_) | RemoveProject(_) | ProjectToJobs(_) => Some("talent")
    case _ => Some("company")
  }

  /** A request to a protected endpoint: authentication, then the role
      check, then the handler. */
  function Serve(db: Db, header: Option<string>, decoded: Decoded, e: Endpoint, svc: Services): (h: Handled)
    ensures h.db.users == db.users
    ensures TokenRequired(header, decoded, db.users).Refused? ==>
              h == Handled(TokenRequired(header, decoded, db.users).reply, db)
    ensures TokenRequired(header, decoded, db.users).Authenticated? && RoleFor(e).Some?
            && !HasRole(TokenRequired(header, decoded, db.users).user, RoleFor(e).value) ==>
              h == Handled(Forbidden, db)
  {
    match TokenRequired(header, decoded, db.users)
    case Refused(reply) => Handled(reply, db)
    case Authenticated(u) => Dispatch(db, u, e, svc)
  }

  /** What an authenticated request does: the role check, then the handler. */
  function Dispatch(db: Db, u: User, e: Endpoint, svc: Services): (h: Handled)
    ensures h.db.users == db.users
    ensures RoleFor(e).Some? && !HasRole(u, RoleFor(e).value) ==> h == Handled(Forbidden, db)
  {
    if RoleFor(e).Some? && !HasRole(u, RoleFor(e).value) then Handled(Forbidden, db)
    else match e
      case Me => Handled(Json(200, UserJson(u)), db)
      case ListProjects => Handled(Json(200, Obj(map["projects" := RowsJson(Owned(db.projects, u.id))])), db)
      case NewProject(body) => AddProject(db, u, body, svc.now)
      case RemoveProject(id) => DeleteProject(db, u, id)
      case ListJobs => Handled(Json(200, Obj(map["jobs" := RowsJson(Owned(db.jobs, u.id))])), db)
      case NewJob(body) => AddJob(db, u, body, svc.now)
      case RemoveJob(id) => DeleteJob(db, u, id)
      case ProjectToJobs(body) => Handled(MatchProjectToJobs(db, u, body, svc), db)
      case JobToProjects(body) => Handled(MatchJobToProjects(db, u, body, svc), db)
      case ScrapeOne(body) => Handled(Scrape(body, "url", "Missing URL!", svc.scrapeUrl), db)
      case ScrapeMany(body) => Handled(Scrape(body, "keywords", "Missing keywords!", svc.scrapeBatch), db)
      case SaveScraped(body) => SaveScrapedJobs(db, u, body, svc.now)
  }

  /** Talents only ever change `projects` and companies only `jobs`, and
      each only rows of their own. */
  lemma RolesSeparateTables(db: Db, header: Option<string>, decoded: Decoded, e: Endpoint, svc: Services)
    requires UniqueIds(db.projects) && UniqueIds(db.jobs)
    requires TokenRequired(header, decoded, db.users).Authenticated?
    ensures var u := TokenRequired(header, decoded, db.users).user;
            var h := Serve(db, header, decoded, e, svc);
            && (HasRole(u, "talent") ==> h.db.jobs == db.jobs)
            && (HasRole(u, "company") ==> h.db.projects == db.projects)
            && (forall r :: r in db.projects && r.userId != u.id ==> r in h.db.projects)
            && (forall r :: r in db.jobs && r.userId != u.id ==> r in h.db.jobs)
  {
    DispatchSeparates(db, TokenRequired(header, decoded, db.users).user, e, svc);
  }

  lemma DispatchSeparates(db: Db, u: User, e: Endpoint, svc: Services)
    requires UniqueIds(db.projects) && UniqueIds(db.jobs)
    ensures var h := Dispatch(db, u, e, svc);
            && (HasRole(u, "talent") ==> h.db.jobs == db.jobs)
            && (HasRole(u, "company") ==> h.db.projects == db.projects)
            && (forall r :: r in db.projects && r.userId != u.id ==> r in h.db.projects)
            && (forall r :: r in db.jobs && r.userId != u.id ==> r in h.db.jobs)
  {
    if RoleFor(e).Some? && !HasRole(u, RoleFor(e).value) {
    } else {
      match e
      case RemoveProject(id) =>
        if FindRow(db.projects, Num(id), u.id).Some? && HasRole(u, "talent") {
          OwnRowOnly(db.projects, id, u.id);
        }
      case RemoveJob(id) =>
        if FindRow(db.jobs, Num(id), u.id).Some? && HasRole(u, "company") {
          OwnRowOnly(db.jobs, id, u.id);
        }
      case SaveScraped(body) =>
        SavedKeepsRows(db, u, body, svc.now);
      case _ =>
    }
  }

  /** Saving scraped jobs only appends to `jobs`. */
  lemma SavedKeepsRows(db: Db, u: User, body: Value, now: string)
    ensures var h := SaveScrapedJobs(db, u, body, now);
            h.db.projects == db.projects && forall r :: r in db.jobs ==> r in h.db.jobs
  {
    var h := SaveScrapedJobs(db, u, body, now);
    if h.db.jobs != db.jobs {
      var saved := SaveAll(body.fields["jobs"].items, db.jobs, u.id, now).value;
      assert h.db.jobs == saved;
      forall r | r in db.jobs ensures r in saved {
        var i :| 0 <= i < |db.jobs| && db.jobs[i] == r;
        assert saved[..|db.jobs|][i] == r;
      }
    }
  }

  /** Rowids are unique within a table. */
  predicate UniqueIds(t: seq<Row>) {
    forall i, j :: 0 <= i < j < |t| ==> t[i].id != t[j].id
  }

  /** With unique ids, the row the handler found is the only one deleted. */
  lemma OwnRowOnly(t: seq<Row>, id: int, userId: int)
    requires FindRow(t, Num(id), userId).Some?
    requires UniqueIds(t)
    ensures forall r :: r in t && r.userId != userId ==> r in DeleteRows(t, id)
  {
    var found := FindRow(t, Num(id), userId).value;
    forall r | r in t && r.userId != userId ensures r in DeleteRows(t, id) {
      var i :| 0 <= i < |t| && t[i] == r;
      var j :| 0 <= j < |t| && t[j] == found;
      assert i != j;
    }
  }
}

=== FILE: FormUrlEncoding.dfy ===
/** The application/x-www-form-urlencoded serialiser that `URLSearchParams`
    applies to query parameters (WHATWG URL Standard, section 5.2), and a
    strict decoder for its output, used to state that the query string a
    request carries can be read back into the parameters it came from. */
module FormUrlEncoding {
  import opened Wrappers
  import Text

  /** Characters the serialiser copies unchanged. */
  predicate Unreserved(c: char) {
    ('a' <= c <= 'z') || ('A' <= c <= 'Z') || ('0' <= c <= '9')
    || c == '*' || c == '-' || c == '.' || c == '_'
  }

  /** Characters that can appear in serialised text. */
  predicate Safe(c: char) {
    Unreserved(c) || c == '+' || c == '%'
  }

  predicate IsByte(b: int) { 0 <= b < 256 }

  /** UTF-8 encoding of one Unicode scalar value. */
  function Utf8(c: char): (bs: seq<int>)
    ensures 1 <= |bs| <= 4
    ensures forall i :: 0 <= i < |bs| ==> IsByte(bs[i])
  {
    var n := c as int;
    if n < 0x80 then [n]
    else if n < 0x800 then [0xC0 + n / 64, 0x80 + n % 64]
    else if n < 0x10000 then [0xE0 + n / 4096, 0x80 + (n / 64) % 64, 0x80 + n % 64]
    else [0xF0 + n / 262144, 0x80 + (n / 4096) % 64, 0x80 + (n / 64) % 64, 0x80 + n % 64]
  }

  /** Upper-case hexadecimal digit. */
  function HexDigit(d: int): (c: char)
    requires 0 <= d < 16
    ensures '0' <= c <= '9' || 'A' <= c <= 'F'
  {
    if d < 10 then (('0' as int) + d) as char else (('A' as int) + d - 10) as char
  }

  function HexValue(c: char): (r: Option<int>)
    ensures r.Some? ==> 0 <= r.value < 16
  {
    if '0' <= c <= '9' then Some(c as int - '0' as int)
    else if 'A' <= c <= 'F' then Some(c as int - 'A' as int + 10)
    else if 'a' <= c <= 'f' then Some(c as int - 'a' as int + 10)
    else None
  }

  function PercentBytes(bs: seq<int>): (e: string)
    requires forall i :: 0 <= i < |bs| ==> IsByte(bs[i])
    ensures |e| == 3 * |bs|
    ensures forall i :: 0 <= i < |e| ==> Safe(e[i])
    decreases |bs|
  {
    if |bs| == 0 then ""
    else
      assert IsByte(bs[0]);
      ['%', HexDigit(bs[0] / 16), HexDigit(bs[0] % 16)] + PercentBytes(bs[1..])
  }

  function EncodeChar(c: char): (e: string)
    ensures forall i :: 0 <= i < |e| ==> Safe(e[i])
  {
    if Unreserved(c) then [c]
    else if c == ' ' then "+"
    else PercentBytes(Utf8(c))
  }

  /** The serialisation of one name or value. */
  function Encode(s: string): (e: string)
    ensures forall i :: 0 <= i < |e| ==> Safe(e[i])
    decreases |s|
  {
    if |s| == 0 then ""
    else
      var head := EncodeChar(s[0]);
      var tail := Encode(s[1..]);
      assert forall i :: 0 <= i < |head + tail| ==> Safe((head + tail)[i]) by {
        forall i | 0 <= i < |head + tail| ensures Safe((head + tail)[i]) {
          if i >= |head| { assert (head + tail)[i] == tail[i - |head|]; }
        }
      }
      head + tail
  }

  /** `new URLSearchParams(params).toString()`: `name=value` pairs in
      entry order, joined by `&`. */
  function Serialize(params: seq<(string, string)>): string {
    Text.Join(Pairs(params), '&')
  }

  function Pairs(params: seq<(string, string)>): (ps: seq<string>)
    ensures |ps| == |params|
    ensures forall i :: 0 <= i < |ps| ==> '&' !in ps[i]
  {
    seq(|params|, i requires 0 <= i < |params| => Pair(params[i]))
  }

  function Pair(p: (string, string)): (e: string)
    ensures '&' !in e && '?' !in e && '#' !in e
    ensures e == Encode(p.0) + "=" + Encode(p.1)
  {
    var e := Encode(p.0) + "=" + Encode(p.1);
    assert forall i :: 0 <= i < |e| ==> Safe(e[i]) || e[i] == '=' by {
      forall i | 0 <= i < |e| ensures Safe(e[i]) || e[i] == '=' {
        if i >= |Encode(p.0)| + 1 { assert e[i] == Encode(p.1)[i - |Encode(p.0)| - 1]; }
      }
    }
    e
  }

  // ---- decoding ----

  /** The byte written as `%XY` at the start of `s`. */
  function ByteAt(s: string): Option<int> {
    if |s| < 3 || s[0] != '%' then None
    else match (HexValue(s[1]), HexValue(s[2]))
      case (Some(h), Some(l)) => Some(16 * h + l)
      case _ => None
  }

  predicate Continuation(b: Option<int>) {
    b.Some? && 0x80 <= b.value < 0xC0
  }

  predicate IsScalar(n: int) {
    (0 <= n < 0xD800) || (0xE000 <= n < 0x110000)
  }

  /** One percent-encoded UTF-8 sequence at the start of `s`: the scalar it
      denotes and the number of characters it spans. Overlong forms,
      surrogates and values past U+10FFFF are refused. */
  function DecodeScalar(s: string): (r: Option<(char, nat)>)
    ensures r.Some? ==> 3 <= r.value.1 <= |s|
  {
    match ByteAt(s)
    case None => None
    case Some(b0) =>
      if b0 < 0x80 then Some((b0 as char, 3))
      else if 0xC0 <= b0 < 0xE0 then
        var b1 := ByteAt(s[3..]);
        if !Continuation(b1) then None
        else
          var n := (b0 - 0xC0) * 64 + (b1.value - 0x80);
          if 0x80 <= n then Some((n as char, 6)) else None
      else if 0xE0 <= b0 < 0xF0 then
        var b1 := ByteAt(s[3..]);
        if !Continuation(b1) || |s| < 6 then None
        else
          var b2 := ByteAt(s[6..]);
          if !Continuation(b2) then None
          else
            var n := (b0 - 0xE0) * 4096 + (b1.value - 0x80) * 64 + (b2.value - 0x80);
            if 0x800 <= n && IsScalar(n) then Some((n as char, 9)) else None
      else if 0xF0 <= b0 < 0xF8 then
        var b1 := ByteAt(s[3..]);
        if !Continuation(b1) || |s| < 6 then None
        else
          var b2 := ByteAt(s[6..]);
          if !Continuation(b2) || |s| < 9 then None
          else
            var b3 := ByteAt(s[9..]);
            if !Continuation(b3) then None
            else
              var n := (b0 - 0xF0) * 262144 + (b1.value - 0x80) * 4096
                       + (b2.value - 0x80) * 64 + (b3.value - 0x80);
              if 0x10000 <= n < 0x110000 then Some((n as char, 12)) else None
      else None
  }

  /** Reads serialised text back: `+` is a space, `%XY…` a UTF-8 encoded
      scalar, unreserved characters stand for themselves; anything else is
      refused. */
  function Decode(e: string): Option<string>
    decreases |e|
  {
    if |e| == 0 then Some("")
    else if e[0] == '+' then Prepend(' ', Decode(e[1..]))
    else if Unreserved(e[0]) then Prepend(e[0], Decode(e[1..]))
    else match DecodeScalar(e)
      case None => None
      case Some((c, k)) => Prepend(c, Decode(e[k..]))
  }

  function Prepend(c: char, r: Option<string>): Option<string> {
    match r
    case None => None
    case Some(s) => Some([c] + s)
  }

  lemma HexRoundTrip(d: int)
    requires 0 <= d < 16
    ensures HexValue(HexDigit(d)) == Some(d)
  {
  }

  lemma ByteRoundTrip(b: int, rest: string)
    requires IsByte(b)
    ensures ByteAt(['%', HexDigit(b / 16), HexDigit(b % 16)] + rest) == Some(b)
  {
    HexRoundTrip(b / 16);
    HexRoundTrip(b % 16);
  }

  /** The UTF-8 arithmetic: the bytes `Utf8` writes put the scalar back together. */
  lemma Utf8Arithmetic(n: int)
    requires 0 <= n
    ensures n == (n / 64) * 64 + n % 64
    ensures n / 64 == (n / 4096) * 64 + (n / 64) % 64
    ensures n / 4096 == (n / 262144) * 64 + (n / 4096) % 64
  {
    assert n / 4096 == (n / 64) / 64;
    assert n / 262144 == (n / 4096) / 64;
  }

  /** The bytes of `Utf8(c)` can be read back one `%XY` triple at a time. */
  lemma EncodedBytes(c: char, rest: string, i: int)
    requires !Unreserved(c) && c != ' '
    requires 0 <= i < |Utf8(c)|
    ensures ByteAt((EncodeChar(c) + rest)[3 * i..]) == Some(Utf8(c)[i])
  {
    var bs := Utf8(c);
    var b := bs[i];
    var p := PercentBytes(bs);
    var t := ['%', HexDigit(b / 16), HexDigit(b % 16)];
    PercentBytesAt(bs, i);
    TripleAt(p, rest, 3 * i, t);
    ByteRoundTrip(b, (p + rest)[3 * i + 3..]);
  }

  /** Splitting off the three characters at `k` of `p + rest`. */
  lemma TripleAt(p: string, rest: string, k: int, t: string)
    requires 0 <= k && k + 3 <= |p| && p[k..k + 3] == t
    ensures (p + rest)[k..] == t + (p + rest)[k + 3..]
  {
    var x := p + rest;
    assert x[k..k + 3] == t;
    assert x[k..] == x[k..k + 3] + x[k + 3..];
  }

  lemma DecodeScalarOfEncoding(c: char, rest: string)
    requires !Unreserved(c) && c != ' '
    ensures DecodeScalar(EncodeChar(c) + rest) == Some((c, |EncodeChar(c)|))
  {
    var n := c as int;
    if n < 0x80 {
      DecodeOneByte(c, rest);
    } else if n < 0x800 {
      DecodeTwoBytes(c, rest);
    } else if n < 0x10000 {
      DecodeThreeBytes(c, rest);
    } else {
      DecodeFourBytes(c, rest);
    }
  }

  lemma DecodeOneByte(c: char, rest: string)
    requires !Unreserved(c) && c != ' ' && c as int < 0x80
    ensures DecodeScalar(EncodeChar(c) + rest) == Some((c, |EncodeChar(c)|))
  {
    var e := EncodeChar(c) + rest;
    EncodedBytes(c, rest, 0);
    assert e[0..] == e;
  }

  lemma DecodeTwoBytes(c: char, rest: string)
    requires !Unreserved(c) && c != ' ' && 0x80 <= c as int < 0x800
    ensures DecodeScalar(EncodeChar(c) + rest) == Some((c, |EncodeChar(c)|))
  {
    var n := c as int;
    var e := EncodeChar(c) + rest;
    var bs := Utf8(c);
    Utf8Arithmetic(n);
    EncodedBytes(c, rest, 0);
    EncodedBytes(c, rest, 1);
    assert e[0..] == e;
    assert bs == [0xC0 + n / 64, 0x80 + n % 64];
    ReadTwoBytes(e, bs[0], bs[1], n);
  }

  lemma DecodeThreeBytes(c: char, rest: string)
    requires !Unreserved(c) && c != ' ' && 0x800 <= c as int < 0x10000
    ensures DecodeScalar(EncodeChar(c) + rest) == Some((c, |EncodeChar(c)|))
  {
    var n := c as int;
    var e := EncodeChar(c) + rest;
    var bs := Utf8(c);
    ThreeByteArithmetic(n);
    EncodedBytes(c, rest, 0);
    EncodedBytes(c, rest, 1);
    EncodedBytes(c, rest, 2);
    assert e[0..] == e;
    assert bs == [0xE0 + n / 4096, 0x80 + (n / 64) % 64, 0x80 + n % 64];
    ReadThreeBytes(e, bs[0], bs[1], bs[2], n);
  }

  lemma DecodeFourBytes(c: char, rest: string)
    requires !Unreserved(c) && c != ' ' && 0x10000 <= c as int
    ensures DecodeScalar(EncodeChar(c) + rest) == Some((c, |EncodeChar(c)|))
  {
    var n := c as int;
    var e := EncodeChar(c) + rest;
    var bs := Utf8(c);
    FourByteArithmetic(n);
    EncodedBytes(c, rest, 0);
    EncodedBytes(c, rest, 1);
    EncodedBytes(c, rest, 2);
    EncodedBytes(c, rest, 3);
    assert e[0..] == e;
    assert bs == [0xF0 + n / 262144, 0x80 + (n / 4096) % 64, 0x80 + (n / 64) % 64, 0x80 + n % 64];
    ReadFourBytes(e, bs[0], bs[1], bs[2], bs[3], n);
  }

  lemma ThreeByteArithmetic(n: int)
    requires 0x800 <= n < 0x10000
    ensures 0xE0 <= 0xE0 + n / 4096 < 0xF0
    ensures n == (n / 4096) * 4096 + ((n / 64) % 64) * 64 + n % 64
  {
    Utf8Arithmetic(n);
  }

  lemma FourByteArithmetic(n: int)
    requires 0x10000 <= n < 0x110000
    ensures 0xF0 <= 0xF0 + n / 262144 < 0xF8
    ensures n == (n / 262144) * 262144 + ((n / 4096) % 64) * 4096 + ((n / 64) % 64) * 64 + n % 64
  {
    Utf8Arithmetic(n);
  }

  /** A well-formed two-byte sequence decodes to the scalar it spells. */
  lemma ReadTwoBytes(s: string, b0: int, b1: int, n: int)
    requires ByteAt(s) == Some(b0) && 0xC0 <= b0 < 0xE0
    requires ByteAt(s[3..]) == Some(b1) && 0x80 <= b1 < 0xC0
    requires n == (b0 - 0xC0) * 64 + (b1 - 0x80) && 0x80 <= n
    ensures DecodeScalar(s) == Some((n as char, 6))
  {
  }

  lemma ReadThreeBytes(s: string, b0: int, b1: int, b2: int, n: int)
    requires ByteAt(s) == Some(b0) && 0xE0 <= b0 < 0xF0
    requires |s| >= 6 && ByteAt(s[3..]) == Some(b1) && 0x80 <= b1 < 0xC0
    requires ByteAt(s[6..]) == Some(b2) && 0x80 <= b2 < 0xC0
    requires n == (b0 - 0xE0) * 4096 + (b1 - 0x80) * 64 + (b2 - 0x80)
    requires 0x800 <= n && IsScalar(n)
    ensures DecodeScalar(s) == Some((n as char, 9))
  {
  }

  lemma ReadFourBytes(s: string, b0: int, b1: int, b2: int, b3: int, n: int)
    requires ByteAt(s) == Some(b0) && 0xF0 <= b0 < 0xF8
    requires |s| >= 9 && ByteAt(s[3..]) == Some(b1) && 0x80 <= b1 < 0xC0
    requires ByteAt(s[6..]) == Some(b2) && 0x80 <= b2 < 0xC0
    requires ByteAt(s[9..]) == Some(b3) && 0x80 <= b3 < 0xC0
    requires n == (b0 - 0xF0) * 262144 + (b1 - 0x80) * 4096 + (b2 - 0x80) * 64 + (b3 - 0x80)
    requires 0x10000 <= n < 0x110000
    ensures DecodeScalar(s) == Some((n as char, 12))
  {
  }

  /** Three characters of `PercentBytes(bs)` per byte. */
  lemma {:induction false} PercentBytesAt(bs: seq<int>, i: int)
    requires forall j :: 0 <= j < |bs| ==> IsByte(bs[j])
    requires 0 <= i < |bs|
    ensures PercentBytes(bs)[3 * i..3 * i + 3] == ['%', HexDigit(bs[i] / 16), HexDigit(bs[i] % 16)]
    decreases |bs|
  {
    if i > 0 {
      PercentBytesAt(bs[1..], i - 1);
      var head := ['%', HexDigit(bs[0] / 16), HexDigit(bs[0] % 16)];
      assert PercentBytes(bs) == head + PercentBytes(bs[1..]);
      assert PercentBytes(bs)[3 * i..3 * i + 3] == PercentBytes(bs[1..])[3 * (i - 1)..3 * (i - 1) + 3];
    }
  }

  /** Decoding one encoded character and the text after it. */
  lemma DecodeChar(c: char, rest: string)
    ensures Decode(EncodeChar(c) + rest) == Prepend(c, Decode(rest))
  {
    var e := EncodeChar(c) + rest;
    if Unreserved(c) || c == ' ' {
      assert e[1..] == rest;
    } else {
      DecodeScalarOfEncoding(c, rest);
      assert e[|EncodeChar(c)|..] == rest;
      assert e[0] == '%';
    }
  }

  /** Round trip: every name or value is read back exactly. */
  lemma {:induction false} DecodeEncode(s: string)
    ensures Decode(Encode(s)) == Some(s)
    decreases |s|
  {
    if |s| > 0 {
      DecodeEncode(s[1..]);
      DecodeChar(s[0], Encode(s[1..]));
      assert [s[0]] + s[1..] == s;
    }
  }

  /** Reads one `name=value` pair back. */
  function DecodePair(p: string): Option<(string, string)> {
    var i := Text.IndexOf(p, '=');
    if i == |p| then None
    else match (Decode(p[..i]), Decode(p[i + 1..]))
      case (Some(k), Some(v)) => Some((k, v))
      case _ => None
  }

  lemma DecodePairOfPair(p: (string, string))
    ensures DecodePair(Pair(p)) == Some(p)
  {
    var e := Pair(p);
    var k := Encode(p.0);
    assert '=' !in k by { assert forall i :: 0 <= i < |k| ==> Safe(k[i]); }
    assert e[..|k|] == k;
    assert e[|k|] == '=';
    assert forall j :: 0 <= j < |k| ==> e[j] != '=' by {
      forall j | 0 <= j < |k| ensures e[j] != '=' { assert e[j] == k[j]; }
    }
    assert Text.IndexOf(e, '=') == |k|;
    assert e[|k| + 1..] == Encode(p.1);
    DecodeEncode(p.0);
    DecodeEncode(p.1);
  }

  /** Reads a whole query string back into its pairs, in order. */
  function DecodeQuery(q: string): Option<seq<(string, string)>> {
    DecodePairs(Text.Split(q, '&'))
  }

  function DecodePairs(ps: seq<string>): Option<seq<(string, string)>>
    decreases |ps|
  {
    if |ps| == 0 then Some([])
    else match (DecodePair(ps[0]), DecodePairs(ps[1..]))
      case (Some(p), Some(rest)) => Some([p] + rest)
      case _ => None
  }

  lemma {:induction false} DecodePairsOfPairs(params: seq<(string, string)>)
    ensures DecodePairs(Pairs(params)) == Some(params)
    decreases |params|
  {
    if |params| > 0 {
      DecodePairsOfPairs(params[1..]);
      DecodePairOfPair(params[0]);
      assert Pairs(params)[1..] == Pairs(params[1..]);
      assert [params[0]] + params[1..] == params;
    }
  }

  /** Round trip for a whole non-empty parameter list. */
  lemma DecodeSerialize(params: seq<(string, string)>)
    requires |params| > 0
    ensures DecodeQuery(Serialize(params)) == Some(params)
  {
    Text.SplitJoin(Pairs(params), '&');
    DecodePairsOfPairs(params);
  }
}

=== FILE: Hooks.dfy ===
/** What the resource hooks share: the shape of one hook operation as a
    state transition, the `(list, loading, error)` state, and the loading /
    error bookkeeping around each call. */
module Hooks {
  import opened Wrappers
  import opened Json
  import opened ApiClient

  datatype Unit = Unit

  /** How the promise an operation returns settles. */
  datatype Completion<T> = Resolved(value: T) | Rejected(reason: Thrown)

  /** One operation: the request it issues (if any), the state while the
      request is in flight, the state once it settled, and its result. */
  datatype Step<S, T> = Step(request: Option<Request>, during: S, after: S, result: Completion<T>)

  /** A list-caching hook's state. */
  datatype CacheState = CacheState(items: seq<Value>, loading: bool, error: Value)

  const InitialCache := CacheState([], false, Null)

  /** `setLoading(true); setError(null)`. */
  function Begin(s: CacheState): (b: CacheState)
    ensures b.items == s.items && b.loading && b.error == Null
  {
    s.(loading := true, error := Null)
  }

  /** `setLoading(false); if (apiError) setError(apiError)`: a falsy error
      leaves the current error (null after `Begin`). */
  function Settle(s: CacheState, apiError: Value): (a: CacheState)
    ensures a.items == s.items && !a.loading
    ensures Truthy(apiError) ==> a.error == apiError
    ensures !Truthy(apiError) ==> a.error == s.error
  {
    s.(loading := false, error := Or(apiError, s.error))
  }

  /** `err instanceof Error ? err.message : fallback`. */
  function CaughtMessage(t: Thrown, fallback: string): (m: Value)
    ensures t.ErrorObject? ==> m == Str(t.message)
    ensures t.OtherThrown? ==> m == Str(fallback)
  {
    match t
    case ErrorObject(message) => Str(message)
    case OtherThrown => Str(fallback)
  }

  /** `{ token }` as the only option. */
  function TokenOptions(token: Value): Options {
    NoOptions.(token := token)
  }

  /** `{ method, body, token }`. */
  function SendOptions(verb: Method, body: Value, token: Value): Options {
    NoOptions.(verb := Some(verb), body := body, token := token)
  }
}

=== FILE: Json.dfy ===
/** The dynamically typed payloads both sides exchange, with the two
    truthiness rules that decide every branch in the modelled code:
    JavaScript's (client) and Python's (backend). */
module Json {
  import Text

  datatype Value =
    | Undefined                      // JavaScript `undefined`: an absent property
    | Null                           // `null` / Python `None`
    | Bool(b: bool)
    | Num(n: int)                    // integral numbers only
    | Str(s: string)
    | Arr(items: seq<Value>)
    | Obj(fields: map<string, Value>)

  /** JavaScript ToBoolean: `undefined`, `null`, `false`, `0` and `""` are
      falsy; every array and object, even an empty one, is truthy. */
  predicate Truthy(v: Value) {
    match v
    case Undefined => false
    case Null => false
    case Bool(b) => b
    case Num(n) => n != 0
    case Str(s) => s != ""
    case Arr(_) => true
    case Obj(_) => true
  }

  /** Python truth value: as JavaScript, except that `[]` and `{}` are falsy. */
  predicate PyTruthy(v: Value) {
    match v
    case Undefined => false
    case Null => false
    case Bool(b) => b
    case Num(n) => n != 0
    case Str(s) => s != ""
    case Arr(items) => |items| > 0
    case Obj(fields) => |fields| > 0
  }

  /** The two languages disagree exactly on empty containers. */
  lemma TruthinessDisagreement(v: Value)
    ensures Truthy(v) != PyTruthy(v) <==> v == Arr([]) || v == Obj(map[])
  {
    match v
    case Obj(fields) =>
      if |fields| == 0 { assert fields == map[]; }
    case _ =>
  }

  /** `v?.key`: the property's value, `undefined` when absent or when `v`
      is not an object. */
  function Get(v: Value, key: string): (r: Value)
    ensures r != Undefined ==> v.Obj? && key in v.fields && r == v.fields[key]
    ensures v.Obj? && key in v.fields ==> r == v.fields[key]
  {
    if v.Obj? && key in v.fields then v.fields[key] else Undefined
  }

  /** `a || b`: the first operand when truthy, else the second. */
  function Or(a: Value, b: Value): (r: Value)
    ensures Truthy(a) ==> r == a
    ensures !Truthy(a) ==> r == b
  {
    if Truthy(a) then a else b
  }

  predicate Nullish(v: Value) {
    v == Null || v == Undefined
  }

  /** `a ?? b`: the first operand unless it is `null` or `undefined`. */
  function Coalesce(a: Value, b: Value): (r: Value)
    ensures !Nullish(a) ==> r == a
    ensures Nullish(a) ==> r == b
  {
    if Nullish(a) then b else a
  }

  /** JavaScript `String(v)`, as used by template literals and by
      `localStorage.setItem`. */
  function ToText(v: Value): string
    decreases v
  {
    match v
    case Undefined => "undefined"
    case Null => "null"
    case Bool(b) => if b then "true" else "false"
    case Num(n) => Text.IntText(n)
    case Str(s) => s
    case Arr(items) =>
      Text.Join(seq(|items|, i requires 0 <= i < |items| =>
                  if Nullish(items[i]) then "" else ToText(items[i])), ',')
    case Obj(_) => "[object Object]"
  }

  /** An object literal built from key/value pairs (later keys win). */
  function Object(entries: seq<(string, Value)>): Value
  {
    Obj(Fields(entries))
  }

  function Fields(entries: seq<(string, Value)>): map<string, Value>
    decreases |entries|
  {
    if |entries| == 0 then map[]
    else Fields(entries[..|entries| - 1])[entries[|entries| - 1].0 := entries[|entries| - 1].1]
  }
}

=== FILE: JsonText.dfy ===
/** JSON text for flat objects (string and non-negative integer members):
    `JSON.stringify` as section 25.5.2 of ECMA-262 writes them, and a strict
    reader for the same grammar (section 7 of RFC 8259 for strings). The
    auth provider stores its demo user this way. */
module JsonText {
  import opened Wrappers
  import opened Json
  import Text
  import Form = FormUrlEncoding

  /** A lower-case hexadecimal digit, as `QuoteJSONString` writes it. */
  function LowerHex(d: int): (c: char)
    requires 0 <= d < 16
    ensures Form.HexValue(c) == Some(d)
  {
    if d < 10 then (('0' as int) + d) as char else (('a' as int) + d - 10) as char
  }

  /** One character inside a quoted string: the quote, the backslash and
      the control characters are escaped, everything else is itself. */
  function EscapeChar(c: char): (e: string)
    ensures |e| >= 1
    ensures e[0] == '\\' || e == [c]
    ensures e == [c] <==> c >= ' ' && c != '"' && c != '\\'
  {
    if c == '"' then "\\\""
    else if c == '\\' then "\\\\"
    else if c as int == 8 then "\\b"
    else if c == '\t' then "\\t"
    else if c == '\n' then "\\n"
    else if c as int == 12 then "\\f"
    else if c == '\r' then "\\r"
    else if c < ' ' then "\\u00" + [LowerHex(c as int / 16), LowerHex(c as int % 16)]
    else [c]
  }

  function Escape(s: string): (e: string)
    ensures |e| >= |s|
    decreases |s|
  {
    if |s| == 0 then "" else EscapeChar(s[0]) + Escape(s[1..])
  }

  /** `QuoteJSONString`. */
  function Quote(s: string): string {
    "\"" + Escape(s) + "\""
  }

  /** The character an escape sequence (after its backslash) stands for,
      and how many characters the sequence takes. */
  function Unescape(u: string): (r: Option<(char, nat)>)
    ensures r.Some? ==> 1 <= r.value.1 <= |u|
  {
    if |u| == 0 then None
    else if u[0] == '"' || u[0] == '\\' || u[0] == '/' then Some((u[0], 1))
    else if u[0] == 'b' then Some((8 as char, 1))
    else if u[0] == 'f' then Some((12 as char, 1))
    else if u[0] == 'n' then Some(('\n', 1))
    else if u[0] == 'r' then Some(('\r', 1))
    else if u[0] == 't' then Some(('\t', 1))
    else if u[0] == 'u' && |u| >= 5 then
      match (Form.HexValue(u[1]), Form.HexValue(u[2]), Form.HexValue(u[3]), Form.HexValue(u[4]))
      case (Some(a), Some(b), Some(c), Some(d)) =>
        var v := ((a * 16 + b) * 16 + c) * 16 + d;
        if 0xD800 <= v < 0xE000 then None else Some((v as char, 5))
      case _ => None
    else None
  }

  /** The contents of a string whose opening quote has been read: the
      decoded text and what follows the closing quote. */
  function ReadString(t: string): (r: Option<(string, string)>)
    ensures r.Some? ==> |r.value.1| < |t|
    decreases |t|
  {
    if |t| == 0 then None
    else if t[0] == '"' then Some(("", t[1..]))
    else if t[0] == '\\' then
      match Unescape(t[1..])
      case None => None
      case Some((c, n)) =>
        match ReadString(t[1 + n..])
        case None => None
        case Some((s, rest)) => Some(([c] + s, rest))
    else if t[0] < ' ' then None
    else
      match ReadString(t[1..])
      case None => None
      case Some((s, rest)) => Some(([t[0]] + s, rest))
  }

  lemma UnescapeEscapeChar(c: char, rest: string)
    requires EscapeChar(c) != [c]
    ensures Unescape(EscapeChar(c)[1..] + rest) == Some((c, |EscapeChar(c)| - 1))
  {
    var e := EscapeChar(c);
    if c < ' ' && c != '\t' && c != '\n' && c != '\r' && c as int != 8 && c as int != 12 {
      var u := e[1..] + rest;
      assert u[0] == 'u' && u[1] == '0' && u[2] == '0';
      assert u[3] == LowerHex(c as int / 16) && u[4] == LowerHex(c as int % 16);
    }
  }

  lemma ReadEscapedChar(c: char, t: string)
    ensures ReadString(EscapeChar(c) + t) ==
              match ReadString(t)
              case None => None
              case Some((s, rest)) => Some(([c] + s, rest))
  {
    var e := EscapeChar(c);
    if e == [c] {
      assert (e + t)[1..] == t;
    } else {
      UnescapeEscapeChar(c, t);
      assert (e + t)[1..] == e[1..] + t;
      assert (e + t)[1 + (|e| - 1)..] == t;
    }
  }

  /** Reading back a quoted string gives the string and the rest. */
  lemma {:induction false} ReadQuoted(s: string, rest: string)
    ensures ReadString(Escape(s) + "\"" + rest) == Some((s, rest))
    decreases |s|
  {
    if |s| == 0 {
      assert Escape(s) + "\"" + rest == "\"" + rest;
      assert ("\"" + rest)[1..] == rest;
    } else {
      ReadQuoted(s[1..], rest);
      assert Escape(s) + "\"" + rest == EscapeChar(s[0]) + (Escape(s[1..]) + "\"" + rest);
      ReadEscapedChar(s[0], Escape(s[1..]) + "\"" + rest);
      assert [s[0]] + s[1..] == s;
    }
  }

  predicate IsDigit(c: char) {
    '0' <= c <= '9'
  }

  /** The number of leading decimal digits. */
  function DigitRun(t: string): (n: nat)
    ensures n <= |t|
    ensures forall i :: 0 <= i < n ==> IsDigit(t[i])
    ensures n < |t| ==> !IsDigit(t[n])
    decreases |t|
  {
    if |t| == 0 || !IsDigit(t[0]) then 0 else 1 + DigitRun(t[1..])
  }

  function DigitsValue(d: string): (n: nat)
    decreases |d|
  {
    if |d| == 0 then 0
    else
      var last := d[|d| - 1] as int - '0' as int;
      DigitsValue(d[..|d| - 1]) * 10 + (if 0 <= last <= 9 then last else 0)
  }

  /** A non-negative integer without leading zeros, and what follows it. */
  function ReadNat(t: string): (r: Option<(nat, string)>)
    ensures r.Some? ==> |r.value.1| < |t|
  {
    var n := DigitRun(t);
    if n == 0 || (t[0] == '0' && n > 1) then None
    else Some((DigitsValue(t[..n]), t[n..]))
  }

  lemma {:induction false} NatTextValue(n: nat)
    ensures DigitsValue(Text.NatText(n)) == n
    ensures n > 0 ==> Text.NatText(n)[0] != '0'
    decreases n
  {
    var d := Text.NatText(n);
    if n >= 10 {
      NatTextValue(n / 10);
      assert d[..|d| - 1] == Text.NatText(n / 10);
      assert d[0] == Text.NatText(n / 10)[0];
    }
  }

  lemma {:induction false} DigitRunOfDigits(d: string, rest: string)
    requires forall i :: 0 <= i < |d| ==> IsDigit(d[i])
    requires rest == [] || !IsDigit(rest[0])
    ensures DigitRun(d + rest) == |d|
    decreases |d|
  {
    if |d| == 0 {
      assert d + rest == rest;
    } else {
      assert (d + rest)[1..] == d[1..] + rest;
      DigitRunOfDigits(d[1..], rest);
    }
  }

  /** Reading back `String(n)` gives `n` and the rest. */
  lemma ReadNatText(n: nat, rest: string)
    requires rest == [] || !IsDigit(rest[0])
    ensures ReadNat(Text.NatText(n) + rest) == Some((n, rest))
  {
    var d := Text.NatText(n);
    DigitRunOfDigits(d, rest);
    NatTextValue(n);
    assert (d + rest)[..|d|] == d;
    assert (d + rest)[|d|..] == rest;
  }

  /** A member value this grammar covers. */
  predicate Scalar(v: Value) {
    v.Str? || (v.Num? && v.n >= 0)
  }

  function ScalarText(v: Value): (t: string)
    requires Scalar(v)
    ensures |t| >= 1 && t[0] != ','
  {
    if v.Str? then Quote(v.s) else Text.NatText(v.n)
  }

  function ReadScalar(t: string): (r: Option<(Value, string)>)
    ensures r.Some? ==> |r.value.1| < |t| && Scalar(r.value.0)
  {
    if |t| == 0 then None
    else if t[0] == '"' then
      match ReadString(t[1..])
      case None => None
      case Some((s, rest)) => Some((Str(s), rest))
    else
      match ReadNat(t)
      case None => None
      case Some((n, rest)) => Some((Num(n), rest))
  }

  predicate Flat(entries: seq<(string, Value)>) {
    forall i :: 0 <= i < |entries| ==> Scalar(entries[i].1)
  }

  function MemberText(m: (string, Value)): string
    requires Scalar(m.1)
  {
    Quote(m.0) + ":" + ScalarText(m.1)
  }

  function MembersText(entries: seq<(string, Value)>): string
    requires Flat(entries)
    decreases |entries|
  {
    if |entries| == 0 then ""
    else if |entries| == 1 then MemberText(entries[0])
    else MemberText(entries[0]) + "," + MembersText(entries[1..])
  }

  /** `JSON.stringify` of an object literal with these members, in order. */
  function Stringify(entries: seq<(string, Value)>): string
    requires Flat(entries)
  {
    "{" + MembersText(entries) + "}"
  }

  /** One `"key":value` member and what follows it. */
  function ReadMember(t: string): (r: Option<((string, Value), string)>)
    ensures r.Some? ==> |r.value.1| < |t| && Scalar(r.value.0.1)
  {
    if |t| == 0 || t[0] != '"' then None
    else
      match ReadString(t[1..])
      case None => None
      case Some((k, r1)) =>
        if |r1| == 0 || r1[0] != ':' then None
        else
          match ReadScalar(r1[1..])
          case None => None
          case Some((v, r2)) => Some(((k, v), r2))
  }

  /** Members up to and including the closing brace, which must end the text. */
  function ReadMembers(t: string): (r: Option<seq<(string, Value)>>)
    ensures r.Some? ==> |r.value| >= 1 && Flat(r.value)
    decreases |t|
  {
    match ReadMember(t)
    case None => None
    case Some((m, rest)) =>
      if rest == "}" then Some([m])
      else if |rest| > 0 && rest[0] == ',' then
        match ReadMembers(rest[1..])
        case None => None
        case Some(ms) => Some([m] + ms)
      else None
  }

  /** `JSON.parse` on the flat-object grammar: the members in text order
      (`Json.Object` makes later duplicates win, as `JSON.parse` does). */
  function Parse(t: string): (r: Option<Value>)
    ensures r.Some? ==> r.value.Obj?
  {
    if |t| < 2 || t[0] != '{' then None
    else if t == "{}" then Some(Object([]))
    else
      match ReadMembers(t[1..])
      case None => None
      case Some(ms) => Some(Object(ms))
  }

  lemma ReadScalarText(v: Value, rest: string)
    requires Scalar(v)
    requires rest == [] || !IsDigit(rest[0])
    ensures ReadScalar(ScalarText(v) + rest) == Some((v, rest))
  {
    if v.Str? {
      var e := Escape(v.s);
      ReadQuoted(v.s, rest);
      assert ScalarText(v) == "\"" + e + "\"";
      QuotedShape(e, rest);
      ReadScalarQuoted(e + "\"" + rest, v.s, rest);
    } else {
      var d := Text.NatText(v.n);
      ReadNatText(v.n, rest);
      assert (d + rest)[0] == d[0];
      ReadScalarNat(d + rest, v.n, rest);
    }
  }

  /** A quoted text followed by `rest`, regrouped as `ReadScalar` consumes it. */
  lemma QuotedShape(e: string, rest: string)
    ensures "\"" + e + "\"" + rest == ['"'] + (e + "\"" + rest)
  {
  }

  /** A scalar opening with a quote is the string read after it. */
  lemma ReadScalarQuoted(x: string, s: string, rest: string)
    requires ReadString(x) == Some((s, rest))
    ensures ReadScalar(['"'] + x) == Some((Str(s), rest))
  {
    Uncons('"', x);
  }

  /** A scalar opening with a digit is the number read from it. */
  lemma ReadScalarNat(t: string, n: nat, rest: string)
    requires |t| > 0 && IsDigit(t[0])
    requires ReadNat(t) == Some((n, rest))
    ensures ReadScalar(t) == Some((Num(n), rest))
  {
  }

  lemma ReadMemberText(m: (string, Value), rest: string)
    requires Scalar(m.1)
    requires rest == [] || !IsDigit(rest[0])
    ensures ReadMember(MemberText(m) + rest) == Some((m, rest))
  {
    var v := ScalarText(m.1);
    var x := Escape(m.0) + "\"" + ([':'] + (v + rest));
    ReadQuoted(m.0, [':'] + (v + rest));
    ReadScalarText(m.1, rest);
    ReadMemberStep(x, m.0, v + rest, m.1, rest);
    MemberShape(Escape(m.0), v, rest);
  }

  /** `"e":v` followed by `rest`, regrouped as `ReadMember` consumes it. */
  lemma MemberShape(e: string, v: string, rest: string)
    ensures "\"" + e + "\"" + ":" + v + rest == ['"'] + (e + "\"" + ([':'] + (v + rest)))
  {
  }

  /** How `ReadMember` reads a quoted key, a colon and a scalar. */
  lemma ReadMemberStep(x: string, k: string, r1: string, v: Value, r2: string)
    requires ReadString(x) == Some((k, [':'] + r1))
    requires ReadScalar(r1) == Some((v, r2))
    ensures ReadMember(['"'] + x) == Some(((k, v), r2))
  {
    Uncons('"', x);
    Uncons(':', r1);
  }

  lemma Uncons(c: char, x: string)
    ensures ([c] + x)[0] == c && ([c] + x)[1..] == x
  {
  }

  lemma {:induction false} ReadMembersText(entries: seq<(string, Value)>)
    requires |entries| >= 1 && Flat(entries)
    ensures ReadMembers(MembersText(entries) + "}") == Some(entries)
    decreases |entries|
  {
    var first := MemberText(entries[0]);
    if |entries| == 1 {
      assert MembersText(entries) + "}" == first + "}";
      ReadMemberText(entries[0], "}");
      ReadMembersLast(first + "}", entries[0]);
      assert entries == [entries[0]];
    } else {
      var more := MembersText(entries[1..]) + "}";
      assert MembersText(entries) == first + "," + MembersText(entries[1..]);
      MembersShape(first, MembersText(entries[1..]));
      ReadMemberText(entries[0], [','] + more);
      ReadMembersText(entries[1..]);
      ReadMembersCons(first + ([','] + more), entries[0], more, entries[1..]);
      assert [entries[0]] + entries[1..] == entries;
    }
  }

  /** Members joined by a comma and closed, regrouped as `ReadMembers` consumes them. */
  lemma MembersShape(first: string, others: string)
    ensures first + "," + others + "}" == first + ([','] + (others + "}"))
  {
  }

  /** A member followed by the closing brace ends the object. */
  lemma ReadMembersLast(t: string, m: (string, Value))
    requires ReadMember(t) == Some((m, "}"))
    ensures ReadMembers(t) == Some([m])
  {
  }

  /** A member followed by a comma continues with the members after it. */
  lemma ReadMembersCons(t: string, m: (string, Value), more: string, ms: seq<(string, Value)>)
    requires ReadMember(t) == Some((m, [','] + more))
    requires ReadMembers(more) == Some(ms)
    ensures ReadMembers(t) == Some([m] + ms)
  {
    Uncons(',', more);
  }

  /** Reading what `Stringify` wrote gives back the same object. */
  lemma ParseStringify(entries: seq<(string, Value)>)
    requires Flat(entries)
    ensures Parse(Stringify(entries)) == Some(Object(entries))
  {
    if |entries| > 0 {
      ReadMembersText(entries);
      assert Stringify(entries) == ['{'] + (MembersText(entries) + "}");
      ParseBrace(MembersText(entries) + "}", entries);
    } else {
      assert Stringify(entries) == "{}";
    }
  }

  /** An opening brace followed by members reads as their object. */
  lemma ParseBrace(u: string, ms: seq<(string, Value)>)
    requires ReadMembers(u) == Some(ms)
    ensures Parse(['{'] + u) == Some(Object(ms))
  {
    Uncons('{', u);
    assert ReadMember(u).Some?;
    assert u[0] == '"';
    assert (['{'] + u)[1] == '"';
  }
}

=== FILE: ListCache.dfy ===
/** The merge rules the resource hooks apply to their cached lists
    (hooks/useJobs.tsx, hooks/useProjects.tsx, hooks/useMatchHistory.tsx):
    replace the whole list, append at the end, replace by id in place, and
    remove by id. Elements are arbitrary values identified by their `id`
    property. */
module ListCache {
  import opened Json

  /** `x.id === id`. */
  predicate HasId(x: Value, id: int) {
    Get(x, "id") == Num(id)
  }

  /** `if (payload) setList(payload)` for a list payload: an array replaces
      the whole list, in server order; anything falsy leaves it. */
  function Refreshed(current: seq<Value>, payload: Value): (r: seq<Value>)
    ensures payload.Arr? ==> r == payload.items
    ensures !payload.Arr? ==> r == current
  {
    if payload.Arr? then payload.items else current
  }

  /** `[...prev, x]` when `x` is truthy, else `prev`. */
  function AppendIfPresent(prev: seq<Value>, x: Value): (r: seq<Value>)
    ensures Truthy(x) ==> |r| == |prev| + 1 && r[..|prev|] == prev && r[|prev|] == x
    ensures !Truthy(x) ==> r == prev
  {
    if Truthy(x) then prev + [x] else prev
  }

  /** `prev.map(e => e.id === id ? x : e)`. */
  function ReplaceById(prev: seq<Value>, id: int, x: Value): (r: seq<Value>)
    ensures |r| == |prev|
    ensures forall i :: 0 <= i < |prev| ==> r[i] == (if HasId(prev[i], id) then x else prev[i])
    decreases |prev|
  {
    if |prev| == 0 then []
    else [if HasId(prev[0], id) then x else prev[0]] + ReplaceById(prev[1..], id, x)
  }

  /** `prev.filter(e => e.id !== id)`. */
  function RemoveById(prev: seq<Value>, id: int): (r: seq<Value>)
    ensures |r| <= |prev|
    ensures forall e :: e in r <==> e in prev && !HasId(e, id)
    decreases |prev|
  {
    if |prev| == 0 then []
    else if HasId(prev[0], id) then RemoveById(prev[1..], id)
    else [prev[0]] + RemoveById(prev[1..], id)
  }

  /** Removal distributes over concatenation, so it keeps the relative
      order of what remains. */
  lemma {:induction false} RemoveByIdConcat(a: seq<Value>, b: seq<Value>, id: int)
    ensures RemoveById(a + b, id) == RemoveById(a, id) + RemoveById(b, id)
    decreases |a|
  {
    if |a| > 0 {
      assert (a + b)[1..] == a[1..] + b;
      RemoveByIdConcat(a[1..], b, id);
    } else {
      assert a + b == b;
    }
  }

  /** A list with no element of that id is left as it is. */
  lemma {:induction false} RemoveAbsent(prev: seq<Value>, id: int)
    requires forall i :: 0 <= i < |prev| ==> !HasId(prev[i], id)
    ensures RemoveById(prev, id) == prev
    decreases |prev|
  {
    if |prev| > 0 {
      RemoveAbsent(prev[1..], id);
    }
  }

  /** Removing twice is removing once. */
  lemma RemoveIdempotent(prev: seq<Value>, id: int)
    ensures RemoveById(RemoveById(prev, id), id) == RemoveById(prev, id)
  {
    var r := RemoveById(prev, id);
    assert forall i :: 0 <= i < |r| ==> !HasId(r[i], id) by {
      forall i | 0 <= i < |r| ensures !HasId(r[i], id) { assert r[i] in r; }
    }
    RemoveAbsent(r, id);
  }

  /** The element an append added under some id is gone after removing
      that id, and the rest is as if it had never been added. */
  lemma RemoveAfterAppend(prev: seq<Value>, x: Value, id: int)
    requires HasId(x, id)
    ensures RemoveById(AppendIfPresent(prev, x), id) == RemoveById(prev, id)
  {
    assert Truthy(x) by { assert Get(x, "id") != Undefined; }
    RemoveByIdConcat(prev, [x], id);
  }

  /** Updating an id no element has is a no-op. */
  lemma ReplaceAbsent(prev: seq<Value>, id: int, x: Value)
    requires forall i :: 0 <= i < |prev| ==> !HasId(prev[i], id)
    ensures ReplaceById(prev, id, x) == prev
  {
  }

  /** Nothing but the elements with that id is touched by an update: after
      removing the id, the updated list and the original agree. */
  lemma {:induction false} ReplaceTouchesOnlyId(prev: seq<Value>, id: int, x: Value)
    requires HasId(x, id)
    ensures RemoveById(ReplaceById(prev, id, x), id) == RemoveById(prev, id)
    decreases |prev|
  {
    if |prev| > 0 {
      ReplaceTouchesOnlyId(prev[1..], id, x);
      var r := ReplaceById(prev, id, x);
      assert r[1..] == ReplaceById(prev[1..], id, x);
    }
  }
}

=== FILE: MatchResult.dfy ===
/** The match-result card list (components/match-result.tsx): one card per
    match, its score coloured by band and each key factor badged as a
    strength or a weakness. */
module MatchResult {
  import opened Wrappers
  import Text

  datatype Band = Green | Yellow | Red

  /** The `scoreColor` ternary. */
  function ScoreBand(score: real): (b: Band)
    ensures b == Green <==> score >= 80.0
    ensures b == Yellow <==> 60.0 <= score < 80.0
    ensures b == Red <==> score < 60.0
  {
    if score >= 80.0 then Green else if score >= 60.0 then Yellow else Red
  }

  function Rank(b: Band): nat {
    match b
    case Red => 0
    case Yellow => 1
    case Green => 2
  }

  /** A higher score never lands in a lower band. */
  lemma BandMonotone(s1: real, s2: real)
    requires s1 <= s2
    ensures Rank(ScoreBand(s1)) <= Rank(ScoreBand(s2))
  {
  }

  datatype Polarity = Plus | Minus

  /** The badge of a key factor: `-` (outline) when the text contains
      "Missing" or "Limited", case-sensitively, `+` otherwise. */
  function FactorPolarity(factor: string): (p: Polarity)
    ensures p == Minus <==> (exists i :: Text.OccursAt(factor, "Missing", i))
                            || (exists i :: Text.OccursAt(factor, "Limited", i))
  {
    if Text.Contains(factor, "Missing") || Text.Contains(factor, "Limited") then Minus else Plus
  }

  /** An occurrence survives any text added around it. */
  lemma OccursWithin(a: string, f: string, b: string, t: string, i: int)
    requires Text.OccursAt(f, t, i)
    ensures Text.OccursAt(a + f + b, t, |a| + i)
  {
    var s := a + f + b;
    assert s[|a|..|a| + |f|] == f;
    assert s[|a| + i..|a| + i + |t|] == s[|a|..|a| + |f|][i..i + |t|];
  }

  /** Adding text around a weakness never turns it into a strength. */
  lemma MinusSurvivesContext(a: string, f: string, b: string)
    requires FactorPolarity(f) == Minus
    ensures FactorPolarity(a + f + b) == Minus
  {
    if exists i :: Text.OccursAt(f, "Missing", i) {
      var i :| Text.OccursAt(f, "Missing", i);
      OccursWithin(a, f, b, "Missing", i);
    } else {
      var i :| Text.OccursAt(f, "Limited", i);
      OccursWithin(a, f, b, "Limited", i);
    }
  }

  /** One entry of `results.matches`; the optional fields are absent for
      the other direction of matching. */
  datatype Match = Match(
    jobTitle: Option<string>, company: Option<string>,
    repositoryName: Option<string>, repositoryUrl: Option<string>,
    score: real, keyFactors: seq<string>)

  datatype Direction = ProjectToJob | JobToProject

  /** What a card shows: title, description, the score and its band, and
      the factors with their badges, in order. */
  datatype Card = Card(title: Option<string>, description: Option<string>, score: real, band: Band,
                       factors: seq<(Polarity, string)>)

  function CardOf(m: Match, d: Direction): (c: Card)
    ensures c.score == m.score && c.band == ScoreBand(m.score)
    ensures d == ProjectToJob ==> c.title == m.jobTitle && c.description == m.company
    ensures d == JobToProject ==> c.title == m.repositoryName && c.description == m.repositoryUrl
    ensures |c.factors| == |m.keyFactors|
    ensures forall i :: 0 <= i < |m.keyFactors| ==> c.factors[i] == (FactorPolarity(m.keyFactors[i]), m.keyFactors[i])
  {
    var factors := seq(|m.keyFactors|, i requires 0 <= i < |m.keyFactors| => (FactorPolarity(m.keyFactors[i]), m.keyFactors[i]));
    if d == ProjectToJob then Card(m.jobTitle, m.company, m.score, ScoreBand(m.score), factors)
    else Card(m.repositoryName, m.repositoryUrl, m.score, ScoreBand(m.score), factors)
  }

  /** `results.matches.map(...)`: one card per match, in input order. */
  method Cards(matches: seq<Match>, d: Direction) returns (cards: seq<Card>)
    ensures |cards| == |matches|
    ensures forall i :: 0 <= i < |matches| ==> cards[i] == CardOf(matches[i], d)
  {
    cards := [];
    var i := 0;
    while i < |matches|
      invariant 0 <= i <= |matches|
      invariant |cards| == i
      invariant forall k :: 0 <= k < i ==> cards[k] == CardOf(matches[k], d)
    {
      cards := cards + [CardOf(matches[i], d)];
      i := i + 1;
    }
  }
}

=== FILE: MatchRoute.dfy ===
/** The server-side match route (app/api/match/route.ts): it dispatches a
    match request on its shape and forwards it to one of two backend
    routes, passing the backend's answer through. */
module MatchRoute {
  import opened Wrappers
  import opened Json
  import UseMatch
  import Text

  const ProjectToJobs := "project-to-jobs"
  const JobToProjects := "job-to-projects"
  const DefaultBase := "http://localhost:5000"

  /** `getFlaskMatcherEndpoint(body)`: `None` is the TypeError thrown when
      `body` is `null` (reading a property of it). */
  function MatcherEndpoint(body: Value): (r: Option<(string, Option<string>)>)
    ensures r.None? <==> Nullish(body)
    ensures r.Some? ==>
      var project := Truthy(Get(body, "githubUrl")) && Truthy(Get(body, "jobDescriptions"));
      var job := Truthy(Get(body, "jobDescription")) && Truthy(Get(body, "githubUrls"));
      && (project ==> r.value == (ProjectToJobs, None))
      && (r.value.0 == JobToProjects <==> !project && job)
      && (r.value.1.Some? <==> !project && !job)
      && (r.value.1.Some? ==> r.value == ("", Some("Invalid request parameters")))
  {
    if Nullish(body) then None
    else if Truthy(Get(body, "githubUrl")) && Truthy(Get(body, "jobDescriptions")) then Some((ProjectToJobs, None))
    else if Truthy(Get(body, "jobDescription")) && Truthy(Get(body, "githubUrls")) then Some((JobToProjects, None))
    else Some(("", Some("Invalid request parameters")))
  }

  /** The request forwarded to the backend. */
  datatype Forward = Forward(url: string, headers: map<string, string>, body: Value)

  /** What the backend fetch gives: a status with its body parsed as JSON
      (`None` when it does not parse), or a network failure. */
  datatype Backend = Replied(status: int, payload: Option<Value>) | Unreachable

  /** The route's reply, and the forwarded request if one was made. */
  datatype Reply = Reply(forwarded: Option<Forward>, status: int, body: Value)

  const InternalError := Obj(map["error" := Str("Internal server error")])

  /** `POST(request)`. `body` is `None` when the request body is not JSON;
      `authorization` is the header, if any; `flaskApiUrl` the environment
      setting. */
  function Post(body: Option<Value>, authorization: Option<string>, flaskApiUrl: Option<string>, backend: Backend)
    : (r: Reply)
    ensures body.None? || (body.Some? && Nullish(body.value)) ==> r == Reply(None, 500, InternalError)
    ensures body.Some? && MatcherEndpoint(body.value).Some? && MatcherEndpoint(body.value).value.1.Some? ==>
              r == Reply(None, 400, Obj(map["error" := Str("Invalid request parameters")]))
    ensures body.Some? && MatcherEndpoint(body.value).Some? && MatcherEndpoint(body.value).value.1.None? ==>
              r.forwarded.Some?
    ensures r.forwarded.Some? ==>
      && body.Some? && MatcherEndpoint(body.value).Some? && MatcherEndpoint(body.value).value.1.None?
      && r.forwarded.value.body == body.value
      && r.forwarded.value.url ==
           (if flaskApiUrl.Some? && flaskApiUrl.value != "" then flaskApiUrl.value else DefaultBase)
           + "/api/match/" + MatcherEndpoint(body.value).value.0
      && "Content-Type" in r.forwarded.value.headers && r.forwarded.value.headers["Content-Type"] == "application/json"
      && ("Authorization" in r.forwarded.value.headers <==> authorization.Some? && authorization.value != "")
      && ("Authorization" in r.forwarded.value.headers ==> r.forwarded.value.headers["Authorization"] == authorization.value)
      && (backend.Replied? && backend.payload.Some? ==> r.status == backend.status && r.body == backend.payload.value)
      && (backend.Unreachable? || backend.payload.None? ==> r.status == 500 && r.body == InternalError)
  {
    if body.None? then Reply(None, 500, InternalError)
    else match MatcherEndpoint(body.value)
      case None => Reply(None, 500, InternalError)
      case Some((endpoint, error)) =>
        if error.Some? then Reply(None, 400, Obj(map["error" := Str(error.value)]))
        else
          var base := if flaskApiUrl.Some? && flaskApiUrl.value != "" then flaskApiUrl.value else DefaultBase;
          var headers := map["Content-Type" := "application/json"]
            + (if authorization.Some? && authorization.value != "" then map["Authorization" := authorization.value] else map[]);
          var fwd := Forward(base + "/api/match/" + endpoint, headers, body.value);
          match backend
          case Replied(status, Some(payload)) => Reply(Some(fwd), status, payload)
          case _ => Reply(Some(fwd), 500, InternalError)
  }

  /** The hook's two request shapes reach the intended backend route: a
      project-to-jobs body always does (an array is truthy even when
      empty), a job-to-projects body does exactly when the description is
      non-empty and otherwise gets a 400. */
  lemma HookShapesRoute(githubUrl: string, jobDescriptions: seq<string>, jobDescription: string, githubUrls: seq<string>)
    requires githubUrl != ""
    ensures MatcherEndpoint(UseMatch.ProjectToJobsBody(githubUrl, jobDescriptions)) == Some((ProjectToJobs, None))
    ensures jobDescription != "" ==>
      MatcherEndpoint(UseMatch.JobToProjectsBody(jobDescription, githubUrls)) == Some((JobToProjects, None))
    ensures jobDescription == "" ==>
      MatcherEndpoint(UseMatch.JobToProjectsBody(jobDescription, githubUrls)).value.1.Some?
  {
  }

  /** End to end: the hook's project-to-jobs body is forwarded, unchanged,
      to the backend's project-to-jobs route, and whatever JSON the backend
      answers comes back with its status. */
  lemma HookRequestPassesThrough(githubUrl: string, jobDescriptions: seq<string>, authorization: Option<string>,
                                 flaskApiUrl: Option<string>, status: int, payload: Value)
    requires githubUrl != ""
    ensures var body := UseMatch.ProjectToJobsBody(githubUrl, jobDescriptions);
      var r := Post(Some(body), authorization, flaskApiUrl, Replied(status, Some(payload)));
      && r.forwarded.Some? && r.forwarded.value.body == body
      && Text.EndsWith(r.forwarded.value.url, "/api/match/" + ProjectToJobs)
      && r.status == status && r.body == payload
  {
    HookShapesRoute(githubUrl, jobDescriptions, "", []);
    ForwardedTo(UseMatch.ProjectToJobsBody(githubUrl, jobDescriptions), ProjectToJobs, authorization, flaskApiUrl, status, payload);
  }

  /** A body routed to `endpoint` is forwarded unchanged to a url ending in
      that backend route, and the backend's JSON answer comes back. */
  lemma ForwardedTo(body: Value, endpoint: string, authorization: Option<string>, flaskApiUrl: Option<string>,
                    status: int, payload: Value)
    requires MatcherEndpoint(body) == Some((endpoint, None))
    ensures var r := Post(Some(body), authorization, flaskApiUrl, Replied(status, Some(payload)));
      && r.forwarded.Some? && r.forwarded.value.body == body
      && Text.EndsWith(r.forwarded.value.url, "/api/match/" + endpoint)
      && r.status == status && r.body == payload
  {
    var base := if flaskApiUrl.Some? && flaskApiUrl.value != "" then flaskApiUrl.value else DefaultBase;
    Text.EndsWithAppend(base, "/api/match/" + endpoint);
    assert base + "/api/match/" + endpoint == base + ("/api/match/" + endpoint);
  }

  /** A body with both shapes goes to project-to-jobs. */
  lemma BothShapesPreferProject(body: Value)
    requires !Nullish(body)
    requires Truthy(Get(body, "githubUrl")) && Truthy(Get(body, "jobDescriptions"))
    requires Truthy(Get(body, "jobDescription")) && Truthy(Get(body, "githubUrls"))
    ensures MatcherEndpoint(body) == Some((ProjectToJobs, None))
  {
  }
}

=== FILE: Text.dfy ===
/** Character-level string helpers shared by the client and the backend:
    splitting on a one-character separator (JavaScript `split` and Python
    `str.split` agree on it), joining, and substring tests. */
module Text {

  /** `s.split(sep)` for a one-character separator: consecutive separators
      give empty parts, and the result is never empty. */
  function Split(s: string, sep: char): (parts: seq<string>)
    ensures |parts| >= 1
    ensures forall i :: 0 <= i < |parts| ==> sep !in parts[i]
    decreases |s|
  {
    if |s| == 0 then [""]
    else
      var rest := Split(s[1..], sep);
      if s[0] == sep then [""] + rest
      else [[s[0]] + rest[0]] + rest[1..]
  }

  /** `parts.join(sep)`. */
  function Join(parts: seq<string>, sep: char): string
    decreases |parts|
  {
    if |parts| == 0 then ""
    else if |parts| == 1 then parts[0]
    else parts[0] + [sep] + Join(parts[1..], sep)
  }

  /** Splitting and joining again gives back the original text. */
  lemma {:induction false} JoinSplit(s: string, sep: char)
    ensures Join(Split(s, sep), sep) == s
    decreases |s|
  {
    if |s| > 0 {
      JoinSplit(s[1..], sep);
      var rest := Split(s[1..], sep);
      if s[0] == sep {
        assert Split(s, sep) == [""] + rest;
        assert s == [sep] + s[1..];
      } else {
        var parts := Split(s, sep);
        assert parts == [[s[0]] + rest[0]] + rest[1..];
        if |rest| == 1 {
          assert s == [s[0]] + rest[0];
        } else {
          assert Join(rest, sep) == rest[0] + [sep] + Join(rest[1..], sep);
          assert parts[1..] == rest[1..];
          assert s == [s[0]] + s[1..];
        }
      }
    }
  }

  /** Joining parts free of the separator and splitting again gives back the parts. */
  lemma {:induction false} SplitJoin(parts: seq<string>, sep: char)
    requires |parts| >= 1
    requires forall i :: 0 <= i < |parts| ==> sep !in parts[i]
    ensures Split(Join(parts, sep), sep) == parts
    decreases |parts|
  {
    if |parts| == 1 {
      SplitFree(parts[0], sep);
    } else {
      SplitJoin(parts[1..], sep);
      SplitAround(parts[0], Join(parts[1..], sep), sep);
      SplitFree(parts[0], sep);
      assert [parts[0]] + parts[1..] == parts;
    }
  }

  /** Text without the separator splits into itself alone. */
  lemma {:induction false} SplitFree(s: string, sep: char)
    requires sep !in s
    ensures Split(s, sep) == [s]
    decreases |s|
  {
    if |s| > 0 {
      SplitFree(s[1..], sep);
      assert [s[0]] + s[1..] == s;
    }
  }

  /** Splitting `a + [sep] + b` splits `a` and `b` independently. */
  lemma {:induction false} SplitAround(a: string, b: string, sep: char)
    ensures Split(a + [sep] + b, sep) == Split(a, sep) + Split(b, sep)
    decreases |a|
  {
    if |a| == 0 {
      assert a + [sep] + b == [sep] + b;
      SplitCons(sep, b, sep);
    } else {
      SplitAround(a[1..], b, sep);
      SplitConsAppend(a[0], a[1..], a[1..] + [sep] + b, sep, Split(b, sep));
      assert a + [sep] + b == [a[0]] + (a[1..] + [sep] + b);
      assert a == [a[0]] + a[1..];
    }
  }

  /** A leading character extends two splits that share a tail alike. */
  lemma SplitConsAppend(c: char, x: string, t: string, sep: char, tail: seq<string>)
    requires Split(t, sep) == Split(x, sep) + tail
    ensures Split([c] + t, sep) == Split([c] + x, sep) + tail
  {
    SplitCons(c, t, sep);
    SplitCons(c, x, sep);
    ConsOntoAppend(c, sep, Split(x, sep), tail, Split(t, sep), Split([c] + t, sep), Split([c] + x, sep));
  }

  /** The sequence step of `SplitConsAppend`, kept apart from `Split`. */
  lemma ConsOntoAppend(c: char, sep: char, parts: seq<string>, tail: seq<string>,
                       whole: seq<string>, consWhole: seq<string>, consParts: seq<string>)
    requires |parts| >= 1 && whole == parts + tail
    requires consWhole == (if c == sep then [""] + whole else [[c] + whole[0]] + whole[1..])
    requires consParts == (if c == sep then [""] + parts else [[c] + parts[0]] + parts[1..])
    ensures consWhole == consParts + tail
  {
    if c != sep {
      calc {
        consWhole;
        [[c] + whole[0]] + whole[1..];
        { assert whole[0] == parts[0]; assert whole[1..] == parts[1..] + tail; }
        [[c] + parts[0]] + (parts[1..] + tail);
        ([[c] + parts[0]] + parts[1..]) + tail;
      }
    }
  }

  /** How one leading character extends a split. */
  lemma SplitCons(c: char, s: string, sep: char)
    ensures Split([c] + s, sep) ==
      if c == sep then [""] + Split(s, sep)
      else [[c] + Split(s, sep)[0]] + Split(s, sep)[1..]
  {
    var x := [c] + s;
    assert x[0] == c && x[1..] == s;
  }

  /** Index of the first occurrence of `c`, or `|s|` when there is none. */
  function IndexOf(s: string, c: char): (i: nat)
    ensures i <= |s|
    ensures forall j :: 0 <= j < i ==> s[j] != c
    ensures i < |s| ==> s[i] == c
    ensures i == |s| <==> c !in s
    decreases |s|
  {
    if |s| == 0 then 0
    else if s[0] == c then 0
    else 1 + IndexOf(s[1..], c)
  }

  /** The first part of a split is the text before the first separator. */
  lemma {:induction false} FirstPartBeforeSeparator(s: string, sep: char)
    ensures Split(s, sep)[0] == s[..IndexOf(s, sep)]
    decreases |s|
  {
    if |s| > 0 && s[0] != sep {
      FirstPartBeforeSeparator(s[1..], sep);
      assert s[..IndexOf(s, sep)] == [s[0]] + s[1..][..IndexOf(s[1..], sep)];
    }
  }

  predicate StartsWith(s: string, prefix: string) {
    |prefix| <= |s| && s[..|prefix|] == prefix
  }

  predicate EndsWith(s: string, suffix: string) {
    |suffix| <= |s| && s[|s| - |suffix|..] == suffix
  }

  lemma EndsWithAppend(a: string, b: string)
    ensures EndsWith(a + b, b)
  {
    assert (a + b)[|a|..] == b;
  }

  /** `t` occurs in `s` at position `i`. */
  predicate OccursAt(s: string, t: string, i: int) {
    0 <= i && i + |t| <= |s| && s[i..i + |t|] == t
  }

  /** JavaScript `s.includes(t)`: a case-sensitive substring test. */
  function Contains(s: string, t: string): (r: bool)
    ensures r <==> exists i :: OccursAt(s, t, i)
    decreases |s|
  {
    if |t| > |s| then false
    else if s[..|t|] == t then
      assert OccursAt(s, t, 0);
      true
    else
      var tail := s[1..];
      var r := Contains(tail, t);
      if r then
        var i :| OccursAt(tail, t, i);
        assert s[i + 1..i + 1 + |t|] == tail[i..i + |t|];
        assert OccursAt(s, t, i + 1);
        true
      else
        assert forall i :: OccursAt(s, t, i) ==> OccursAt(tail, t, i - 1) by {
          forall i | OccursAt(s, t, i)
            ensures OccursAt(tail, t, i - 1)
          {
            assert s[..|t|] == s[0..|t|];
            assert tail[i - 1..i - 1 + |t|] == s[i..i + |t|];
          }
        }
        false
  }

  /** Decimal digits of a natural number, most significant first. */
  function NatText(n: nat): (r: string)
    ensures |r| >= 1
    ensures forall i :: 0 <= i < |r| ==> '0' <= r[i] <= '9'
    decreases n
  {
    var d := (('0' as int) + n % 10) as char;
    if n < 10 then [d] else NatText(n / 10) + [d]
  }

  /** JavaScript `String(n)` for an integral number. */
  function IntText(n: int): string {
    if n < 0 then "-" + NatText(-n) else NatText(n)
  }
}

=== FILE: UseAuth.dfy ===
/** The session hook (hooks/useAuth.tsx): `(user, token, loading, error)`
    plus the persisted `token` slot of local storage. */
module UseAuth {
  import opened Wrappers
  import opened Json
  import opened ApiClient
  import opened Hooks

  /** `localStorage`: string keys to string values. */
  type Storage = map<string, string>

  datatype State = State(user: Value, token: Value, storage: Storage, loading: bool, error: Value)

  /** The token read when the hook is created: the stored `token` (null if
      none), or null when there is no `window`. */
  function Initial(hasWindow: bool, storage: Storage): (s: State)
    ensures s.user == Null && !s.loading && s.error == Null && s.storage == storage
    ensures s.token == (if hasWindow && "token" in storage then Str(storage["token"]) else Null)
  {
    State(Null, if hasWindow && "token" in storage then Str(storage["token"]) else Null, storage, false, Null)
  }

  function Begin(s: State): State {
    s.(loading := true, error := Null)
  }

  /** What `login` and `register` do once their POST is answered. */
  function SessionFrom(during: State, r: ApiResponse): (p: (State, bool)) {
    var s := during.(loading := false);
    if Truthy(r.error) then (s.(error := r.error), false)
    else
      var token := Get(r.data, "token");
      if Truthy(token) then
        (s.(storage := s.storage["token" := ToText(token)], token := token, user := Get(r.data, "user")), true)
      else (s.(error := Str("Invalid server response")), false)
  }

  /** Shared by `login` and `register`: an error keeps token, user and
      storage and returns false; otherwise a truthy `data.token` is stored
      and kept with `data.user` and the result is true; otherwise the error
      becomes "Invalid server response". */
  function Authenticate(s: State, path: string, body: Value, outcome: ApiClient.Outcome): (t: Step<State, bool>)
    ensures t.request == Some(BuildRequest(path, NoOptions.(verb := Some(POST), body := body)))
    ensures t.during == Begin(s)
    ensures outcome.Failed? ==> t.after == t.during && t.result == Rejected(outcome.thrown)
    ensures outcome.Answered? ==>
      var r := Normalise(outcome.response);
      var token := Get(r.data, "token");
      && !t.after.loading
      && (t.result == Resolved(true) <==> !Truthy(r.error) && Truthy(token))
      && (Truthy(r.error) ==> t.after.error == r.error && t.result == Resolved(false))
      && (t.result == Resolved(false) ==>
            t.after.token == s.token && t.after.user == s.user && t.after.storage == s.storage)
      && (!Truthy(r.error) && !Truthy(token) ==> t.after.error == Str("Invalid server response"))
      && (t.result == Resolved(true) ==>
            && t.after.storage == s.storage["token" := ToText(token)]
            && t.after.token == token && t.after.user == Get(r.data, "user")
            && t.after.error == Null)
  {
    var req := BuildRequest(path, NoOptions.(verb := Some(POST), body := body));
    var during := Begin(s);
    match outcome
    case Failed(thrown) => Step(Some(req), during, during, Rejected(thrown))
    case Answered(res) =>
      var p := SessionFrom(during, Normalise(res));
      Step(Some(req), during, p.0, Resolved(p.1))
  }

  /** `login(email, password)`: POST /api/auth/login without a token. */
  function Login(s: State, email: string, password: string, outcome: ApiClient.Outcome): (t: Step<State, bool>)
    ensures t.request.Some? && t.request.value.verb == POST && "Authorization" !in t.request.value.headers
    ensures t.request.value.body == Some(Obj(map["email" := Str(email), "password" := Str(password)]))
    ensures t == Authenticate(s, "/api/auth/login", Obj(map["email" := Str(email), "password" := Str(password)]), outcome)
  {
    Authenticate(s, "/api/auth/login", Obj(map["email" := Str(email), "password" := Str(password)]), outcome)
  }

  /** `register(username, email, password, role)`: POST /api/auth/register. */
  function Register(s: State, username: string, email: string, password: string, role: string,
                    outcome: ApiClient.Outcome): (t: Step<State, bool>)
    ensures t.request.Some? && t.request.value.verb == POST && "Authorization" !in t.request.value.headers
    ensures t.request.value.body == Some(Obj(map["username" := Str(username), "email" := Str(email),
                                                 "password" := Str(password), "role" := Str(role)]))
    ensures t == Authenticate(s, "/api/auth/register",
                              Obj(map["username" := Str(username), "email" := Str(email),
                                      "password" := Str(password), "role" := Str(role)]), outcome)
  {
    Authenticate(s, "/api/auth/register",
                 Obj(map["username" := Str(username), "email" := Str(email),
                         "password" := Str(password), "role" := Str(role)]), outcome)
  }

  /** `getMe()`: with a falsy token, nothing happens at all; otherwise GET
      /api/auth/me with the token; an error keeps the user, anything else
      sets `user := data`. */
  function GetMe(s: State, outcome: ApiClient.Outcome): (t: Step<State, Unit>)
    ensures !Truthy(s.token) ==> t == Step(None, s, s, Resolved(Unit))
    ensures Truthy(s.token) ==>
      && t.request == Some(BuildRequest("/api/auth/me", TokenOptions(s.token)))
      && t.during == Begin(s)
    ensures Truthy(s.token) && outcome.Failed? ==> t.after == t.during && t.result.Rejected?
    ensures Truthy(s.token) && outcome.Answered? ==>
      var r := Normalise(outcome.response);
      && !t.after.loading && t.after.token == s.token && t.after.storage == s.storage
      && (Truthy(r.error) ==> t.after.error == r.error && t.after.user == s.user)
      && (!Truthy(r.error) ==> t.after.error == Null && t.after.user == r.data)
  {
    if !Truthy(s.token) then Step(None, s, s, Resolved(Unit))
    else
      var req := BuildRequest("/api/auth/me", TokenOptions(s.token));
      var during := Begin(s);
      match outcome
      case Failed(thrown) => Step(Some(req), during, during, Rejected(thrown))
      case Answered(res) =>
        var r := Normalise(res);
        var settled := during.(loading := false);
        var after := if Truthy(r.error) then settled.(error := r.error) else settled.(user := r.data);
        Step(Some(req), during, after, Resolved(Unit))
  }

  /** `logout()`: the stored token is removed and user and token become null. */
  function Logout(s: State): (a: State)
    ensures "token" !in a.storage
    ensures forall k :: k != "token" ==> (k in a.storage <==> k in s.storage)
    ensures forall k :: k in a.storage ==> a.storage[k] == s.storage[k]
    ensures a.user == Null && a.token == Null
    ensures a.loading == s.loading && a.error == s.error
  {
    s.(storage := s.storage - {"token"}, user := Null, token := Null)
  }

  /** A successful login followed by a reload restores the same token. */
  lemma LoginSurvivesReload(s: State, email: string, password: string, res: Response, token: string)
    requires Normalise(res).error == Undefined
    requires Get(Normalise(res).data, "token") == Str(token) && token != ""
    ensures var after := Login(s, email, password, Answered(res)).after;
      Initial(true, after.storage).token == after.token
  {
  }
}

=== FILE: UseJobs.dfy ===
/** The jobs hook (hooks/useJobs.tsx): a `(jobs, loading, error)` cache
    driven by the responses to its five operations. */
module UseJobs {
  import opened Wrappers
  import opened Json
  import Text
  import opened ApiClient
  import opened ListCache
  import opened Hooks

  function JobPath(jobId: int): string {
    "/api/jobs/" + Text.IntText(jobId)
  }

  /** The list update `fetchJobs` applies once its response arrives, to
      whatever the state is by then. */
  function SettleFetch(s: CacheState, outcome: Outcome): (a: CacheState)
    ensures outcome.Failed? ==> a == s
    ensures outcome.Answered? ==>
      var r := Normalise(outcome.response);
      var jobs := Get(r.data, "jobs");
      && !a.loading
      && (Truthy(r.error) ==> a.error == r.error)
      && (!Truthy(r.error) ==> a.error == s.error)
      && (jobs.Arr? ==> a.items == jobs.items)
      && (!jobs.Arr? ==> a.items == s.items)
  {
    match outcome
    case Failed(_) => s
    case Answered(res) =>
      var r := Normalise(res);
      Settle(s, r.error).(items := Refreshed(s.items, Get(r.data, "jobs")))
  }

  /** `fetchJobs()`: GET /api/jobs; the list is replaced by `data.jobs`
      whenever that is a list, whether or not an error was reported. A
      rejected fetch leaves the hook loading. */
  function FetchJobs(s: CacheState, token: Value, outcome: Outcome): (t: Step<CacheState, Unit>)
    ensures t.request == Some(BuildRequest("/api/jobs", TokenOptions(token)))
    ensures t.request.value.verb == GET
    ensures t.during == Begin(s)
    ensures outcome.Failed? ==> t.after == t.during && t.result == Rejected(outcome.thrown)
    ensures outcome.Answered? ==>
      var r := Normalise(outcome.response);
      var jobs := Get(r.data, "jobs");
      && t.result == Resolved(Unit)
      && !t.after.loading
      && (Truthy(r.error) ==> t.after.error == r.error)
      && (!Truthy(r.error) ==> t.after.error == Null)
      && (jobs.Arr? ==> t.after.items == jobs.items)
      && (!jobs.Arr? ==> t.after.items == s.items)
  {
    var req := BuildRequest("/api/jobs", TokenOptions(token));
    var during := Begin(s);
    Step(Some(req), during, SettleFetch(during, outcome),
         if outcome.Failed? then Rejected(outcome.thrown) else Resolved(Unit))
  }

  /** Two overlapping fetches: whichever response settles last decides the
      list, and the hook ends not loading. */
  lemma LastSettledFetchWins(s: CacheState, first: Response, second: Response)
    requires Get(Normalise(first).data, "jobs").Arr?
    ensures var started := Begin(Begin(s));
      var final := SettleFetch(SettleFetch(started, Answered(second)), Answered(first));
      && final.items == Get(Normalise(first).data, "jobs").items
      && !final.loading
  {
  }

  /** `getJob(jobId)`: GET /api/jobs/:id, returning `data?.job`; the list is
      never touched. */
  function GetJob(s: CacheState, token: Value, jobId: int, outcome: Outcome): (t: Step<CacheState, Value>)
    ensures t.request == Some(BuildRequest(JobPath(jobId), TokenOptions(token)))
    ensures t.during == Begin(s)
    ensures t.after.items == s.items
    ensures outcome.Failed? ==> t.after == t.during && t.result == Rejected(outcome.thrown)
    ensures outcome.Answered? ==>
      var r := Normalise(outcome.response);
      && t.after == Settle(t.during, r.error)
      && t.result == Resolved(Get(r.data, "job"))
  {
    var req := BuildRequest(JobPath(jobId), TokenOptions(token));
    var during := Begin(s);
    match outcome
    case Failed(thrown) => Step(Some(req), during, during, Rejected(thrown))
    case Answered(res) =>
      var r := Normalise(res);
      Step(Some(req), during, Settle(during, r.error), Resolved(Get(r.data, "job")))
  }

  function SettleAdd(s: CacheState, outcome: Outcome): (a: CacheState) {
    match outcome
    case Failed(_) => s
    case Answered(res) =>
      var r := Normalise(res);
      Settle(s, r.error).(items := AppendIfPresent(s.items, Get(r.data, "job")))
  }

  /** `addJob(input)`: POST /api/jobs with the input as body; a returned
      `data.job` is appended after the unchanged prefix, otherwise nothing
      is added. */
  function AddJob(s: CacheState, token: Value, input: Value, outcome: Outcome): (t: Step<CacheState, Value>)
    ensures t.request == Some(BuildRequest("/api/jobs", SendOptions(POST, input, token)))
    ensures t.during == Begin(s)
    ensures outcome.Failed? ==> t.after == t.during && t.result == Rejected(outcome.thrown)
    ensures outcome.Answered? ==>
      var r := Normalise(outcome.response);
      var job := Get(r.data, "job");
      && t.result == Resolved(job)
      && !t.after.loading
      && (Truthy(job) ==> |t.after.items| == |s.items| + 1 && t.after.items[..|s.items|] == s.items
                          && t.after.items[|s.items|] == job)
      && (!Truthy(job) ==> t.after.items == s.items)
      && (Truthy(r.error) ==> t.after.error == r.error)
      && (!Truthy(r.error) ==> t.after.error == Null)
  {
    var req := BuildRequest("/api/jobs", SendOptions(POST, input, token));
    var during := Begin(s);
    var after := SettleAdd(during, outcome);
    match outcome
    case Failed(thrown) => Step(Some(req), during, after, Rejected(thrown))
    case Answered(res) => Step(Some(req), during, after, Resolved(Get(Normalise(res).data, "job")))
  }

  function SettleUpdate(s: CacheState, jobId: int, outcome: Outcome): CacheState {
    match outcome
    case Failed(_) => s
    case Answered(res) =>
      var r := Normalise(res);
      var job := Get(r.data, "job");
      Settle(s, r.error).(items := if Truthy(job) then ReplaceById(s.items, jobId, job) else s.items)
  }

  /** `updateJob(jobId, input)`: PUT /api/jobs/:id; every cached job with
      that id becomes `data.job`, in place; length and all other elements
      are kept. */
  function UpdateJob(s: CacheState, token: Value, jobId: int, input: Value, outcome: Outcome)
    : (t: Step<CacheState, Value>)
    ensures t.request == Some(BuildRequest(JobPath(jobId), SendOptions(PUT, input, token)))
    ensures t.during == Begin(s)
    ensures |t.after.items| == |s.items|
    ensures outcome.Failed? ==> t.after == t.during && t.result == Rejected(outcome.thrown)
    ensures outcome.Answered? ==>
      var r := Normalise(outcome.response);
      var job := Get(r.data, "job");
      && t.result == Resolved(job)
      && !t.after.loading
      && (Truthy(r.error) ==> t.after.error == r.error)
      && (!Truthy(r.error) ==> t.after.error == Null)
      && (forall i :: 0 <= i < |s.items| ==>
            t.after.items[i] == (if Truthy(job) && HasId(s.items[i], jobId) then job else s.items[i]))
  {
    var req := BuildRequest(JobPath(jobId), SendOptions(PUT, input, token));
    var during := Begin(s);
    var after := SettleUpdate(during, jobId, outcome);
    match outcome
    case Failed(thrown) => Step(Some(req), during, after, Rejected(thrown))
    case Answered(res) => Step(Some(req), during, after, Resolved(Get(Normalise(res).data, "job")))
  }

  function SettleDelete(s: CacheState, jobId: int, outcome: Outcome): CacheState {
    match outcome
    case Failed(_) => s
    case Answered(res) =>
      Settle(s, Normalise(res).error).(items := RemoveById(s.items, jobId))
  }

  /** `deleteJob(jobId)`: DELETE /api/jobs/:id; once answered, every cached
      job with that id is gone, even when the call reported an error. */
  function DeleteJob(s: CacheState, token: Value, jobId: int, outcome: Outcome): (t: Step<CacheState, Unit>)
    ensures t.request == Some(BuildRequest(JobPath(jobId), NoOptions.(verb := Some(DELETE), token := token)))
    ensures t.during == Begin(s)
    ensures outcome.Failed? ==> t.after == t.during && t.result == Rejected(outcome.thrown)
    ensures outcome.Answered? ==>
      var r := Normalise(outcome.response);
      && t.result == Resolved(Unit)
      && !t.after.loading
      && (Truthy(r.error) ==> t.after.error == r.error)
      && (!Truthy(r.error) ==> t.after.error == Null)
      && t.after.items == RemoveById(s.items, jobId)
      && (forall e :: e in t.after.items <==> e in s.items && !HasId(e, jobId))
  {
    var req := BuildRequest(JobPath(jobId), NoOptions.(verb := Some(DELETE), token := token));
    var during := Begin(s);
    Step(Some(req), during, SettleDelete(during, jobId, outcome),
         if outcome.Failed? then Rejected(outcome.thrown) else Resolved(Unit))
  }

  /** Adding a job the server returns with id 7, then deleting 7 (whatever
      the delete's response), leaves the cache as before the add, minus
      any other job 7. */
  lemma AddThenDelete(s: CacheState, token: Value, input: Value, added: Response, deleted: Response, id: int)
    requires HasId(Get(Normalise(added).data, "job"), id)
    ensures var afterAdd := AddJob(s, token, input, Answered(added)).after;
      var afterDelete := DeleteJob(afterAdd, token, id, Answered(deleted)).after;
      && afterDelete.items == RemoveById(s.items, id)
      && forall e :: e in afterDelete.items ==> !HasId(e, id)
  {
    var job := Get(Normalise(added).data, "job");
    RemoveAfterAppend(s.items, job, id);
  }
}

=== FILE: UseMatch.dfy ===
/** The match hook (hooks/useMatch.tsx): no cache, only `loading` and
    `error`; both operations POST one of the two request shapes to
    /api/match and hand the response data back unchanged. */
module UseMatch {
  import opened Wrappers
  import opened Json
  import opened ApiClient
  import opened Hooks

  datatype State = State(loading: bool, error: Value)

  const Initial := State(false, Null)

  /** A `string[]` as a JSON array: element `i` is the `i`-th string. */
  function Strings(xs: seq<string>): (v: Value)
    ensures v.Arr? && |v.items| == |xs|
    ensures forall i :: 0 <= i < |xs| ==> v.items[i] == Str(xs[i])
  {
    Arr(seq(|xs|, i requires 0 <= i < |xs| => Str(xs[i])))
  }

  /** `{githubUrl, jobDescriptions}`. */
  function ProjectToJobsBody(githubUrl: string, jobDescriptions: seq<string>): Value {
    Obj(map["githubUrl" := Str(githubUrl), "jobDescriptions" := Strings(jobDescriptions)])
  }

  /** `{jobDescription, githubUrls}`. */
  function JobToProjectsBody(jobDescription: string, githubUrls: seq<string>): Value {
    Obj(map["jobDescription" := Str(jobDescription), "githubUrls" := Strings(githubUrls)])
  }

  /** One match call: afterwards `error = apiError ?? null`, so an empty
      error string is kept as `""`; the data is returned whatever the
      error. A rejected fetch leaves the hook loading. */
  function Match(s: State, body: Value, token: Value, outcome: ApiClient.Outcome): (t: Step<State, Value>)
    ensures t.request == Some(BuildRequest("/api/match", SendOptions(POST, body, token)))
    ensures t.during == State(true, Null)
    ensures outcome.Failed? ==> t.after == t.during && t.result == Rejected(outcome.thrown)
    ensures outcome.Answered? ==>
      var r := Normalise(outcome.response);
      && !t.after.loading
      && t.result == Resolved(r.data)
      && (Nullish(r.error) ==> t.after.error == Null)
      && (!Nullish(r.error) ==> t.after.error == r.error)
  {
    var req := BuildRequest("/api/match", SendOptions(POST, body, token));
    var during := State(true, Null);
    match outcome
    case Failed(thrown) => Step(Some(req), during, during, Rejected(thrown))
    case Answered(res) =>
      var r := Normalise(res);
      Step(Some(req), during, State(false, Coalesce(r.error, Null)), Resolved(r.data))
  }

  /** `matchProjectToJobs(githubUrl, jobDescriptions)`. */
  function MatchProjectToJobs(s: State, token: Value, githubUrl: string, jobDescriptions: seq<string>,
                              outcome: ApiClient.Outcome): (t: Step<State, Value>)
    ensures t.request.Some? && t.request.value.url == "/api/match" && t.request.value.verb == POST
    ensures t.request.value.body == Some(ProjectToJobsBody(githubUrl, jobDescriptions))
    ensures t == Match(s, ProjectToJobsBody(githubUrl, jobDescriptions), token, outcome)
  {
    Match(s, ProjectToJobsBody(githubUrl, jobDescriptions), token, outcome)
  }

  /** `matchJobToProjects(jobDescription, githubUrls)`. */
  function MatchJobToProjects(s: State, token: Value, jobDescription: string, githubUrls: seq<string>,
                              outcome: ApiClient.Outcome): (t: Step<State, Value>)
    ensures t.request.Some? && t.request.value.url == "/api/match" && t.request.value.verb == POST
    ensures t.request.value.body == Some(JobToProjectsBody(jobDescription, githubUrls))
    ensures t == Match(s, JobToProjectsBody(jobDescription, githubUrls), token, outcome)
  {
    Match(s, JobToProjectsBody(jobDescription, githubUrls), token, outcome)
  }

  /** The `??` of the hook differs from the `||`/`if` of the other hooks: a
      failed answer whose error is the empty reason text stores `""`. */
  lemma EmptyErrorKept(s: State, body: Value, token: Value)
    ensures Match(s, body, token, Answered(Response(502, "", None))).after.error == Str("")
  {
  }
}

=== FILE: UseMatchHistory.dfy ===
/** The match-history hook (hooks/useMatchHistory.tsx): a `(matches,
    loading, error)` cache refreshed wholesale, only when a token is held. */
module UseMatchHistory {
  import opened Wrappers
  import opened Json
  import opened ApiClient
  import opened ListCache
  import opened Hooks

  const FetchFailed := "Failed to fetch match history"

  /** `fetchMatches()`: a falsy token returns at once with no state change;
      otherwise an error keeps the list, a list under `data.matches`
      replaces it, a rejection sets the caught message, and every path
      ends not loading. */
  function FetchMatches(s: CacheState, token: Value, outcome: ApiClient.Outcome): (t: Step<CacheState, Unit>)
    ensures t.result == Resolved(Unit)
    ensures !Truthy(token) ==> t.request.None? && t.during == s && t.after == s
    ensures Truthy(token) ==>
      && t.request == Some(BuildRequest("/api/matches", TokenOptions(token)))
      && t.during == Begin(s)
      && !t.after.loading
    ensures Truthy(token) && outcome.Failed? ==>
      t.after.items == s.items && t.after.error == CaughtMessage(outcome.thrown, FetchFailed)
    ensures Truthy(token) && outcome.Answered? ==>
      var r := Normalise(outcome.response);
      var matches := Get(r.data, "matches");
      && (Truthy(r.error) ==> t.after.error == r.error && t.after.items == s.items)
      && (!Truthy(r.error) ==> t.after.error == Null)
      && (!Truthy(r.error) && matches.Arr? ==> t.after.items == matches.items)
      && (!Truthy(r.error) && !matches.Arr? ==> t.after.items == s.items)
  {
    if !Truthy(token) then Step(None, s, s, Resolved(Unit))
    else
      var req := BuildRequest("/api/matches", TokenOptions(token));
      var during := Begin(s);
      var settled := during.(loading := false);
      match outcome
      case Failed(thrown) => Step(Some(req), during, settled.(error := CaughtMessage(thrown, FetchFailed)), Resolved(Unit))
      case Answered(res) =>
        var r := Normalise(res);
        var after := if Truthy(r.error) then settled.(error := r.error)
                     else settled.(items := Refreshed(settled.items, Get(r.data, "matches")));
        Step(Some(req), during, after, Resolved(Unit))
  }

  /** Unlike the jobs hook, a reported error never replaces the list, even
      when the error body carries one. */
  lemma ErrorNeverReplaces(s: CacheState, token: Value, res: Response)
    requires Truthy(token) && Truthy(Normalise(res).error)
    ensures FetchMatches(s, token, Answered(res)).after.items == s.items
  {
  }
}

=== FILE: UseProjects.dfy ===
/** The projects hook (hooks/useProjects.tsx): a `(projects, loading,
    error)` cache whose mutating operations report `{success, project}`. */
module UseProjects {
  import opened Wrappers
  import opened Json
  import Text
  import opened ApiClient
  import opened ListCache
  import opened Hooks

  const ProjectsPath := "/api/talent/projects"

  function ProjectPath(projectId: int): string {
    ProjectsPath + "/" + Text.IntText(projectId)
  }

  /** `{ success: !apiError, project: data?.project }`. */
  datatype Outcome = Outcome(success: bool, project: Value)

  function SettleFetch(s: CacheState, outcome: ApiClient.Outcome): CacheState {
    match outcome
    case Failed(_) => s
    case Answered(res) =>
      var r := Normalise(res);
      Settle(s, r.error).(items := Refreshed(s.items, Get(r.data, "projects")))
  }

  /** `fetchProjects()`: the list becomes `data.projects` when that is a
      list, else stays; the error is set exactly when the call reports a
      truthy one. */
  function FetchProjects(s: CacheState, token: Value, outcome: ApiClient.Outcome): (t: Step<CacheState, Unit>)
    ensures t.request == Some(BuildRequest(ProjectsPath, TokenOptions(token)))
    ensures t.during == Begin(s)
    ensures outcome.Failed? ==> t.after == t.during && t.result == Rejected(outcome.thrown)
    ensures outcome.Answered? ==>
      var r := Normalise(outcome.response);
      var projects := Get(r.data, "projects");
      && !t.after.loading
      && (Truthy(r.error) ==> t.after.error == r.error)
      && (!Truthy(r.error) ==> t.after.error == Null)
      && t.after.items == (if projects.Arr? then projects.items else s.items)
  {
    var during := Begin(s);
    Step(Some(BuildRequest(ProjectsPath, TokenOptions(token))), during, SettleFetch(during, outcome),
         if outcome.Failed? then Rejected(outcome.thrown) else Resolved(Unit))
  }

  /** The result the mutating operations return. */
  function Report(r: ApiResponse): (o: Outcome)
    ensures o.success <==> !Truthy(r.error)
    ensures o.project == Get(r.data, "project")
  {
    Outcome(!Truthy(r.error), Get(r.data, "project"))
  }

  /** `addProject(data)`: POST; a returned `data.project` is appended at
      the end; `success` is `!apiError`, so it can be true with no project. */
  function AddProject(s: CacheState, token: Value, input: Value, outcome: ApiClient.Outcome)
    : (t: Step<CacheState, Outcome>)
    ensures t.request == Some(BuildRequest(ProjectsPath, SendOptions(POST, input, token)))
    ensures t.during == Begin(s)
    ensures outcome.Failed? ==> t.after == t.during && t.result == Rejected(outcome.thrown)
    ensures outcome.Answered? ==>
      var r := Normalise(outcome.response);
      var project := Get(r.data, "project");
      && t.result == Resolved(Outcome(!Truthy(r.error), project))
      && !t.after.loading
      && (Truthy(r.error) ==> t.after.error == r.error)
      && (!Truthy(r.error) ==> t.after.error == Null)
      && (Truthy(project) ==> t.after.items == s.items + [project])
      && (!Truthy(project) ==> t.after.items == s.items)
  {
    var during := Begin(s);
    var req := BuildRequest(ProjectsPath, SendOptions(POST, input, token));
    match outcome
    case Failed(thrown) => Step(Some(req), during, during, Rejected(thrown))
    case Answered(res) =>
      var r := Normalise(res);
      var after := Settle(during, r.error).(items := AppendIfPresent(during.items, Get(r.data, "project")));
      Step(Some(req), during, after, Resolved(Report(r)))
  }

  /** A successful add need not return a project: a 2xx answer without a
      `project` field reports success and leaves the list alone. */
  lemma SuccessWithoutProject(s: CacheState, token: Value, input: Value)
    ensures var t := AddProject(s, token, input, Answered(Response(201, "Created", Some(Obj(map[])))));
      && t.result == Resolved(Outcome(true, Undefined))
      && t.after.items == s.items
  {
  }

  /** `updateProject(id, updates)`: PATCH, a method outside the
      `ApiMethod` union; cached projects with that id become
      `data.project` in place, length and other elements kept. */
  function UpdateProject(s: CacheState, token: Value, projectId: int, updates: Value, outcome: ApiClient.Outcome)
    : (t: Step<CacheState, Outcome>)
    ensures t.request == Some(BuildRequest(ProjectPath(projectId), SendOptions(PATCH, updates, token)))
    ensures !InApiMethodUnion(t.request.value.verb)
    ensures t.during == Begin(s)
    ensures |t.after.items| == |s.items|
    ensures outcome.Failed? ==> t.after == t.during && t.result == Rejected(outcome.thrown)
    ensures outcome.Answered? ==>
      var r := Normalise(outcome.response);
      var project := Get(r.data, "project");
      && t.result == Resolved(Outcome(!Truthy(r.error), project))
      && !t.after.loading
      && (Truthy(r.error) ==> t.after.error == r.error)
      && (!Truthy(r.error) ==> t.after.error == Null)
      && (forall i :: 0 <= i < |s.items| ==>
            t.after.items[i] == (if Truthy(project) && HasId(s.items[i], projectId) then project else s.items[i]))
  {
    var during := Begin(s);
    var req := BuildRequest(ProjectPath(projectId), SendOptions(PATCH, updates, token));
    match outcome
    case Failed(thrown) => Step(Some(req), during, during, Rejected(thrown))
    case Answered(res) =>
      var r := Normalise(res);
      var project := Get(r.data, "project");
      var items := if Truthy(project) then ReplaceById(during.items, projectId, project) else during.items;
      Step(Some(req), during, Settle(during, r.error).(items := items), Resolved(Report(r)))
  }

  /** `deleteProject(id)`: DELETE; the id is filtered out of the cache
      unconditionally and `success` is `!apiError`. */
  function DeleteProject(s: CacheState, token: Value, projectId: int, outcome: ApiClient.Outcome)
    : (t: Step<CacheState, bool>)
    ensures t.request == Some(BuildRequest(ProjectPath(projectId), NoOptions.(verb := Some(DELETE), token := token)))
    ensures t.during == Begin(s)
    ensures outcome.Failed? ==> t.after == t.during && t.result == Rejected(outcome.thrown)
    ensures outcome.Answered? ==>
      var r := Normalise(outcome.response);
      && t.result == Resolved(!Truthy(r.error))
      && !t.after.loading
      && (Truthy(r.error) ==> t.after.error == r.error)
      && (!Truthy(r.error) ==> t.after.error == Null)
      && t.after.items == RemoveById(s.items, projectId)
      && (forall e :: e in t.after.items <==> e in s.items && !HasId(e, projectId))
  {
    var during := Begin(s);
    var req := BuildRequest(ProjectPath(projectId), NoOptions.(verb := Some(DELETE), token := token));
    match outcome
    case Failed(thrown) => Step(Some(req), during, during, Rejected(thrown))
    case Answered(res) =>
      var r := Normalise(res);
      Step(Some(req), during, Settle(during, r.error).(items := RemoveById(during.items, projectId)),
           Resolved(!Truthy(r.error)))
  }

  /** Adding a project the server returns with some id, then deleting that
      id (whatever the delete's response), leaves the cache as before the
      add, minus any other project with that id; an update in between
      changes nothing of that outcome. */
  lemma AddUpdateDelete(s: CacheState, token: Value, input: Value, updates: Value,
                        added: Response, updated: Response, deleted: Response, id: int)
    requires HasId(Get(Normalise(added).data, "project"), id)
    requires HasId(Get(Normalise(updated).data, "project"), id)
    ensures var afterAdd := AddProject(s, token, input, Answered(added)).after;
      var afterUpdate := UpdateProject(afterAdd, token, id, updates, Answered(updated)).after;
      && DeleteProject(afterAdd, token, id, Answered(deleted)).after.items == RemoveById(s.items, id)
      && DeleteProject(afterUpdate, token, id, Answered(deleted)).after.items == RemoveById(s.items, id)
  {
    var project := Get(Normalise(added).data, "project");
    var newer := Get(Normalise(updated).data, "project");
    var afterAdd := AddProject(s, token, input, Answered(added)).after;
    RemoveAfterAppend(s.items, project, id);
    assert afterAdd.items == AppendIfPresent(s.items, project);
    UpdatedItems(afterAdd, token, id, updates, updated);
    ReplaceTouchesOnlyId(afterAdd.items, id, newer);
  }

  /** The list `updateProject` leaves, as a `ListCache` update. */
  lemma UpdatedItems(s: CacheState, token: Value, id: int, updates: Value, updated: Response)
    requires HasId(Get(Normalise(updated).data, "project"), id)
    ensures UpdateProject(s, token, id, updates, Answered(updated)).after.items
              == ReplaceById(s.items, id, Get(Normalise(updated).data, "project"))
  {
    var newer := Get(Normalise(updated).data, "project");
    var a := UpdateProject(s, token, id, updates, Answered(updated)).after.items;
    var b := ReplaceById(s.items, id, newer);
    assert Truthy(newer) by { assert Get(newer, "id") != Undefined; }
    assert |a| == |b|;
    forall i | 0 <= i < |a| ensures a[i] == b[i] { }
  }

  /** A failed delete answered over HTTP/2 (no reason text) with a body
      that has no `message` or `error` is reported as a success. */
  lemma SilentFailedDelete(s: CacheState, token: Value, projectId: int)
    ensures var t := DeleteProject(s, token, projectId, Answered(Response(500, "", None)));
      t.result == Resolved(true) && t.after.error == Null
  {
  }
}

=== FILE: UseScraping.dfy ===
/** The scraping hook (hooks/useScraping.tsx): a single "last results" slot
    with loading and error, two scrape operations that refill it and a
    save operation that never touches it. */
module UseScraping {
  import opened Wrappers
  import opened Json
  import opened ApiClient
  import opened Hooks

  datatype State = State(results: Value, loading: bool, error: Value)

  const Initial := State(Null, false, Null)

  const UnknownError := "An unknown error occurred"

  /** `resetState()`: loading, no error and no stale results. */
  function ResetState(s: State): State {
    State(Null, true, Null)
  }

  /** The `try`/`catch` body shared by `scrapeUrl` and `scrapeBatch`. */
  function Scrape(s: State, path: string, body: Value, token: Value, outcome: ApiClient.Outcome)
    : (t: Step<State, Value>)
    ensures t.request == Some(BuildRequest(path, SendOptions(POST, body, token)))
    ensures t.during == State(Null, true, Null)
    ensures !t.after.loading && t.result.Resolved?
    ensures outcome.Failed? ==>
      t.after == State(Null, false, CaughtMessage(outcome.thrown, UnknownError)) && t.result == Resolved(Null)
    ensures outcome.Answered? ==>
      var r := Normalise(outcome.response);
      && (Truthy(r.error) ==> t.after == State(Null, false, r.error) && t.result == Resolved(Null))
      && (!Truthy(r.error) ==> t.after.error == Null && t.result == Resolved(r.data))
      && (!Truthy(r.error) && Truthy(r.data) ==> t.after.results == r.data)
      && (!Truthy(r.data) ==> t.after.results == Null)
  {
    var req := BuildRequest(path, SendOptions(POST, body, token));
    var during := ResetState(s);
    match outcome
    case Failed(thrown) =>
      Step(Some(req), during, during.(loading := false, error := CaughtMessage(thrown, UnknownError)), Resolved(Null))
    case Answered(res) =>
      var r := Normalise(res);
      var settled := during.(loading := false);
      if Truthy(r.error) then Step(Some(req), during, settled.(error := r.error), Resolved(Null))
      else Step(Some(req), during, if Truthy(r.data) then settled.(results := r.data) else settled, Resolved(r.data))
  }

  /** `scrapeUrl(url)`: POST /api/scrape/url with `{url}`. */
  function ScrapeUrl(s: State, token: Value, url: string, outcome: ApiClient.Outcome): (t: Step<State, Value>)
    ensures t.request.Some? && t.request.value.url == "/api/scrape/url"
    ensures t.request.value.body == Some(Obj(map["url" := Str(url)]))
    ensures t == Scrape(s, "/api/scrape/url", Obj(map["url" := Str(url)]), token, outcome)
  {
    Scrape(s, "/api/scrape/url", Obj(map["url" := Str(url)]), token, outcome)
  }

  /** `scrapeBatch(keywords)`: POST /api/scrape/batch with `{keywords}`. */
  function ScrapeBatch(s: State, token: Value, keywords: string, outcome: ApiClient.Outcome): (t: Step<State, Value>)
    ensures t.request.Some? && t.request.value.url == "/api/scrape/batch"
    ensures t.request.value.body == Some(Obj(map["keywords" := Str(keywords)]))
    ensures t == Scrape(s, "/api/scrape/batch", Obj(map["keywords" := Str(keywords)]), token, outcome)
  {
    Scrape(s, "/api/scrape/batch", Obj(map["keywords" := Str(keywords)]), token, outcome)
  }

  /** `saveJobs(jobs)`: POST /api/scrape/save with `{jobs}`; returns the
      data or null, and never reads or writes the results slot. */
  function SaveJobs(s: State, token: Value, jobs: seq<Value>, outcome: ApiClient.Outcome): (t: Step<State, Value>)
    ensures t.request == Some(BuildRequest("/api/scrape/save", SendOptions(POST, Obj(map["jobs" := Arr(jobs)]), token)))
    ensures t.during == s.(loading := true, error := Null)
    ensures t.after.results == s.results && !t.after.loading
    ensures outcome.Failed? ==>
      t.after.error == CaughtMessage(outcome.thrown, UnknownError) && t.result == Resolved(Null)
    ensures outcome.Answered? ==>
      var r := Normalise(outcome.response);
      && (Truthy(r.error) ==> t.after.error == r.error && t.result == Resolved(Null))
      && (!Truthy(r.error) ==> t.after.error == Null && t.result == Resolved(r.data))
  {
    var req := BuildRequest("/api/scrape/save", SendOptions(POST, Obj(map["jobs" := Arr(jobs)]), token));
    var during := s.(loading := true, error := Null);
    var settled := during.(loading := false);
    match outcome
    case Failed(thrown) => Step(Some(req), during, settled.(error := CaughtMessage(thrown, UnknownError)), Resolved(Null))
    case Answered(res) =>
      var r := Normalise(res);
      if Truthy(r.error) then Step(Some(req), during, settled.(error := r.error), Resolved(Null))
      else Step(Some(req), during, settled, Resolved(r.data))
  }

  /** A scrape never shows results of an earlier scrape: after it, the
      slot holds this call's data or null. */
  lemma NoStaleResults(s: State, url: string, token: Value, outcome: ApiClient.Outcome)
    ensures var t := ScrapeUrl(s, token, url, outcome);
      t.after.results == Null || (outcome.Answered? && t.after.results == Normalise(outcome.response).data)
  {
  }
}

=== FILE: Wrappers.dfy ===
/** Optional values, used wherever the modelled code has "absent" as a case. */
module Wrappers {

  datatype Option<+T> = None | Some(value: T) {

    /** The value inside `Some`, or `default` when absent. */
    function GetOr(default: T): T {
      match this
      case Some(v) => v
      case None => default
    }
  }
}
